=== FILE: README.md ===
# CONCORDIA hypervisor core in Dafny

CONCORDIA is a small x86-64 hypervisor. It splits one machine into two cells:
- a Linux cell (cell 0), with memory 0–16 GiB and cores 0–5;
- a Windows cell (cell 1), with memory 16–32 GiB and cores 6–11.

Only one cell runs at a time. Pressing Ctrl+Alt+O switches cells: the running cell is hibernated to a store in memory and the other cell is resumed. This project models the control plane of that design as pure Dafny functions over immutable records, and proves the properties its code promises.

| module | models |
|---|---|
| `Common` | the C integer widths (`U8` … `U64`) and `Option`, which stands for a null pointer or "not found" |
| `Pci` | the configuration mechanism #1 address (section 3.2.2.3.2 of the PCI Local Bus Specification 3.0); the bus-major, device-minor scan of function 0; and the fixed-capacity table filled in scan order, which two scanners share |
| `Iommu` | AMD-Vi detection on bus 0; the capability-list walk that finds the MMIO base; GPU group construction; per-device ownership query and assignment; and enabling the IOMMU Control Register (offset 0x18, IommuEn bit 0, Coherent bit 17, per the AMD I/O Virtualization Technology specification) with read-back |
| `Memory` | address classification; the bump allocator (as written and corrected); page-table allocation; the identity-mapped 2 MiB page directory (Intel SDM Vol. 3A, 4-level paging); the region table |
| `Cpu` | core count from CPUID words; the APIC id; the Linux-core test; the MSR EDX:EAX split and join; the OR-only feature updates of CR4, XCR0 and EFER |
| `SystemManager` | the cell state machine: init, set/get active cell, hibernate (freeze, then save), resume (restore, then unfreeze), switch; the tick counter; 2 MiB block accounting |
| `InputManager` | scancode decoding; modifier flags, `last_key` and `key_count`; the Ctrl+Alt+O hotkey; interrupt handling; the USB keyboard table built from a bus scan |
| `Console` | `itoa` and `console_write_hex` as digit conversions, with a parser that inverts them; the VGA cell value and cursor of `console_write_char` |
| `Layout` | facts that the layout constants of several headers state together, including where the ranges overlap |

Hardware access is inline assembly in the system. Here it becomes parameters:
- configuration space is a function `ConfigSpace` from bus, device, function and register to a dword;
- CPUID is a function from leaf to registers;
- CR4, XCR0, EFER and the IOMMU Control Register are values passed in and returned.

Freezing, saving, restoring and unfreezing are placeholders in the system: they print messages, send no IPIs and copy no memory. Each appends an event to a log in `SystemState`, so their order can be stated. The static `ticks` counter of `get_timestamp` is a field of the state, and C unsigned wrap-around is written out as `% Word64` or `% Word32`.

Some behaviour of the code is easy to expect otherwise; the model follows the code:
- Freezing only prints. Its comment names waiting for acknowledgment (hypervisor/src/system_manager.c:81-84), but nothing waits or can fail, so the model has no failure path.
- GPUs for IOMMU groups are selected by vendor id (0x1002 AMD, 0x10DE NVIDIA), not by device class.
- A failed enable read-back only prints a message and leaves `enabled` set. `Iommu.EnableAmdVi` reports `VerifyFailed` and `Iommu.Init` does not change the state.
- The cell state header defines an Error state (hypervisor/src/system_manager.h:10), but no code assigns it, so the model has no such transition.
- The allocator's bound test can wrap around (see Findings).

## Model

| member | source | states |
|---|---|---|
| Pci.MakeAddressDecodes | hypervisor/src/pci.h:15-16 | every address has the enable bit 31 set and its two low bits clear; for bus < 256, dev < 32, func < 8 the bus, device, function and `offset & 0xFC` fields decode back exactly |
| Pci.MakeAddress | hypervisor/src/pci.h:15-16 | `PCI_MAKE_ADDRESS` always sets the enable bit 31; `Pci.MakeAddressDecodes` gives its fields |
| Pci.InlineAddressIsMakeAddress | hypervisor/src/iommu.c:10-15 | the address `pci_read_config` computes inline and ORs with 0x80000000 equals `PCI_MAKE_ADDRESS` |
| Pci.RegisterOf | hypervisor/src/iommu.c:10 | the register field `offset & 0xFC` is a multiple of 4 below 256, and at most 3 below the low byte of the offset |
| Pci.IndexInjective | hypervisor/src/iommu.c:95-96 | in-range (bus, device) slots have distinct scan positions below 256 × 32 |
| Pci.IndexOrderIsBusThenDevice | hypervisor/src/iommu.c:95-96 | for in-range slots, an earlier scan position means a lower bus, or the same bus and a lower device |
| Pci.AcceptedBeforeSound | hypervisor/src/iommu.c:95-106 | every slot the scan keeps is in range, visited before the current position, and has an accepted vendor |
| Pci.AcceptedBeforeIncreasing | hypervisor/src/iommu.c:95-96 | kept slots appear in strictly increasing bus-major, device-minor order |
| Pci.AcceptedBeforeComplete | hypervisor/src/iommu.c:95-106 | every in-range slot with an accepted vendor visited before the position is kept |
| Pci.Capped | hypervisor/src/iommu.c:107-108 | a fixed-capacity table holds min(found, capacity) entries, entry i made from the i-th found slot |
| Iommu.TypeCodesDistinct | hypervisor/src/iommu.h:7-27 | AMD-Vi and VT-d codes differ from each other and from the zero "none" value; IommuEn (bit 0) and Coherent (bit 17) are distinct single bits |
| Iommu.FirstAmdVi | hypervisor/src/iommu.c:42-48 | returns the lowest device on bus 0 at or above the start that reads vendor 0x1022 with device id in [0x1447, 0x1457], or None when there is none |
| Iommu.MmioBaseOf | hypervisor/src/iommu.c:66-68 | the MMIO base the driver assembles is 4 KiB aligned: its low 12 bits are zero |
| Iommu.MmioBaseHigh | hypervisor/src/iommu.c:67-68 | the upper 32 bits of the MMIO base are the high dword of the capability block |
| Iommu.MmioBaseLow | hypervisor/src/iommu.c:66-68 | the lower 32 bits of the MMIO base are the low dword with its bits 11:0 cleared |
| Iommu.WalkCapabilities | hypervisor/src/iommu.c:59-76 | a null capability pointer ends the walk, and a base the walk finds is 4 KiB aligned |
| Iommu.WalkFuelMonotone | hypervisor/src/iommu.c:59-76 | a walk that ends within some fuel ends the same way with more fuel, so the fuel bound does not change any finished answer |
| Iommu.Detect | hypervisor/src/iommu.c:37-83 | enabled is set iff some device 0..31 on bus 0 is an AMD-Vi controller; then the type is AMD-Vi; otherwise only `enabled` changes, to false; groups are untouched; an unfinished walk happens only when a controller exists |
| Iommu.DetectUsesLowestController | hypervisor/src/iommu.c:42-77 | the MMIO base comes from the lowest-numbered AMD-Vi device |
| Iommu.DetectKeepsBaseAtEndOfList | hypervisor/src/iommu.c:42-77 | when the lowest controller's capability list ends without the IOMMU capability, the controller is recorded and the base address is left as it was |
| Iommu.FirstAmdViIsLowest | hypervisor/src/iommu.c:42-48 | the search stops exactly at the first controller at or above its start |
| Iommu.ScannedUpTo | hypervisor/src/iommu.c:95-141 | the group table during the scan never holds more than 64 groups |
| Iommu.ScannedUpToIsCapped | hypervisor/src/iommu.c:95-141 | the loop-shaped table is the first 64 GPU slots in scan order, each made into its group |
| Iommu.ScannedGroups | hypervisor/src/iommu.c:95-143 | the final table has min(GPUs, 64) groups, group i built from the i-th GPU slot |
| Iommu.ScannedGroupsShape | hypervisor/src/iommu.c:108-117 | group i has id i, exactly one device at function 0, and the group flag equal to the device flag |
| Iommu.ScannedGroupsOwnership | hypervisor/src/iommu.c:106-117 | each group's device is an in-range GPU slot, owned by Linux iff its vendor is 0x1002 (AMD) and by Windows for 0x10DE (NVIDIA) |
| Iommu.ScannedGroupsOrdered | hypervisor/src/iommu.c:95-96 | groups appear in bus-major, device-minor scan order |
| Iommu.ScannedGroupsComplete | hypervisor/src/iommu.c:95-107 | with fewer than 64 groups, every GPU on buses 0..255 has a group |
| Iommu.TwoVendorsTwoOwners | hypervisor/src/iommu.c:116-117 | one AMD and one NVIDIA GPU give two groups owned by different cells |
| Iommu.SetupDeviceGroups | hypervisor/src/iommu.c:89-149 | the nested scan loop leaves exactly the reference table, within the array capacities, and changes nothing else |
| Iommu.LookupInDevices | hypervisor/src/iommu.c:153-158 | None iff no device of the group has the address; otherwise the flag of the first device in the group that has it |
| Iommu.LookupInGroups | hypervisor/src/iommu.c:151-161 | None iff no group lists the address; otherwise the flag of the first matching device in group order: no earlier group holds a match, and no earlier device of its group does |
| Iommu.IsLinuxDevice | hypervisor/src/iommu.c:151-162 | an unlisted address is Windows (false); a listed one answers the flag of its first match in group order; so when every match has the same owner the answer is that owner, and a true answer comes from a matching Linux device |
| Iommu.FirstInGroupsUnique | hypervisor/src/iommu.c:151-162 | the first match in group order is unique, so the answer of the query is determined |
| Iommu.Assign | hypervisor/src/iommu.c:164-188 | every matching device gets the requested owner, and so does each group holding one; all other devices, group sizes, the group count, base, type and enabled flag are unchanged; capacities are kept |
| Iommu.AssignToLinux | hypervisor/src/iommu.c:164-175 | afterwards the query answers Linux for the address iff the table lists it |
| Iommu.AssignToWindows | hypervisor/src/iommu.c:177-188 | afterwards the query answers Windows for the address |
| Iommu.LastAssignmentWins | hypervisor/src/iommu.c:164-188 | after two assignments of a listed device, the query returns the second owner |
| Iommu.AssignmentOrder | hypervisor/src/iommu.c:164-188 | Linux then Windows queries as Windows; Windows then Linux queries as Linux |
| Iommu.AssignLeavesOthers | hypervisor/src/iommu.c:164-188 | assigning one address does not change the query for any other address |
| Iommu.AssignKeepsGroupsAgreeing | hypervisor/src/iommu.c:169-172 | on single-device groups, assignment keeps each group's flag equal to its device's flag |
| Iommu.ScannedGroupsAgree | hypervisor/src/iommu.c:110-117 | the scanned table starts with single-device groups whose flags agree with their devices |
| Iommu.EnableAmdVi | hypervisor/src/iommu.c:190-215 | nothing is written unless enabled with type AMD-Vi; the value written to the Control Register has IommuEn and Coherent set and every other bit as read; success iff the read-back has IommuEn |
| Iommu.ControlRegisterAddress | hypervisor/src/iommu.c:199 | for a 4 KiB-aligned MMIO base, as detection stores, the Control Register sits at offset 0x18 of the base page |
| Iommu.Init | hypervisor/src/iommu.c:237-258 | it finishes iff detection does; then the state is the detected one (base, type, enabled) with, when enabled, the scanned groups, and the enable outcome is exactly `Iommu.EnableAmdVi` on that state; without a controller the state is the input with `enabled` cleared and nothing is enabled |
| Memory.AddressClassification | hypervisor/src/memory.c:140-146 | no address is in both cells; below 32 GiB each address is in exactly one, the first 16 GiB in Linux; from 32 GiB on in neither |
| Memory.IsLinuxAddress | hypervisor/src/memory.c:140-142 | an address is Linux exactly when it lies below 16 GiB |
| Memory.IsWindowsAddress | hypervisor/src/memory.c:144-146 | an address is Windows exactly when it lies from 16 GiB up to below 32 GiB |
| Memory.AllocAsWritten | hypervisor/src/memory.c:148-158 | a granted request returns the old cursor and moves it by size modulo 2^64; a refusal leaves the heap |
| Memory.AllocAsWrittenEscapesHeap | hypervisor/src/memory.c:150-155 | from the initial heap a request of 2^64 − 4096 bytes wraps the bound test, is granted, and leaves the cursor below the heap start |
| Memory.Alloc | hypervisor/src/memory.c:148-158 | with the intended bound test, refusal iff the request does not fit before the heap end; refusal leaves the heap; a grant returns the old cursor and advances it by exactly size, never past the end |
| Memory.AllocAgreesWithoutWrap | hypervisor/src/memory.c:150-157 | when cursor + size does not wrap, the code as written and the corrected allocator agree |
| Memory.AllocSeries | hypervisor/src/memory.c:148-158 | with the corrected allocator `Memory.Alloc`, a series of requests keeps the heap valid and never moves the cursor back |
| Memory.AllocSeriesDisjoint | hypervisor/src/memory.c:154-157 | with the corrected allocator `Memory.Alloc`, each granted block lies inside the space the series handed out, and earlier blocks end before later ones begin |
| Memory.Free | hypervisor/src/memory.c:160-163 | freeing changes nothing |
| Memory.AllocTable | hypervisor/src/memory.c:34-41 | a page table is a 4096-byte allocation with the same bound test as `memory_alloc` |
| Memory.AllocPageTable | hypervisor/src/memory.c:34-48 | on success the table has 512 zero entries; on failure no table and the heap unchanged |
| Memory.PdEntry | hypervisor/src/memory.c:81-84 | the low 21 bits of every page-directory entry are exactly the four flags |
| Memory.PdEntryIdentity | hypervisor/src/memory.c:81-84 | masking off the low 21 bits of entry k gives k × 2 MiB; the low bits hold exactly PRESENT, WRITE, PSE and GLOBAL; NX is clear |
| Memory.PdEntryPageNumber | hypervisor/src/memory.c:81-84 | bits 21 and up of entry k hold k, so the directory maps the first 1 GiB to itself |
| Memory.SetupPaging | hypervisor/src/memory.c:53-84 | the tables are built iff three 4 KiB tables fit; the three tables sit at consecutive 4 KiB addresses; PML4[0] and PDP[0] link to the next table and all other entries are zero; PD entry k maps page k; only the heap cursor changes; on failure the cursor is unchanged when the PML4 does not fit, one table further when the PDP does not, and two tables further when only the PD does not |
| Memory.FillDirectory | hypervisor/src/memory.c:80-84 | the loop fills all 512 page-directory entries, entry k with the identity entry for page k |
| Memory.InitialHeapFitsPaging | hypervisor/src/memory.c:6-8 | the static heap is valid and has room for the three tables |
| Memory.CellBoundaries | hypervisor/src/memory.c:97-124 | three regions: region 0 contains exactly the Linux addresses, region 1 exactly the Windows addresses, region 2 exactly the hypervisor range; none allocated; names fit 32 bytes |
| Cpu.DetectCores | hypervisor/src/cpu.c:53-72 | the count is never 0; below leaf 0BH it is leaf 01H EBX[23:16] (≤ 255), otherwise leaf 0BH EBX[15:0] (≤ 65535); it is that field when the field is 2 or more, and 1 exactly when the field is 0 or 1 |
| Cpu.CountCanExceedMaxCpus | hypervisor/src/cpu.c:69-71 | a processor that reports 255 threads yields a count above `MAX_CPUS` |
| Cpu.ZeroFieldIsOneCore | hypervisor/src/cpu.c:59-71 | a zero field is reported as one core on either path |
| Cpu.NonZeroFieldIsCount | hypervisor/src/cpu.c:59-71 | a non-zero field is the count, on either path |
| Cpu.ApicId | hypervisor/src/cpu.c:74-78 | the APIC id is at most 0xFF |
| Cpu.ApicIdIsTopByte | hypervisor/src/cpu.c:74-78 | the APIC id with the low 24 bits of EBX rebuilds EBX, so it is EBX[31:24] |
| Cpu.CellOf | hypervisor/src/cpu.c:80-82 | a core is labelled Linux iff its id is at most 5 |
| Cpu.CellOfAgreesWithRanges | hypervisor/src/cpu.c:153-157 | ids 0..11 are labelled with the cell whose range holds them; ids 12 and up are labelled Windows though outside the Windows range |
| Cpu.CoreRangesPartition | hypervisor/src/cpu.h:6-10 | the two inclusive ranges are disjoint, cover exactly 0..11, hold six cores each, and lie below `MAX_CPUS` |
| Cpu.Split | hypervisor/src/cpu.c:28-32 | the EAX/EDX halves `write_msr` sends join back to the value |
| Cpu.Join | hypervisor/src/cpu.c:22-26 | the high half of the value `read_msr` rebuilds is EDX |
| Cpu.JoinSplit | hypervisor/src/cpu.c:22-32 | joining the EDX:EAX halves of a split MSR value gives back the value |
| Cpu.SplitJoin | hypervisor/src/cpu.c:22-32 | splitting a joined value gives back the halves |
| Cpu.EnableFeatures | hypervisor/src/cpu.c:84-120 | the XCR0 high half is written back as read; `Cpu.EnableFeaturesCr4`, `Cpu.EnableFeaturesXcr0WithAvx` and `Cpu.EnableFeaturesEferWithNx` state the rest |
| Cpu.Cr4BitsMeaning | hypervisor/src/cpu.c:88-102 | the CR4 mask holds OSFXSR exactly with SSE, OSXSAVE exactly with AVX, and nothing else |
| Cpu.EnableFeaturesCr4 | hypervisor/src/cpu.c:87-102 | CR4 keeps every bit; it has OSFXSR iff it had it or SSE is present, OSXSAVE iff it had it or AVX is present; no other bit changes |
| Cpu.Xcr0GainsState | hypervisor/src/cpu.c:105-108 | with AVX, XCR0 has the SSE and AVX state bits set |
| Cpu.Xcr0KeepsBits | hypervisor/src/cpu.c:105-108 | with AVX, no XCR0 bit is cleared |
| Cpu.Xcr0KeepsOthers | hypervisor/src/cpu.c:105-108 | with AVX, XCR0 bits other than 1 and 2 are unchanged |
| Cpu.EnableFeaturesXcr0WithAvx | hypervisor/src/cpu.c:98-110 | with AVX, XCR0 gains the two state bits, keeps all others, and its high half is written back unchanged |
| Cpu.EnableFeaturesXcr0WithoutAvx | hypervisor/src/cpu.c:98-110 | without AVX, XCR0 is untouched |
| Cpu.SetEferReadBack | hypervisor/src/cpu.c:115-117 | reading EFER back after the write gives the old value with NXE OR-ed in |
| Cpu.EferReadBack | hypervisor/src/cpu.c:112-119 | with execute-disable support, EFER as read back is the old EFER OR NXE |
| Cpu.EferGainsNxe | hypervisor/src/cpu.c:112-119 | with execute-disable support, EFER has NXE set |
| Cpu.EferKeepsBits | hypervisor/src/cpu.c:112-119 | with execute-disable support, no EFER bit is cleared |
| Cpu.EferKeepsOthers | hypervisor/src/cpu.c:112-119 | with execute-disable support, EFER bits other than NXE are unchanged |
| Cpu.EnableFeaturesEferWithNx | hypervisor/src/cpu.c:112-119 | with execute-disable support, EFER gains NXE, keeps every bit and changes no other |
| Cpu.EnableFeaturesEferWithoutNx | hypervisor/src/cpu.c:112-119 | without execute-disable support, EFER is untouched |
| Cpu.SetCr4Twice | hypervisor/src/cpu.c:88-102 | setting the CR4 feature bits twice equals setting them once |
| Cpu.SetXcr0Twice | hypervisor/src/cpu.c:105-108 | setting the XCR0 state bits twice equals setting them once |
| Cpu.SetEferTwice | hypervisor/src/cpu.c:115-117 | setting NXE twice equals setting it once |
| Cpu.EnableFeaturesIdempotent | hypervisor/src/cpu.c:84-120 | running the feature enabling twice equals running it once, because it only ORs bits |
| Cpu.Init | hypervisor/src/cpu.c:137-170 | the report holds the detected count (never 0), the APIC id (at most 0xFF), the cell that `cpu_is_linux_core` gives it (Linux iff the id is in the Linux range) and the registers after `cpu_enable_features` |
| Cpu.InitTwice | hypervisor/src/cpu.c:137-170 | initialising again on the registers the first run left gives the same report |
| SystemManager.StateCodesDistinct | hypervisor/src/system_manager.h:7-10 | the four cell state codes are pairwise distinct |
| SystemManager.HibernationStoresAdjacent | hypervisor/src/system_manager.h:17-18 | the Windows store starts where the Linux store ends |
| SystemManager.OneRunningIsSingleRunning | hypervisor/src/system_manager.h:44-46 | the invariant "the active cell is a valid index, Running, and the other cell is not" holds iff the set of Running cells is exactly the active cell |
| SystemManager.Timestamp | hypervisor/src/system_manager.c:11-14 | returns the current tick and advances the counter by one modulo 2^64, changing nothing else |
| SystemManager.Init | hypervisor/src/system_manager.c:16-51 | cell 0 is active and Running and cell 1 Hibernated; the switch count is 0; each cell has its id, entry point, store address and store size and six cores, and keeps its block count; the invariant holds; the switch time is the current tick |
| SystemManager.SetActiveCell | hypervisor/src/system_manager.c:53-64 | id ≥ 2 or the active id changes nothing; otherwise only the active index changes; cell states never change |
| SystemManager.SetActiveCellBreaksInvariant | hypervisor/src/system_manager.c:53-64 | right after init, making cell 1 active leaves a Hibernated cell active, breaking the one-Running invariant |
| SystemManager.GetActiveCell | hypervisor/src/system_manager.c:66-68 | under the invariant the reported cell is a valid index and the Running cell |
| SystemManager.FrozenCoresAreCellCores | hypervisor/src/system_manager.c:78-79 | the exclusive core range [start, start + 6) named for a cell is exactly that cell's inclusive core range in the CPU partition |
| SystemManager.FreezeCores | hypervisor/src/system_manager.c:70-94 | only the event log changes, by at most the freeze event; an id of 2 or more changes nothing |
| SystemManager.UnfreezeCores | hypervisor/src/system_manager.c:96-119 | only the event log changes, by at most the unfreeze event; an id of 2 or more changes nothing |
| SystemManager.BlocksFor | hypervisor/src/system_manager.c:134 | when the quotient fits 32 bits, the block count is the number of whole 2 MiB blocks in the store size |
| SystemManager.SaveCellState | hypervisor/src/system_manager.c:121-141 | for id < 2 the log gains the save event, the cell keeps everything but its block count, which counts the whole 2 MiB blocks of its store, and the other cell is unchanged; nothing else in the state changes; an id of 2 or more changes nothing |
| SystemManager.RestoreCellState | hypervisor/src/system_manager.c:143-160 | only the event log changes, by at most the restore event; an id of 2 or more changes nothing |
| SystemManager.SixteenGiBIsBlocks | hypervisor/src/system_manager.c:134 | a 16 GiB store is exactly 8192 blocks |
| SystemManager.HibernateCell | hypervisor/src/system_manager.c:162-181 | for id < 2: the log gains freeze then save; that cell becomes Hibernated with its block count recorded; the other cell and everything else are unchanged; id ≥ 2 changes nothing |
| SystemManager.ResumeCell | hypervisor/src/system_manager.c:183-202 | for id < 2: the log gains restore then unfreeze; that cell becomes Running with its block count untouched; the other cell and everything else are unchanged; id ≥ 2 changes nothing |
| SystemManager.SwitchCells | hypervisor/src/system_manager.c:204-229 | the other cell becomes active; the count rises by one modulo 2^64; the switch time is the current tick; the log gains freeze, save of the old cell then restore, unfreeze of the new; the old cell is Hibernated with the block count of its store and otherwise unchanged, the new one Running and otherwise unchanged; with an invalid active index only cell 0 is resumed |
| SystemManager.HibernateBeforeResume | hypervisor/src/system_manager.c:215-221 | in the log of a switch, the old cell is frozen and saved strictly before the new cell is restored and unfrozen, and nothing else is logged |
| SystemManager.SwitchKeepsOneRunning | hypervisor/src/system_manager.c:204-226 | a switch from a state with one Running cell, the active one, leads to such a state |
| SystemManager.SwitchesKeepOneRunning | hypervisor/src/system_manager.c:216-224 | any number of switches keeps the invariant |
| SystemManager.OneRunningAfterAnySwitches | hypervisor/src/system_manager.c:36-38 | from init, after any number of switches exactly one cell is Running and it is the active one |
| SystemManager.TwoSwitchesReturn | hypervisor/src/system_manager.c:205-225 | two switches restore the active cell, add exactly 2 to the switch count modulo 2^64, and leave that cell Running and the other Hibernated |
| SystemManager.SwitchTimeIncreases | hypervisor/src/system_manager.c:226 | while the tick counter does not wrap, each switch strictly increases the last switch time and keeps the clock ahead of it |
| SystemManager.InitClockAhead | hypervisor/src/system_manager.c:40-41 | after init the tick counter is ahead of the switch time, unless it wraps |
| InputManager.KeyCodesDistinct | hypervisor/src/input_manager.h:12-21 | every key code is below the release bit 0x80, and O, LCtrl, LAlt, LShift and RShift are pairwise distinct |
| InputManager.KeyboardStatesDistinct | hypervisor/src/input_manager.h:22-24 | the keyboard states are pairwise distinct |
| InputManager.ReleaseIsHighBit | hypervisor/src/input_manager.c:104 | a scancode is a release iff it is 0x80 or more |
| InputManager.KeyBelowReleaseBit | hypervisor/src/input_manager.c:105 | the decoded key is below 0x80 |
| InputManager.ScancodeRebuilt | hypervisor/src/input_manager.c:104-105 | the scancode is its key, with the release bit OR-ed back in for a release |
| InputManager.PressAndReleaseOfKey | hypervisor/src/input_manager.c:104-105 | a key code below 0x80 is a press of itself, and with bit 7 set, a release of itself |
| InputManager.ModifierKeyDrivesFlag | hypervisor/src/input_manager.c:109-133 | a key is a modifier key iff it drives some modifier flag |
| InputManager.ProcessKey | hypervisor/src/input_manager.c:102-140 | each flag is set on a press and cleared on a release of its keys (both shifts share one) and otherwise unchanged; a non-modifier press becomes the last key and adds one modulo 2^32 to the count; anything else leaves both |
| InputManager.FlagUntouched | hypervisor/src/input_manager.c:109-133 | a run with no scancode for a flag's keys leaves that flag as it was |
| InputManager.FlagFollowsLastEvent | hypervisor/src/input_manager.c:107-133 | after a run, a flag is set iff the last scancode for its keys was a press |
| InputManager.KeyCountCountsPresses | hypervisor/src/input_manager.c:134-137 | after a run, the key count has grown by the number of non-modifier presses, modulo 2^32 |
| InputManager.LastKeyIsLastPress | hypervisor/src/input_manager.c:134-137 | after a run, the last key is the key of the last non-modifier press, or unchanged when there is none |
| InputManager.CheckHotkey | hypervisor/src/input_manager.c:142-156 | when Ctrl and Alt are held and O is the last key, the cells switch and the last key is cleared; otherwise nothing changes; afterwards the hotkey is never pending |
| InputManager.HotkeyFiresOnce | hypervisor/src/input_manager.c:151-154 | a second check right after a first one changes nothing |
| InputManager.ShiftIrrelevant | hypervisor/src/input_manager.c:144-146 | the shift flag has no effect on the switch |
| InputManager.CtrlAltOIsHotkey | hypervisor/src/input_manager.c:124-146 | pressing Ctrl, Alt, then O from cleared keys makes the hotkey pending |
| InputManager.ReleasedCtrlIsNoHotkey | hypervisor/src/input_manager.c:107-146 | releasing Ctrl before pressing O leaves the hotkey not pending |
| InputManager.Init | hypervisor/src/input_manager.c:22-38 | a ready USB keyboard with cleared keys, no interrupts and an empty device table |
| InputManager.ReadKey | hypervisor/src/input_manager.c:92-100 | the key is always 0, because the static key is never assigned; the interrupt count rises by one modulo 2^32 |
| InputManager.HandleInterrupt | hypervisor/src/input_manager.c:204-221 | a keyboard that is not ready changes nothing; otherwise the interrupt count rises by one and the key state is that of processing scancode 0; nothing else in the device changes, its type included |
| InputManager.InterruptNeverSwitches | hypervisor/src/input_manager.c:210-216 | because the key read is 0, a counted non-O press, an interrupt clears the last key before the hotkey check and never switches cells |
| InputManager.NoDeviceIsNoKeyboard | hypervisor/src/input_manager.c:52-56 | an empty slot (vendor 0xFFFF) is never a keyboard |
| InputManager.Byte | hypervisor/src/input_manager.c:60-61 | a loop counter below 256 is stored unchanged in its byte field |
| InputManager.UsbScannedUpTo | hypervisor/src/input_manager.c:46-74 | the keyboard table during the scan never holds more than 16 entries |
| InputManager.UsbScannedUpToIsCapped | hypervisor/src/input_manager.c:46-74 | the loop-shaped table is the first 16 keyboard slots in scan order, each made into its entry |
| InputManager.ScannedKeyboards | hypervisor/src/input_manager.c:46-78 | the final table has min(keyboards, 16) entries, entry i made from the i-th keyboard slot |
| InputManager.ScannedKeyboardsSound | hypervisor/src/input_manager.c:56-62 | each entry is a Logitech, Microsoft or 0x1234 device found at its own in-range bus and device, with its vendor and product id and endpoint 0x81 |
| InputManager.ScannedKeyboardsOrdered | hypervisor/src/input_manager.c:46-47 | entries appear in bus-major, device-minor order of their own bus and device fields, as the scan visits them |
| InputManager.ScannedKeyboardsComplete | hypervisor/src/input_manager.c:46-56 | with fewer than 16 entries, every keyboard on buses 0..255 has one |
| InputManager.DetectUsbDevices | hypervisor/src/input_manager.c:40-90 | the nested scan loop leaves exactly the reference table within capacity; with no keyboard the state is Ready, otherwise unchanged; nothing else changes |
| Console.DigitCharIsTable | hypervisor/src/console.c:90 | digit d is the d-th character of "0123456789abcdef" |
| Console.DigitRoundTrip | hypervisor/src/console.c:90 | digit values and digit characters are inverse to each other |
| Console.Digits | hypervisor/src/console.c:106-109 | every character is a digit below the base, and the string is empty iff the value is 0 |
| Console.NoLeadingZero | hypervisor/src/console.c:106-117 | the digits of a positive value never start with '0' |
| Console.ParseDigits | hypervisor/src/console.c:106-117 | parsing the digits of n in the base gives back n |
| Console.DigitsParse | hypervisor/src/console.c:106-117 | every digit string without a leading zero is the digits of its value, so the conversion is a bijection onto such strings |
| Console.DigitsBound | hypervisor/src/console.c:106-108 | a value below base^k has at most k digits |
| Console.IntDigitsBound | hypervisor/src/console.c:91-108 | a positive `int` has at most 31 digits in any base from 2 to 16, so the 33-byte scratch buffer never overflows |
| Console.CollectDigits | hypervisor/src/console.c:106-109 | the first loop leaves the digits least significant first: reversed, they are the digits of the value |
| Console.CopyReversed | hypervisor/src/console.c:115-118 | the second loop writes the buffer back to front after the prefix |
| Console.Itoa | hypervisor/src/console.c:89-119 | the output is "0" for zero, the digits for a positive value, '-' and the digits of the magnitude for a negative value in base 10, and empty for other negatives; at most 32 characters |
| Console.FormattedPositive | hypervisor/src/console.c:106-118 | for a positive value the output has no leading zero and parses back to the value |
| Console.FormattedNegative | hypervisor/src/console.c:95-117 | for a negative value in base 10 the output is '-' followed by digits that parse back to the magnitude |
| Console.FormattedNegativeOtherBase | hypervisor/src/console.c:95-118 | for a negative value in any base but 10 the output is empty |
| Console.WriteHex | hypervisor/src/console.c:121-139 | the loop fills the buffer from its end and emits exactly the hex form of the value ("0" for zero), never more than 16 characters |
| Console.HexParsesBack | hypervisor/src/console.c:127-138 | the hex output parses back to the value, has 1 to 16 digits, and has no leading zero unless the value is 0 |
| Console.VgaCell | hypervisor/src/console.c:69 | the intended cell holds the character byte in its low byte |
| Console.VgaCellColour | hypervisor/src/console.c:69 | the intended cell holds colour 0x0F in its high byte |
| Console.VgaCellAsWrittenAscii | hypervisor/src/console.c:69 | for characters below 0x80 the code as written stores the intended cell |
| Console.VgaCellAsWrittenHighByte | hypervisor/src/console.c:69 | for bytes 0x80 and up the code as written stores 0xFF in the colour byte |
| Console.VgaCellSignExtension | hypervisor/src/console.c:69 | byte 0x80 is stored as 0xFF80 instead of 0x0F80 |
| Console.PositionOnScreen | hypervisor/src/console.c:68 | with col < 80 and row ≤ 24 the index row × 80 + col is below 2000 |
| Console.Blank | hypervisor/src/console.c:11-13 | the initial cursor is valid and at position 0 |
| Console.WriteChar | hypervisor/src/console.c:61-81 | a newline keeps the cells, resets col to 0 and moves down one row, staying on the last; another character is stored at the cursor, which advances, or stays at the start of the last line past the end; the cursor stays on screen |
| Console.WriteChars | hypervisor/src/console.c:61-81 | a run of `console_write_char` calls, one per character, keeps the cursor on the screen |
| Console.WriteCharStores | hypervisor/src/console.c:61-81 | a character other than a newline, written before the last cell, is stored at the cursor and moves the cursor exactly one cell on |
| Console.WriteCharsAdvances | hypervisor/src/console.c:61-81 | a run without newlines that fits on the screen moves the cursor on by its length |
| Console.WriteCharsStores | hypervisor/src/console.c:61-81 | such a run leaves its `i`-th character in the cell `i` places after the starting cursor |
| Console.WriteCharsKeeps | hypervisor/src/console.c:61-81 | such a run leaves every cell outside the span it covers unchanged |
| Console.WriteCharsPlacesText | hypervisor/src/console.c:61-81 | a run without newlines that fits on the screen advances the cursor by its length, stores each character in the cell it passes, and changes no other cell |
| Layout.CellsTileMemory | hypervisor/src/memory.h:7-16 | the Windows cell starts where Linux ends, and the two make up all 32 GiB |
| Layout.StoresHoldCells | hypervisor/src/system_manager.h:14-15 | each hibernation store is at least as large as its cell's memory |
| Layout.BlocksDivideCells | hypervisor/src/memory.h:8-23 | the 2 MiB page divides both 16 GiB cell sizes exactly, and the block count covers the cell with nothing left over |
| Layout.FlagsBelowPageBits | hypervisor/src/memory.h:27-35 | PRESENT, WRITE, PSE and GLOBAL all lie below bit 21 |
| Layout.FlagsKeepAlignedAddress | hypervisor/src/memory.h:27-35 | OR-ing those flags into a 2 MiB-aligned address leaves the address bits intact |
| Layout.CoreRangesMatchCells | hypervisor/src/cpu.h:6-10 | each core range holds six cores, as many as `active_core_count`; the Windows range starts right after Linux; both fit below `MAX_CPUS` |
| Layout.HypervisorInsideLinux | hypervisor/src/memory.h:12-19 | the hypervisor range lies inside the Linux range, so it is not disjoint from the cells |
| Layout.LinuxStoreOverlapsBothCells | hypervisor/src/system_manager.h:13-18 | the Linux store starts in Linux memory and ends in Windows memory |
| Layout.WindowsStorePastMemory | hypervisor/src/system_manager.h:13-18 | the Windows store runs past the end of the 32 GiB |
| Layout.HibernationBaseInsideHypervisor | hypervisor/src/system_manager.h:12-13 | the hibernation base is 1 MiB below the end of hypervisor memory, so the first MiB of the Linux store is hypervisor memory |
| Layout.IntendedBaseAfterHypervisor | hypervisor/src/system_manager.h:12-13 | with the base at the end of hypervisor memory, no store address is hypervisor memory |

## Left out

- Inline assembly (port I/O, MMIO, MSR, CR and XCR access, CPUID) becomes parameters; the hardware behind it is not modelled.
- Console and serial output: `console_write_string`, `serial_*`, `console_init` and every `*_print_status` and log message. `console_write_string` sends characters to the serial port only and never touches the VGA screen.
- `dashboard.c`, `monitor.c`, `kernel_loader.c` and `main.c`: presentation, simulated telemetry, a stub loader and boot sequencing, outside the core.
- `cpu_setup_gdt` and `cpu_setup_idt`: they only print messages. The `cpu_list` table of `cpu_info_t` is never filled, so it is not modelled.
- The CR3 and CR4 writes in `memory_setup_paging`, and `memory_init`, which calls only `memory_setup_cell_boundaries`. The memory behind a pointer (table contents, `memcpy`) is modelled as sequences returned alongside the heap.
- `cell_t.context`: nothing reads or writes it.
- `input_manager_route_input` has no effect in the code, so handling an interrupt does nothing after the hotkey check.
- The `pci_write_config` write itself; its address is the same as the read's, which `Pci.InlineAddressIsMakeAddress` covers.
- Pci.MakeAddressDecodes: the decoding is stated only for in-range bus, device and function; out-of-range values alias into neighbouring fields, and no caller passes one.
- Iommu.Detect: the capability walk takes a fuel bound. With a cyclic list the C loop never returns; the model returns None when the fuel runs out, and `Iommu.WalkFuelMonotone` shows that fuel never changes a finished answer.
- Iommu.Init: `finished` is false exactly when the walk runs out of fuel; the model states nothing about that case beyond "nothing changed".
- Memory.SetupPaging: requires a valid heap ending at or below `HYPERVISOR_MEMORY_END`, which the static heap meets. Near 2^64 the wrapping bound test of `alloc_page_table` would matter.
- SystemManager.SwitchTimeIncreases: requires that the 64-bit tick counter does not wrap during the switch; when it wraps, the time stamp falls back to 0.
- SystemManager.InitClockAhead: requires the same absence of wrap.
- SystemManager.HibernationStoresAdjacent: states adjacency only; disjointness follows because both sizes are positive.
- SystemManager.BlocksFor: states the block count only when it fits in 32 bits, as for every store size the code uses; beyond that the C assignment truncates, which the model computes but does not describe.
- Console.Itoa: excludes `INT_MIN` in base 10, where the C negation overflows, and bases outside 2..16, which no caller passes (every call uses base 10 or 16). Base 0 divides by zero; base 1 never ends; base 17 emits the table's NUL terminator as a digit; bases of 18 and up can read past the table; a negative base stops after one digit, because C division truncates toward zero.
- Console.WriteHex: models `value & 0xF` and `value >>= 4` as `% 16` and `/ 16`, which agree for unsigned values.
- Console.WriteChar: the serial copy of each character is not modelled, and characters are bytes. The stored cell is the corrected `VgaCell`; the code as written is `Console.VgaCellAsWritten` (see Findings).
- Console.WriteChars: states only that the cursor stays valid; `Console.WriteCharsPlacesText` states what a run without newlines writes.
- Layout.HypervisorInsideLinux, Layout.LinuxStoreOverlapsBothCells and Layout.WindowsStorePastMemory record overlaps in the header constants as facts. No code path uses these ranges for copies, so they are not Findings.

## Findings

| source | as written | input that shows it | evidently intended | confidence | as-written member | corrected member |
|---|---|---|---|---|---|---|
| hypervisor/src/memory.c:150 | `heap_current + size > heap_end` is a 64-bit sum that wraps, so a huge request passes the test | `memory_alloc(0xFFFFFFFFFFFFF000)` on the initial heap: it returns 0x100000 and leaves the cursor at 0xFF000, below the heap | a request is refused exactly when it does not fit between the cursor and the heap end | not executed | Memory.AllocAsWritten, Memory.AllocAsWrittenEscapesHeap | Memory.Alloc, Memory.AllocAgreesWithoutWrap |
| hypervisor/src/console.c:69 | `(VGA_COLOR << 8) \| c` with a signed `char c` sign-extends bytes 0x80 and up, overwriting the colour byte with 0xFF | `console_write_char((char)0x80)` stores 0xFF80 | the cell is 0x0F00 OR the character byte (0x0F80) | not executed | Console.VgaCellAsWritten, Console.VgaCellSignExtension | Console.VgaCell, Console.VgaCellColour |
| hypervisor/src/system_manager.h:12-13 | `HIBERNATION_BASE` is 0x10000000, though its comment places the store after hypervisor memory, which ends at 0x10100000 | address 0x10000000 is both hypervisor memory and the first byte of the Linux store | the base is at or after `HYPERVISOR_MEMORY_END` | not executed | Layout.HibernationBaseInsideHypervisor | Layout.IntendedBaseAfterHypervisor |

=== FILE: common.dfy ===
/** Small shared vocabulary: an optional value and the 64-bit word bound. */
module Common {

  /** A value that may be absent; stands in for a C null pointer or a "not found" return. */
  datatype Option<+T> = None | Some(value: T)

  /** 2^64: the modulus of C `uint64_t` arithmetic. */
  const Word64: int := 0x1_0000_0000_0000_0000

  /** 2^32: the modulus of C `uint32_t` arithmetic. */
  const Word32: int := 0x1_0000_0000

  /** The values a C `uint8_t` can hold. */
  type U8 = x: int | 0 <= x < 0x100

  /** The values a C `uint16_t` can hold. */
  type U16 = x: int | 0 <= x < 0x1_0000

  /** The values a C `uint32_t` can hold. */
  type U32 = x: int | 0 <= x < Word32

  /** The values a C `uint64_t` can hold. */
  type U64 = x: int | 0 <= x < Word64
}

=== FILE: console.dfy ===
/**
 * The console's pure parts: `itoa` and `console_write_hex` as digit
 * conversions with a parser that inverts them, and the VGA text cursor of
 * `console_write_char` as a bounded state machine over an 80 x 25 screen.
 */
module Console {
  import opened Common

  // ---------------------------------------------------------------- digits

  /** The digit table of `itoa` and `console_write_hex`. */
  const DigitTable: string := "0123456789abcdef"

  /** The values a C `int` can hold. */
  type I32 = x: int | -0x8000_0000 <= x < 0x8000_0000

  const IntMin: int := -0x8000_0000

  /** Bases the digit table covers. */
  predicate ValidBase(base: int)
  {
    2 <= base <= 16
  }

  /** The character for digit `d`: `0`-`9`, then lower-case `a`-`f`. */
  function DigitChar(d: nat): char
    requires d < 16
  {
    if d < 10 then ('0' as int + d) as char else ('a' as int + d - 10) as char
  }

  /** `DigitChar` is the C digit table. */
  lemma DigitCharIsTable(d: nat)
    requires d < 16
    ensures DigitChar(d) == DigitTable[d]
  {
  }

  /** The value of a digit character; 16 for anything that is not one. */
  function DigitValue(c: char): nat
  {
    if '0' <= c <= '9' then c as int - '0' as int
    else if 'a' <= c <= 'f' then c as int - 'a' as int + 10
    else 16
  }

  /** A digit character below `base`. */
  predicate IsDigit(c: char, base: nat)
  {
    DigitValue(c) < base
  }

  /** Characters and digit values are inverse to each other. */
  lemma DigitRoundTrip(d: nat, c: char)
    requires d < 16
    ensures DigitValue(DigitChar(d)) == d
    ensures IsDigit(c, 16) ==> DigitChar(DigitValue(c)) == c
  {
  }

  /** The digits of `n` in `base`, most significant first, with no leading zero; empty for 0. */
  function Digits(n: nat, base: nat): (s: string)
    requires ValidBase(base)
    ensures forall i :: 0 <= i < |s| ==> IsDigit(s[i], base)
    ensures n > 0 <==> |s| > 0
    decreases n
  {
    if n == 0 then []
    else
      DigitRoundTrip(n % base, '0');
      DivShrinks(n, base);
      Digits(n / base, base) + [DigitChar(n % base)]
  }

  /** Whole division and remainder by a base split a number into its last digit and the rest. */
  lemma DivMod(n: nat, base: nat)
    requires ValidBase(base)
    ensures (n / base) * base + n % base == n && n % base < base
  {
  }

  /** The value of a string of digits in `base`. */
  function Parse(s: string, base: nat): nat
    decreases |s|
  {
    if s == [] then 0 else Parse(s[..|s| - 1], base) * base + DigitValue(s[|s| - 1])
  }

  /** Parsing one more digit multiplies by the base and adds the digit. */
  lemma ParseAppend(s: string, c: char, base: nat)
    ensures Parse(s + [c], base) == Parse(s, base) * base + DigitValue(c)
  {
    assert (s + [c])[..|s|] == s;
  }

  /** The digits of a positive number never start with `0`. */
  lemma {:induction false} NoLeadingZero(n: nat, base: nat)
    requires ValidBase(base) && n > 0
    ensures Digits(n, base)[0] != '0'
    decreases n
  {
    if n / base > 0 {
      NoLeadingZero(n / base, base);
    } else {
      assert Digits(n, base) == [DigitChar(n % base)];
    }
  }

  /** Parsing the digits of `n` gives back `n`. */
  lemma {:induction false} ParseDigits(n: nat, base: nat)
    requires ValidBase(base)
    ensures Parse(Digits(n, base), base) == n
    decreases n
  {
    if n > 0 {
      DivMod(n, base);
      ParseDigits(n / base, base);
      ParseDigitsStep(n, n / base, n % base, base);
    }
  }

  /** One step of `ParseDigits`: the last digit recombines with the parsed rest. */
  lemma ParseDigitsStep(n: nat, q: nat, r: nat, base: nat)
    requires ValidBase(base) && n > 0 && r < base && q * base + r == n
    requires Digits(n, base) == Digits(q, base) + [DigitChar(r)]
    requires Parse(Digits(q, base), base) == q
    ensures Parse(Digits(n, base), base) == n
  {
    ParseAppend(Digits(q, base), DigitChar(r), base);
    DigitRoundTrip(r, '0');
  }

  /** A digit string without a leading zero that is not empty has a positive value. */
  lemma {:induction false} ParsePositive(s: string, base: nat)
    requires ValidBase(base) && |s| > 0 && s[0] != '0'
    requires forall i :: 0 <= i < |s| ==> IsDigit(s[i], base)
    ensures Parse(s, base) > 0
    decreases |s|
  {
    var init := s[..|s| - 1];
    if |s| > 1 {
      assert init[0] == s[0];
      assert forall i :: 0 <= i < |init| ==> init[i] == s[i];
      ParsePositive(init, base);
      var p := Parse(init, base);
      MulMonotone(1, base, p, p);
      assert Parse(s, base) == p * base + DigitValue(s[|s| - 1]);
    } else {
      assert init == [];
      assert DigitValue(s[0]) != 0;
    }
  }

  /** Whole division by a base undoes `q * base + r` for a digit `r`. */
  lemma DivModDigit(q: nat, r: nat, base: nat)
    requires ValidBase(base) && r < base
    ensures (q * base + r) / base == q && (q * base + r) % base == r
  {
  }

  /** Every digit string without a leading zero is the digits of its value. */
  lemma {:induction false} DigitsParse(s: string, base: nat)
    requires ValidBase(base)
    requires |s| > 0 ==> s[0] != '0'
    requires forall i :: 0 <= i < |s| ==> IsDigit(s[i], base)
    ensures Digits(Parse(s, base), base) == s
    decreases |s|
  {
    if |s| > 0 {
      var p := s[..|s| - 1];
      var c := s[|s| - 1];
      var n := Parse(s, base);
      DivModDigit(Parse(p, base), DigitValue(c), base);
      DigitRoundTrip(0, c);
      DigitsParse(p, base);
      if p == [] {
        assert DigitValue(c) != 0;
      } else {
        ParsePositive(s, base);
      }
      assert n / base == Parse(p, base) && n % base == DigitValue(c);
      assert Digits(n, base) == Digits(Parse(p, base), base) + [c];
    }
  }

  /** `base` to the power `k`. */
  function Pow(base: nat, k: nat): nat
  {
    if k == 0 then 1 else base * Pow(base, k - 1)
  }

  /** Exponents add. */
  lemma {:induction false} PowAdd(base: nat, m: nat, n: nat)
    ensures Pow(base, m + n) == Pow(base, m) * Pow(base, n)
  {
    if m > 0 {
      PowAdd(base, m - 1, n);
      assert Pow(base, m + n) == base * Pow(base, m - 1 + n);
    }
  }

  /** Whole division by `b` of a number below `b * p` is below `p`. */
  lemma DivBelow(n: nat, b: nat, p: nat)
    requires b > 0 && n < b * p
    ensures n / b < p
  {
  }

  /** Division by a base of 2 or more makes a positive number smaller. */
  lemma DivShrinks(n: nat, b: nat)
    requires n > 0 && b >= 2
    ensures n / b < n
  {
  }

  /** A number below `base^k` has at most `k` digits. */
  lemma {:induction false} DigitsBound(n: nat, base: nat, k: nat)
    requires ValidBase(base) && n < Pow(base, k)
    ensures |Digits(n, base)| <= k
    decreases k
  {
    if n > 0 {
      assert Pow(base, k) == base * Pow(base, k - 1);
      DivBelow(n, base, Pow(base, k - 1));
      DigitsBound(n / base, base, k - 1);
      assert |Digits(n, base)| == |Digits(n / base, base)| + 1;
    }
  }

  /** Products of naturals grow with both factors. */
  lemma MulMonotone(x: nat, y: nat, z: nat, w: nat)
    requires x <= y && z <= w
    ensures x * z <= y * w
  {
    assert x * z <= y * z;
  }

  /** Powers grow with the base. */
  lemma {:induction false} PowBaseMonotone(a: nat, b: nat, k: nat)
    requires a <= b
    ensures Pow(a, k) <= Pow(b, k)
  {
    if k > 0 {
      PowBaseMonotone(a, b, k - 1);
      MulMonotone(a, b, Pow(a, k - 1), Pow(b, k - 1));
    }
  }

  /** A positive `int` has at most 31 digits in any base from 2 to 16. */
  lemma IntDigitsBound(n: nat, base: nat)
    requires ValidBase(base) && n < 0x8000_0000
    ensures |Digits(n, base)| <= 31
  {
    PowAdd(2, 10, 21);
    PowAdd(2, 10, 11);
    assert Pow(2, 10) == 1024 && Pow(2, 11) == 2048;
    PowBaseMonotone(2, base, 31);
    DigitsBound(n, base, 31);
  }

  // ---------------------------------------------------------------- itoa

  /** The string `itoa` writes: "0" for zero, a minus sign only in base 10, and nothing for other negatives. */
  function Formatted(value: int, base: nat): string
    requires ValidBase(base)
  {
    if value == 0 then "0"
    else if value > 0 then Digits(value, base)
    else if base == 10 then "-" + Digits(-value, base)
    else ""
  }

  /** The reverse of a sequence. */
  function Reverse<T>(xs: seq<T>): (r: seq<T>)
    ensures |r| == |xs|
    decreases |xs|
  {
    if xs == [] then [] else Reverse(xs[1..]) + [xs[0]]
  }

  /** Appending at the back of a sequence puts the element at the front of its reverse. */
  lemma {:induction false} ReverseAppend<T>(xs: seq<T>, x: T)
    ensures Reverse(xs + [x]) == [x] + Reverse(xs)
    decreases |xs|
  {
    if xs != [] {
      assert (xs + [x])[1..] == xs[1..] + [x];
      ReverseAppend(xs[1..], x);
    }
  }

  /**
   * The first loop of `itoa`: while the value is positive, append its
   * lowest digit to the scratch buffer and divide it by the base. The
   * buffer ends up holding the digits least significant first.
   */
  method CollectDigits(value: nat, base: nat) returns (buffer: seq<char>)
    requires ValidBase(base)
    ensures Reverse(buffer) == Digits(value, base)
  {
    var v := value;
    buffer := [];
    while v > 0
      invariant v >= 0
      invariant v > 0 ==> Digits(value, base) == Digits(v, base) + Reverse(buffer)
      invariant v == 0 ==> Digits(value, base) == Reverse(buffer)
      decreases v
    {
      var d := DigitChar(v % base);
      assert Digits(v, base) == Digits(v / base, base) + [d];
      assert Digits(value, base) == Digits(v / base, base) + ([d] + Reverse(buffer));
      ReverseAppend(buffer, d);
      buffer := buffer + [d];
      DivShrinks(v, base);
      v := v / base;
    }
  }

  /** The second loop of `itoa`: copy the buffer out from its end, after `prefix`. */
  method CopyReversed(prefix: string, buffer: seq<char>) returns (s: string)
    ensures s == prefix + Reverse(buffer)
  {
    s := prefix;
    var i := |buffer|;
    while i > 0
      invariant 0 <= i <= |buffer|
      invariant s == prefix + Reverse(buffer[i..])
    {
      assert buffer[i - 1..][1..] == buffer[i..];
      i := i - 1;
      s := s + [buffer[i]];
    }
    assert buffer[0..] == buffer;
  }

  /**
   * `itoa`: negate a negative value in base 10 and note the sign, write "0"
   * for zero, else collect the digits and copy them out after an optional
   * minus sign. Negating the least `int` in base 10 overflows, so that
   * input is excluded. Every caller passes base 10 or 16, and the base is
   * kept between 2 and 16: base 0 divides by zero, base 1 never ends, base
   * 17 emits the table's NUL terminator as a digit, bases of 18 and up can
   * read past the table, and a negative base stops after one digit (C
   * division truncates toward zero).
   */
  method Itoa(value: I32, base: int) returns (s: string)
    requires ValidBase(base)
    requires !(value == IntMin && base == 10)
    ensures s == Formatted(value, base)
    ensures |s| <= 32
  {
    var v: int := value;
    var negative := false;
    if value < 0 && base == 10 {
      negative := true;
      v := -(value as int);
    }
    if v == 0 {
      return "0";
    }
    var buffer: seq<char> := [];
    if v > 0 {
      buffer := CollectDigits(v, base);
      IntDigitsBound(v, base);
    }
    s := CopyReversed(if negative then "-" else "", buffer);
  }

  /** For a positive value, `itoa` writes digits with no leading zero that parse back to the value. */
  lemma FormattedPositive(value: I32, base: nat)
    requires ValidBase(base) && value > 0
    ensures Formatted(value, base) == Digits(value, base)
    ensures Parse(Formatted(value, base), base) == value
    ensures Formatted(value, base)[0] != '0'
  {
    ParseDigits(value, base);
    NoLeadingZero(value, base);
  }

  /** For a negative value, `itoa` in base 10 writes a minus sign before digits that parse back to the magnitude. */
  lemma FormattedNegative(value: I32)
    requires value < 0
    ensures Formatted(value, 10) == "-" + Digits(-(value as int), 10)
    ensures Parse(Formatted(value, 10)[1..], 10) == -(value as int)
  {
    var m: nat := -(value as int);
    var d := Digits(m, 10);
    assert Formatted(value, 10) == "-" + d;
    assert ("-" + d)[1..] == d;
    ParseDigits(m, 10);
  }

  /** For a negative value in any base but 10, `itoa` writes the empty string. */
  lemma FormattedNegativeOtherBase(value: I32, base: nat)
    requires ValidBase(base) && base != 10 && value < 0
    ensures Formatted(value, base) == ""
  {
  }

  // ---------------------------------------------------------------- hex

  /** What `console_write_hex` emits: "0" for zero, else the hex digits. */
  function Hex(value: U64): string
  {
    if value == 0 then "0" else Digits(value, 16)
  }

  /** `2^64` is `16^16`. */
  lemma WordIsPow16()
    ensures Pow(16, 16) == Word64
  {
    PowAdd(16, 8, 8);
    assert Pow(16, 8) == 0x1_0000_0000;
  }

  /** One step of the hex loop keeps its invariants. */
  lemma HexStep(value: nat, v: nat, i: nat, buf: string)
    requires 0 < v < Pow(16, i + 1)
    requires Digits(v, 16) + buf == Digits(value, 16)
    ensures v / 16 < Pow(16, i)
    ensures (if v / 16 > 0 then Digits(v / 16, 16) else []) + ([DigitChar(v % 16)] + buf) == Digits(value, 16)
  {
    DivBelow(v, 16, Pow(16, i));
    assert Digits(v, 16) == Digits(v / 16, 16) + [DigitChar(v % 16)];
  }

  /**
   * `console_write_hex`: fill a 16-character buffer from its end, one hex
   * digit (the low four bits) per step, while the value is non-zero and
   * there is room; then emit the filled tail. The room never runs out
   * first: a 64-bit value has at most 16 hex digits.
   */
  method WriteHex(value: U64) returns (out: string)
    ensures out == Hex(value)
    ensures |out| <= 16
  {
    if value == 0 {
      return "0";
    }
    WordIsPow16();
    var buf: seq<char> := [];
    var v: nat := value;
    var i := 15;
    while v > 0 && i >= 0
      invariant -1 <= i <= 15 && |buf| == 15 - i
      invariant v < Pow(16, i + 1)
      invariant (if v > 0 then Digits(v, 16) else []) + buf == Digits(value, 16)
    {
      HexStep(value, v, i, buf);
      buf := [DigitChar(v % 16)] + buf;
      v := v / 16;
      i := i - 1;
    }
    out := buf;
  }

  /** The hex output parses back to the value, has no leading zero unless it is "0", and has 1 to 16 digits. */
  lemma HexParsesBack(value: U64)
    ensures Parse(Hex(value), 16) == value
    ensures 1 <= |Hex(value)| <= 16
    ensures value > 0 ==> Hex(value)[0] != '0'
  {
    if value > 0 {
      ParseDigits(value, 16);
      NoLeadingZero(value, 16);
      WordIsPow16();
      DigitsBound(value, 16, 16);
    }
  }

  // ---------------------------------------------------------------- VGA

  const VgaWidth: nat := 80
  const VgaHeight: nat := 25
  const VgaColor: bv16 := 0x0F

  /** Screen cells. */
  const VgaCells: nat := VgaWidth * VgaHeight

  /**
   * The cell `console_write_char` stores, as written: the character is a
   * C `char`, signed on x86-64, so it is sign-extended to `int` before the
   * OR with the colour, and the result is cut to 16 bits.
   */
  function VgaCellAsWritten(c: bv8): bv16
  {
    var widened: bv32 := if c & 0x80 != 0 then 0xFFFF_FF00 | c as bv32 else c as bv32;
    ((((VgaColor as bv32) << 8) | widened) & 0xFFFF) as bv16
  }

  /** The intended cell: the colour in the high byte, the character byte in the low byte. */
  function VgaCell(c: bv8): (cell: bv16)
    ensures cell & 0xFF == c as bv16
  {
    (VgaColor << 8) | c as bv16
  }

  /** The intended cell always carries the console colour. */
  lemma VgaCellColour(c: bv8)
    ensures VgaCell(c) >> 8 == VgaColor
  {
  }

  /** For 7-bit characters the code does what is intended. */
  lemma VgaCellAsWrittenAscii(c: bv8)
    requires c < 0x80
    ensures VgaCellAsWritten(c) == VgaCell(c)
  {
  }

  /** For bytes 0x80 and up the sign extension overwrites the colour with 0xFF. */
  lemma VgaCellAsWrittenHighByte(c: bv8)
    requires c >= 0x80
    ensures VgaCellAsWritten(c) >> 8 == 0xFF
  {
  }

  /** Byte 0x80 is stored as 0xFF80 instead of 0x0F80. */
  lemma VgaCellSignExtension()
    ensures VgaCellAsWritten(0x80) == 0xFF80
    ensures VgaCell(0x80) == 0x0F80
  {
  }

  /** The cursor and the text screen. */
  datatype Screen = Screen(row: U32, col: U32, cells: seq<bv16>)

  /** The cursor stays on the screen and the screen has its 2000 cells. */
  predicate Valid(s: Screen)
  {
    s.row < VgaHeight && s.col < VgaWidth && |s.cells| == VgaCells
  }

  /** Linear position of the cursor. */
  function Position(s: Screen): nat
  {
    s.row * VgaWidth + s.col
  }

  /** Every cursor position the invariant allows is a cell of the screen. */
  lemma PositionOnScreen(s: Screen)
    requires Valid(s)
    ensures Position(s) < VgaCells
  {
  }

  /** The blank screen with the cursor at the top left, as the statics start out. */
  function Blank(): (s: Screen)
    ensures Valid(s) && Position(s) == 0
  {
    Screen(0, 0, seq(VgaCells, _ => 0))
  }

  const Newline: bv8 := 0x0A

  /**
   * `console_write_char`'s screen part: a newline moves to the start of the
   * next line, anything else is stored at the cursor, which advances and
   * wraps at the end of a line; below the last line the cursor stays on the
   * last line (there is no scrolling). The serial copy is not modelled.
   */
  function WriteChar(s: Screen, c: bv8): (s': Screen)
    requires Valid(s)
    ensures Valid(s')
    ensures c == Newline ==> s'.cells == s.cells && s'.col == 0
                             && s'.row == if s.row + 1 < VgaHeight then s.row + 1 else VgaHeight - 1
    ensures c != Newline ==> s'.cells == s.cells[Position(s) := VgaCell(c)]
                             && Position(s') == if Position(s) + 1 < VgaCells then Position(s) + 1 else (VgaHeight - 1) * VgaWidth
  {
    PositionOnScreen(s);
    var cells := if c == Newline then s.cells else s.cells[Position(s) := VgaCell(c)];
    var row := if c == Newline then s.row + 1 else s.row;
    var col := if c == Newline then 0 else s.col + 1;
    var row2 := if col >= VgaWidth then row + 1 else row;
    var col2 := if col >= VgaWidth then 0 else col;
    var row3 := if row2 >= VgaHeight then VgaHeight - 1 else row2;
    Screen(row3, col2, cells)
  }

  /**
   * A run of `console_write_char` calls, one per character. This is not
   * `console_write_string`, which sends its text to the serial port only.
   */
  function WriteChars(s: Screen, cs: seq<bv8>): (s': Screen)
    requires Valid(s)
    ensures Valid(s')
    decreases |cs|
  {
    if cs == [] then s else WriteChars(WriteChar(s, cs[0]), cs[1..])
  }

  /** A run of characters with no newline in it. */
  predicate NoNewline(cs: seq<bv8>)
  {
    forall i :: 0 <= i < |cs| ==> cs[i] != Newline
  }

  /** A character that is not a newline, written before the end of the screen, lands at the cursor, which moves one cell on. */
  lemma WriteCharStores(s: Screen, c: bv8)
    requires Valid(s) && Position(s) + 1 < VgaCells && c != Newline
    ensures Position(WriteChar(s, c)) == Position(s) + 1
    ensures WriteChar(s, c).cells == s.cells[Position(s) := VgaCell(c)]
  {
  }

  /** The first character of a run without newlines is no newline, and neither is any in the rest. */
  lemma NoNewlineSplit(cs: seq<bv8>)
    requires cs != [] && NoNewline(cs)
    ensures cs[0] != Newline && NoNewline(cs[1..])
  {
    assert forall i :: 0 <= i < |cs| - 1 ==> cs[1..][i] == cs[i + 1];
  }

  /** A run without newlines that fits advances the cursor by its length. */
  lemma {:induction false} WriteCharsAdvances(s: Screen, cs: seq<bv8>)
    requires Valid(s) && Position(s) + |cs| < VgaCells && NoNewline(cs)
    ensures Position(WriteChars(s, cs)) == Position(s) + |cs|
    decreases |cs|
  {
    if cs != [] {
      NoNewlineSplit(cs);
      WriteCharStores(s, cs[0]);
      WriteCharsAdvances(WriteChar(s, cs[0]), cs[1..]);
    }
  }

  /** A run without newlines that fits leaves every cell outside its span alone. */
  lemma {:induction false} WriteCharsKeeps(s: Screen, cs: seq<bv8>, q: nat)
    requires Valid(s) && Position(s) + |cs| < VgaCells && NoNewline(cs)
    requires q < VgaCells && !(Position(s) <= q < Position(s) + |cs|)
    ensures WriteChars(s, cs).cells[q] == s.cells[q]
    decreases |cs|
  {
    if cs != [] {
      NoNewlineSplit(cs);
      WriteCharStores(s, cs[0]);
      WriteCharsKeeps(WriteChar(s, cs[0]), cs[1..], q);
    }
  }

  /** A run without newlines that fits stores its `i`-th character `i` cells after the cursor. */
  lemma {:induction false} WriteCharsStores(s: Screen, cs: seq<bv8>, i: nat)
    requires Valid(s) && Position(s) + |cs| < VgaCells && NoNewline(cs)
    requires i < |cs|
    ensures WriteChars(s, cs).cells[Position(s) + i] == VgaCell(cs[i])
    decreases |cs|
  {
    NoNewlineSplit(cs);
    WriteCharStores(s, cs[0]);
    var s1 := WriteChar(s, cs[0]);
    if i == 0 {
      WriteCharsKeeps(s1, cs[1..], Position(s));
    } else {
      WriteCharsStores(s1, cs[1..], i - 1);
      assert cs[1..][i - 1] == cs[i];
    }
  }

  /**
   * A run without newlines that fits before the end of the screen advances
   * the cursor by its length, stores each character in the cell it passed
   * over, and changes no other cell.
   */
  lemma WriteCharsPlacesText(s: Screen, cs: seq<bv8>)
    requires Valid(s) && Position(s) + |cs| < VgaCells
    requires forall i :: 0 <= i < |cs| ==> cs[i] != Newline
    ensures Position(WriteChars(s, cs)) == Position(s) + |cs|
    ensures forall i :: 0 <= i < |cs| ==> WriteChars(s, cs).cells[Position(s) + i] == VgaCell(cs[i])
    ensures forall p :: 0 <= p < VgaCells && !(Position(s) <= p < Position(s) + |cs|) ==>
              WriteChars(s, cs).cells[p] == s.cells[p]
  {
    assert NoNewline(cs);
    WriteCharsAdvances(s, cs);
    forall i | 0 <= i < |cs|
      ensures WriteChars(s, cs).cells[Position(s) + i] == VgaCell(cs[i])
    {
      WriteCharsStores(s, cs, i);
    }
    forall p | 0 <= p < VgaCells && !(Position(s) <= p < Position(s) + |cs|)
      ensures WriteChars(s, cs).cells[p] == s.cells[p]
    {
      WriteCharsKeeps(s, cs, p);
    }
  }
}

=== FILE: cpu.dfy ===
/**
 * The CPU partition: core-count detection from CPUID words, the APIC id of
 * the boot core, which cores belong to the Linux cell, the 64-bit MSR value
 * cut into the EDX:EAX halves that `rdmsr`/`wrmsr` use, and the feature
 * bits `cpu_enable_features` sets. The CPUID instruction becomes a function
 * from leaf to registers; CR4, XCR0 and EFER become register values.
 */
module Cpu {
  const MaxCpus: nat := 32

  /** Inclusive core ranges of the two cells. */
  const LinuxCoresStart: nat := 0
  const LinuxCoresEnd: nat := 5
  const WindowsCoresStart: nat := 6
  const WindowsCoresEnd: nat := 11

  /** CPUID leaves read by the partition. */
  const LeafBasic: bv32 := 0x0
  const LeafFeatures: bv32 := 0x1
  const LeafTopology: bv32 := 0x0B
  const LeafExtended: bv32 := 0x8000_0001

  /** The four registers CPUID returns for a leaf (sub-leaf 0). */
  datatype CpuidRegs = CpuidRegs(eax: bv32, ebx: bv32, ecx: bv32, edx: bv32)

  /** The CPUID instruction of the boot core, leaf by leaf. */
  type Cpuid = bv32 -> CpuidRegs

  // ---------------------------------------------------------------- core count

  /** Bits 23:16 of leaf 01H EBX: logical processors per package. */
  function PackageThreads(cpuid: Cpuid): bv32
  {
    (cpuid(LeafFeatures).ebx >> 16) & 0xFF
  }

  /** Bits 15:0 of leaf 0BH EBX: logical processors at this topology level. */
  function TopologyThreads(cpuid: Cpuid): bv32
  {
    cpuid(LeafTopology).ebx & 0xFFFF
  }

  /**
   * `cpu_detect_cores`: when the highest basic leaf is below 0BH the count
   * comes from leaf 01H, otherwise from leaf 0BH; a zero field counts as
   * one core.
   */
  function DetectCores(cpuid: Cpuid): (count: bv32)
    ensures count != 0
    ensures cpuid(LeafBasic).eax < 0x0B ==>
              count <= 0xFF && (count == 1 || count == PackageThreads(cpuid))
    ensures cpuid(LeafBasic).eax >= 0x0B ==>
              count <= 0xFFFF && (count == 1 || count == TopologyThreads(cpuid))
    ensures count > 1 ==>
              count == if cpuid(LeafBasic).eax < 0x0B then PackageThreads(cpuid) else TopologyThreads(cpuid)
    ensures count == 1 ==>
              (if cpuid(LeafBasic).eax < 0x0B then PackageThreads(cpuid) else TopologyThreads(cpuid)) <= 1
  {
    if cpuid(LeafBasic).eax < 0x0B then
      var maxCores := PackageThreads(cpuid);
      if maxCores > 0 then maxCores else 1
    else
      var threads := TopologyThreads(cpuid);
      if threads > 0 then threads else 1
  }

  /** A processor reporting 255 logical processors through leaf 0BH. */
  function ManyThreads(leaf: bv32): CpuidRegs
  {
    if leaf == LeafBasic then CpuidRegs(0x16, 0, 0, 0)
    else if leaf == LeafTopology then CpuidRegs(0, 0xFF, 0, 0)
    else CpuidRegs(0, 0, 0, 0)
  }

  /**
   * Nothing caps the count at `MAX_CPUS`: the detected count can exceed the
   * size of the per-core table.
   */
  lemma CountCanExceedMaxCpus()
    ensures DetectCores(ManyThreads) as int > MaxCpus
  {
    assert DetectCores(ManyThreads) == 0xFF;
  }

  /** A zero field is reported as a single core on either path. */
  lemma ZeroFieldIsOneCore(cpuid: Cpuid)
    requires cpuid(LeafBasic).eax < 0x0B ==> PackageThreads(cpuid) == 0
    requires cpuid(LeafBasic).eax >= 0x0B ==> TopologyThreads(cpuid) == 0
    ensures DetectCores(cpuid) == 1
  {
  }

  /** A non-zero field is the count, on either path. */
  lemma NonZeroFieldIsCount(cpuid: Cpuid)
    requires cpuid(LeafBasic).eax < 0x0B ==> PackageThreads(cpuid) != 0
    requires cpuid(LeafBasic).eax >= 0x0B ==> TopologyThreads(cpuid) != 0
    ensures DetectCores(cpuid) == if cpuid(LeafBasic).eax < 0x0B then PackageThreads(cpuid) else TopologyThreads(cpuid)
  {
  }

  // ---------------------------------------------------------------- APIC id

  /** `cpu_get_apic_id`: bits 31:24 of leaf 01H EBX. */
  function ApicId(cpuid: Cpuid): (id: bv32)
    ensures id <= 0xFF
  {
    (cpuid(LeafFeatures).ebx >> 24) & 0xFF
  }

  /** The APIC id is the top byte of EBX: with the low 24 bits it rebuilds the register. */
  lemma ApicIdIsTopByte(cpuid: Cpuid)
    ensures (ApicId(cpuid) << 24) | (cpuid(LeafFeatures).ebx & 0xFF_FFFF) == cpuid(LeafFeatures).ebx
  {
  }

  // ---------------------------------------------------------------- cell membership

  /** The two cells of the partition. */
  datatype Cell = LinuxCell | WindowsCell

  /** `cpu_is_linux_core`. */
  predicate IsLinuxCore(apicId: bv32)
  {
    apicId >= LinuxCoresStart as bv32 && apicId <= LinuxCoresEnd as bv32
  }

  /** The cell `cpu_init` reports for a core: Linux for the Linux range, Windows for every other id. */
  function CellOf(apicId: bv32): (c: Cell)
    ensures c == LinuxCell <==> apicId < 6
  {
    if IsLinuxCore(apicId) then LinuxCell else WindowsCell
  }

  /** Whether an APIC id lies in the inclusive core range of a cell. */
  predicate InCoreRange(c: Cell, id: bv32)
  {
    if c == LinuxCell then LinuxCoresStart as bv32 <= id <= LinuxCoresEnd as bv32
    else WindowsCoresStart as bv32 <= id <= WindowsCoresEnd as bv32
  }

  /**
   * The labelling agrees with the ranges inside them, but ids past the
   * Windows range (12 and up) are also labelled Windows.
   */
  lemma CellOfAgreesWithRanges(apicId: bv32)
    ensures apicId <= 11 ==> InCoreRange(CellOf(apicId), apicId)
    ensures apicId > 11 ==> CellOf(apicId) == WindowsCell && !InCoreRange(WindowsCell, apicId)
  {
  }

  /**
   * The ranges are disjoint and contiguous, six cores each, and together
   * they fit below `MAX_CPUS`.
   */
  lemma CoreRangesPartition(id: bv32)
    ensures !(InCoreRange(LinuxCell, id) && InCoreRange(WindowsCell, id))
    ensures id <= WindowsCoresEnd as bv32 <==> InCoreRange(LinuxCell, id) || InCoreRange(WindowsCell, id)
    ensures (InCoreRange(LinuxCell, id) || InCoreRange(WindowsCell, id)) ==> id < MaxCpus as bv32
    ensures LinuxCoresEnd + 1 - LinuxCoresStart == 6 && WindowsCoresEnd + 1 - WindowsCoresStart == 6
  {
    CoreBoundsAsBv();
  }

  /** The range bounds and `MAX_CPUS` as 32-bit APIC ids. */
  lemma CoreBoundsAsBv()
    ensures LinuxCoresStart as bv32 == 0 && LinuxCoresEnd as bv32 == 5
    ensures WindowsCoresStart as bv32 == 6 && WindowsCoresEnd as bv32 == 11
    ensures MaxCpus as bv32 == 32
  {
  }

  // ---------------------------------------------------------------- MSR halves

  /** `write_msr`: the value cut into its EAX (low) and EDX (high) halves. */
  function Split(value: bv64): (halves: (bv32, bv32))
    ensures Join(halves.0, halves.1) == value
  {
    ((value & 0xFFFF_FFFF) as bv32, ((value >> 32) & 0xFFFF_FFFF) as bv32)
  }

  /** `read_msr`: the value rebuilt from its EAX (low) and EDX (high) halves. */
  function Join(low: bv32, high: bv32): (value: bv64)
    ensures value >> 32 == high as bv64
  {
    ((high as bv64) << 32) | (low as bv64)
  }

  /** Joining the halves of a split gives back the value. */
  lemma JoinSplit(value: bv64)
    ensures Join(Split(value).0, Split(value).1) == value
  {
  }

  /** Splitting a joined value gives back the halves. */
  lemma SplitJoin(low: bv32, high: bv32)
    ensures Split(Join(low, high)) == (low, high)
  {
  }

  // ---------------------------------------------------------------- features

  const Cr4Osfxsr: bv64 := 1 << 9
  const Cr4Osxsave: bv64 := 1 << 18
  /** XCR0 bits 1 (SSE state) and 2 (AVX state). */
  const Xcr0SseAvx: bv32 := (1 << 1) | (1 << 2)
  const EferNxe: bv64 := 1 << 11

  /** Leaf 01H EDX bit 25: SSE. */
  predicate HasSse(cpuid: Cpuid) { cpuid(LeafFeatures).edx & (1 << 25) != 0 }

  /** Leaf 01H ECX bit 28: AVX. */
  predicate HasAvx(cpuid: Cpuid) { cpuid(LeafFeatures).ecx & (1 << 28) != 0 }

  /** Leaf 80000001H EDX bit 20: the execute-disable bit. */
  predicate HasNx(cpuid: Cpuid) { cpuid(LeafExtended).edx & (1 << 20) != 0 }

  /** The control registers `cpu_enable_features` updates; EFER as its two MSR halves. */
  datatype ControlRegs = ControlRegs(cr4: bv64, xcr0Low: bv32, xcr0High: bv32, eferLow: bv32, eferHigh: bv32)

  /** EFER as `read_msr` returns it. */
  function Efer(regs: ControlRegs): bv64
  {
    Join(regs.eferLow, regs.eferHigh)
  }

  /** The CR4 bits to set: OSFXSR with SSE, OSXSAVE with AVX. */
  function Cr4Bits(sse: bool, avx: bool): bv64
  {
    (if sse then Cr4Osfxsr else 0) | (if avx then Cr4Osxsave else 0)
  }

  /**
   * The two conditional `cr4 |=` statements: OR-ing a bit only when its
   * feature is present is OR-ing the mask of present features.
   */
  function SetCr4(cr4: bv64, sse: bool, avx: bool): bv64
  {
    cr4 | Cr4Bits(sse, avx)
  }

  /** `xgetbv`, the OR of the SSE and AVX state bits, and `xsetbv`, when AVX is present. */
  function SetXcr0(low: bv32, avx: bool): bv32
  {
    if avx then low | Xcr0SseAvx else low
  }

  /** `read_msr(MSR_EFER)`, the OR of NXE, and `write_msr(MSR_EFER, ...)`, when execute-disable is present. */
  function SetEfer(low: bv32, high: bv32, nx: bool): (bv32, bv32)
  {
    if nx then Split(Join(low, high) | EferNxe) else (low, high)
  }

  /**
   * `cpu_enable_features`: OSFXSR when SSE is present; OSXSAVE and the
   * XCR0 SSE/AVX bits when AVX is present; NXE when execute-disable is
   * present. The high half of XCR0 is written back as read.
   */
  function EnableFeatures(cpuid: Cpuid, regs: ControlRegs): (regs': ControlRegs)
    ensures regs'.xcr0High == regs.xcr0High
  {
    var efer := SetEfer(regs.eferLow, regs.eferHigh, HasNx(cpuid));
    ControlRegs(SetCr4(regs.cr4, HasSse(cpuid), HasAvx(cpuid)), SetXcr0(regs.xcr0Low, HasAvx(cpuid)),
                regs.xcr0High, efer.0, efer.1)
  }

  // Facts about OR-ing a mask, one per lemma: the bit-vector solver handles
  // them quickly alone and slowly together.

  /** OR-ing a mask into a word clears no bit. */
  lemma OrKeeps(x: bv64, m: bv64)
    ensures x & !(x | m) == 0
  {
  }

  /** OR-ing a mask into a word changes no bit outside the mask. */
  lemma OrOutside(x: bv64, m: bv64)
    ensures (x | m) & !m == x & !m
  {
  }

  /** OR-ing a mask into a word sets every bit of the mask. */
  lemma OrSets(x: bv64, m: bv64)
    ensures (x | m) & m == m
  {
  }

  /** OR-ing the same mask twice is OR-ing it once. */
  lemma OrTwice(x: bv64, m: bv64)
    ensures (x | m) | m == x | m
  {
  }

  /** AND distributes over OR. */
  lemma AndOverOr(x: bv64, m: bv64, k: bv64)
    ensures (x | m) & k == (x & k) | (m & k)
  {
  }

  /** An OR of two words is zero exactly when both are. */
  lemma OrZero(a: bv64, b: bv64)
    ensures a | b != 0 <==> a != 0 || b != 0
  {
  }

  /** A bit is set in `x | m` exactly when it is set in `x` or in `m`. */
  lemma OrBit(x: bv64, m: bv64, k: bv64)
    ensures (x | m) & k != 0 <==> x & k != 0 || m & k != 0
  {
    AndOverOr(x, m, k);
    OrZero(x & k, m & k);
  }

  /** `OrKeeps` for 32-bit words. */
  lemma OrKeeps32(x: bv32, m: bv32)
    ensures x & !(x | m) == 0
  {
  }

  /** `OrOutside` for 32-bit words. */
  lemma OrOutside32(x: bv32, m: bv32)
    ensures (x | m) & !m == x & !m
  {
  }

  /** `OrSets` for 32-bit words. */
  lemma OrSets32(x: bv32, m: bv32)
    ensures (x | m) & m == m
  {
  }

  /** `OrTwice` for 32-bit words. */
  lemma OrTwice32(x: bv32, m: bv32)
    ensures (x | m) | m == x | m
  {
  }

  /** The CR4 mask holds OSFXSR exactly with SSE, OSXSAVE exactly with AVX, and nothing else. */
  lemma Cr4BitsMeaning(sse: bool, avx: bool)
    ensures Cr4Bits(sse, avx) & Cr4Osfxsr != 0 <==> sse
    ensures Cr4Bits(sse, avx) & Cr4Osxsave != 0 <==> avx
    ensures Cr4Bits(sse, avx) & !(Cr4Osfxsr | Cr4Osxsave) == 0
  {
  }

  /**
   * CR4 keeps every bit it had, gains OSFXSR exactly with SSE and OSXSAVE
   * exactly with AVX, and changes no other bit.
   */
  lemma EnableFeaturesCr4(cpuid: Cpuid, regs: ControlRegs)
    ensures var r := EnableFeatures(cpuid, regs);
            && regs.cr4 & !r.cr4 == 0
            && r.cr4 & !(Cr4Osfxsr | Cr4Osxsave) == regs.cr4 & !(Cr4Osfxsr | Cr4Osxsave)
            && (r.cr4 & Cr4Osfxsr != 0 <==> regs.cr4 & Cr4Osfxsr != 0 || HasSse(cpuid))
            && (r.cr4 & Cr4Osxsave != 0 <==> regs.cr4 & Cr4Osxsave != 0 || HasAvx(cpuid))
  {
    var m := Cr4Bits(HasSse(cpuid), HasAvx(cpuid));
    Cr4BitsMeaning(HasSse(cpuid), HasAvx(cpuid));
    OrKeeps(regs.cr4, m);
    OrOutside(regs.cr4, m);
    OrBit(regs.cr4, m, Cr4Osfxsr);
    OrBit(regs.cr4, m, Cr4Osxsave);
  }

  // One lemma per fact about a register, for the reason given above.

  lemma Xcr0GainsState(cpuid: Cpuid, regs: ControlRegs)
    requires HasAvx(cpuid)
    ensures EnableFeatures(cpuid, regs).xcr0Low & Xcr0SseAvx == Xcr0SseAvx
  {
    OrSets32(regs.xcr0Low, Xcr0SseAvx);
  }

  lemma Xcr0KeepsBits(cpuid: Cpuid, regs: ControlRegs)
    requires HasAvx(cpuid)
    ensures regs.xcr0Low & !EnableFeatures(cpuid, regs).xcr0Low == 0
  {
    OrKeeps32(regs.xcr0Low, Xcr0SseAvx);
  }

  lemma Xcr0KeepsOthers(cpuid: Cpuid, regs: ControlRegs)
    requires HasAvx(cpuid)
    ensures EnableFeatures(cpuid, regs).xcr0Low & !Xcr0SseAvx == regs.xcr0Low & !Xcr0SseAvx
  {
    OrOutside32(regs.xcr0Low, Xcr0SseAvx);
  }

  /**
   * With AVX, XCR0 gains the SSE and AVX state bits, keeps every bit it had
   * and changes no other bit; its high half is written back unchanged.
   */
  lemma EnableFeaturesXcr0WithAvx(cpuid: Cpuid, regs: ControlRegs)
    requires HasAvx(cpuid)
    ensures var r := EnableFeatures(cpuid, regs);
            && r.xcr0Low & Xcr0SseAvx == Xcr0SseAvx
            && regs.xcr0Low & !r.xcr0Low == 0
            && r.xcr0Low & !Xcr0SseAvx == regs.xcr0Low & !Xcr0SseAvx
            && r.xcr0High == regs.xcr0High
  {
    Xcr0GainsState(cpuid, regs);
    Xcr0KeepsBits(cpuid, regs);
    Xcr0KeepsOthers(cpuid, regs);
  }

  /** Without AVX, XCR0 is not touched. */
  lemma EnableFeaturesXcr0WithoutAvx(cpuid: Cpuid, regs: ControlRegs)
    requires !HasAvx(cpuid)
    ensures var r := EnableFeatures(cpuid, regs);
            r.xcr0Low == regs.xcr0Low && r.xcr0High == regs.xcr0High
  {
  }

  /** With execute-disable support, EFER as read back is the old value with NXE OR-ed in. */
  lemma SetEferReadBack(low: bv32, high: bv32)
    ensures var efer := SetEfer(low, high, true);
            Join(efer.0, efer.1) == Join(low, high) | EferNxe
  {
    JoinSplit(Join(low, high) | EferNxe);
  }

  /** With execute-disable support, EFER as read back is the old value with NXE OR-ed in. */
  lemma EferReadBack(cpuid: Cpuid, regs: ControlRegs)
    requires HasNx(cpuid)
    ensures Efer(EnableFeatures(cpuid, regs)) == Efer(regs) | EferNxe
  {
    SetEferReadBack(regs.eferLow, regs.eferHigh);
  }

  lemma EferGainsNxe(cpuid: Cpuid, regs: ControlRegs)
    requires HasNx(cpuid)
    ensures Efer(EnableFeatures(cpuid, regs)) & EferNxe == EferNxe
  {
    EferReadBack(cpuid, regs);
    OrSets(Efer(regs), EferNxe);
  }

  lemma EferKeepsBits(cpuid: Cpuid, regs: ControlRegs)
    requires HasNx(cpuid)
    ensures Efer(regs) & !Efer(EnableFeatures(cpuid, regs)) == 0
  {
    EferReadBack(cpuid, regs);
    OrKeeps(Efer(regs), EferNxe);
  }

  lemma EferKeepsOthers(cpuid: Cpuid, regs: ControlRegs)
    requires HasNx(cpuid)
    ensures Efer(EnableFeatures(cpuid, regs)) & !EferNxe == Efer(regs) & !EferNxe
  {
    EferReadBack(cpuid, regs);
    OrOutside(Efer(regs), EferNxe);
  }

  /**
   * With execute-disable support, EFER read back through `read_msr` gains
   * NXE, keeps every bit it had and changes no other bit: writing the split
   * halves and reading them back is the identity.
   */
  lemma EnableFeaturesEferWithNx(cpuid: Cpuid, regs: ControlRegs)
    requires HasNx(cpuid)
    ensures var r := EnableFeatures(cpuid, regs);
            && Efer(r) & EferNxe == EferNxe
            && Efer(regs) & !Efer(r) == 0
            && Efer(r) & !EferNxe == Efer(regs) & !EferNxe
  {
    EferGainsNxe(cpuid, regs);
    EferKeepsBits(cpuid, regs);
    EferKeepsOthers(cpuid, regs);
  }

  /** Without execute-disable support, EFER is not touched. */
  lemma EnableFeaturesEferWithoutNx(cpuid: Cpuid, regs: ControlRegs)
    requires !HasNx(cpuid)
    ensures Efer(EnableFeatures(cpuid, regs)) == Efer(regs)
  {
  }

  /** Setting the CR4 feature bits twice is setting them once. */
  lemma SetCr4Twice(cr4: bv64, sse: bool, avx: bool)
    ensures SetCr4(SetCr4(cr4, sse, avx), sse, avx) == SetCr4(cr4, sse, avx)
  {
    OrTwice(cr4, Cr4Bits(sse, avx));
  }

  /** Setting the XCR0 state bits twice is setting them once. */
  lemma SetXcr0Twice(low: bv32, avx: bool)
    ensures SetXcr0(SetXcr0(low, avx), avx) == SetXcr0(low, avx)
  {
    if avx {
      OrTwice32(low, Xcr0SseAvx);
    }
  }

  /** Setting NXE twice is setting it once. */
  lemma SetEferTwice(low: bv32, high: bv32, nx: bool)
    ensures var once := SetEfer(low, high, nx);
            SetEfer(once.0, once.1, nx) == once
  {
    if nx {
      SetEferReadBack(low, high);
      OrTwice(Join(low, high), EferNxe);
    }
  }

  /** Enabling twice is enabling once: the updates are OR-only. */
  lemma EnableFeaturesIdempotent(cpuid: Cpuid, regs: ControlRegs)
    ensures EnableFeatures(cpuid, EnableFeatures(cpuid, regs)) == EnableFeatures(cpuid, regs)
  {
    SetCr4Twice(regs.cr4, HasSse(cpuid), HasAvx(cpuid));
    SetXcr0Twice(regs.xcr0Low, HasAvx(cpuid));
    SetEferTwice(regs.eferLow, regs.eferHigh, HasNx(cpuid));
  }

  // ---------------------------------------------------------------- cpu_init

  /** What `cpu_init` determines about the boot core. */
  datatype CpuReport = CpuReport(count: bv32, apicId: bv32, cell: Cell, regs: ControlRegs)

  /**
   * `cpu_init`: detect the cores, read the APIC id, label the core with its
   * cell, and enable the features. Console output and the GDT/IDT
   * placeholders are not modelled.
   */
  function Init(cpuid: Cpuid, regs: ControlRegs): (r: CpuReport)
    ensures r.count != 0
    ensures r.apicId <= 0xFF
    ensures r.cell == LinuxCell <==> InCoreRange(LinuxCell, r.apicId)
    ensures r.count == DetectCores(cpuid) && r.apicId == ApicId(cpuid)
    ensures r.cell == CellOf(r.apicId) && r.regs == EnableFeatures(cpuid, regs)
  {
    var apicId := ApicId(cpuid);
    CpuReport(DetectCores(cpuid), apicId, CellOf(apicId), EnableFeatures(cpuid, regs))
  }

  /**
   * Initialising again on the registers the first initialisation left gives
   * the same report: the feature updates only set bits.
   */
  lemma InitTwice(cpuid: Cpuid, regs: ControlRegs)
    ensures Init(cpuid, Init(cpuid, regs).regs) == Init(cpuid, regs)
  {
    EnableFeaturesIdempotent(cpuid, regs);
  }
}

=== FILE: input_manager.dfy ===
/**
 * The input manager: decoding of scancodes into presses and releases, the
 * modifier flags and last-key tracking of the keyboard state, the
 * Ctrl+Alt+O hotkey that switches cells, interrupt handling, and the table
 * of USB keyboards built from a bus scan.
 */
module InputManager {
  import opened Common
  import Pci
  import SystemManager

  // ---------------------------------------------------------------- constants

  /** Scancodes, shared with PS/2. */
  const KeyEscape: bv8 := 0x01
  const Key1: bv8 := 0x02
  const KeyO: bv8 := 0x18
  const KeyLCtrl: bv8 := 0x1D
  const KeyLShift: bv8 := 0x2A
  const KeyRShift: bv8 := 0x36
  const KeyLAlt: bv8 := 0x38

  /** Bit 7 of a scancode marks a release. */
  const KeyReleased: bv8 := 0x80

  /** Keyboard states. */
  const StateReady: U8 := 0
  const StateWaiting: U8 := 1
  const StateError: U8 := 2

  /** The only device type. */
  const DeviceUsb: U8 := 1

  /** Capacity of the USB keyboard table. */
  const MaxUsbDevices: nat := 16

  /** The interrupt endpoint every recorded keyboard gets. */
  const InterruptEndpoint: U8 := 0x81

  /** Vendors the scan takes for keyboards: Logitech, Microsoft and a test vendor. */
  const VendorLogitech: bv16 := 0x046D
  const VendorMicrosoft: bv16 := 0x045E
  const VendorTest: bv16 := 0x1234

  /** Every defined key code is below the release bit, and O is none of the modifiers. */
  lemma KeyCodesDistinct()
    ensures KeyEscape < KeyReleased && Key1 < KeyReleased && KeyO < KeyReleased && KeyLCtrl < KeyReleased
    ensures KeyLShift < KeyReleased && KeyRShift < KeyReleased && KeyLAlt < KeyReleased
    ensures KeyO != KeyLCtrl && KeyO != KeyLAlt && KeyO != KeyLShift && KeyO != KeyRShift
    ensures KeyLCtrl != KeyLAlt && KeyLCtrl != KeyLShift && KeyLCtrl != KeyRShift
    ensures KeyLAlt != KeyLShift && KeyLAlt != KeyRShift && KeyLShift != KeyRShift
  {
  }

  /** The keyboard states are pairwise distinct. */
  lemma KeyboardStatesDistinct()
    ensures StateReady != StateWaiting && StateReady != StateError && StateWaiting != StateError
  {
  }

  // ---------------------------------------------------------------- scancodes

  /** Whether a scancode reports a release. */
  predicate IsRelease(scancode: bv8)
  {
    scancode & KeyReleased != 0
  }

  /** The key a scancode names: the scancode with the release bit cleared. */
  function KeyOf(scancode: bv8): bv8
  {
    scancode & !KeyReleased
  }

  /** A scancode is a release exactly when its value is 0x80 or more. */
  lemma ReleaseIsHighBit(scancode: bv8)
    ensures IsRelease(scancode) <==> scancode >= 0x80
  {
  }

  /** The key code is below 0x80. */
  lemma KeyBelowReleaseBit(scancode: bv8)
    ensures KeyOf(scancode) < KeyReleased
  {
  }

  /** The scancode is its key with the release bit added back when it is a release. */
  lemma ScancodeRebuilt(scancode: bv8)
    ensures scancode == if IsRelease(scancode) then KeyOf(scancode) | KeyReleased else KeyOf(scancode)
  {
  }

  /** A key code below 0x80 is a press of itself, and with bit 7 set a release of itself. */
  lemma PressAndReleaseOfKey(key: bv8)
    requires key < KeyReleased
    ensures !IsRelease(key) && KeyOf(key) == key
    ensures IsRelease(key | KeyReleased) && KeyOf(key | KeyReleased) == key
  {
  }

  // ---------------------------------------------------------------- key state

  /** `keyboard_state_t`, with the modifier bytes as flags. */
  datatype KeyboardState = KeyboardState(
    ctrlPressed: bool,
    altPressed: bool,
    shiftPressed: bool,
    lastKey: bv8,
    keyCount: U32)

  /** The key state `input_manager_init` leaves. */
  const NoKeys := KeyboardState(false, false, false, 0, 0)

  /** The three modifier flags. */
  datatype Modifier = Ctrl | Alt | Shift

  /** The flag a modifier has in a key state. */
  function Flag(k: KeyboardState, m: Modifier): bool
  {
    match m
    case Ctrl => k.ctrlPressed
    case Alt => k.altPressed
    case Shift => k.shiftPressed
  }

  /** The keys that drive a modifier; both shift keys drive the one shift flag. */
  predicate Drives(key: bv8, m: Modifier)
  {
    match m
    case Ctrl => key == KeyLCtrl
    case Alt => key == KeyLAlt
    case Shift => key == KeyLShift || key == KeyRShift
  }

  /** Whether a key is one of the four modifier keys. */
  predicate IsModifierKey(key: bv8)
  {
    key == KeyLCtrl || key == KeyLAlt || key == KeyLShift || key == KeyRShift
  }

  /** A key is a modifier key exactly when it drives some modifier flag. */
  lemma ModifierKeyDrivesFlag(key: bv8)
    ensures IsModifierKey(key) <==> exists m: Modifier :: Drives(key, m)
  {
    if IsModifierKey(key) {
      if key == KeyLCtrl {
        assert Drives(key, Ctrl);
      } else if key == KeyLAlt {
        assert Drives(key, Alt);
      } else {
        assert Drives(key, Shift);
      }
    }
  }

  /** Whether a scancode counts as a key press: a press of a key that is not a modifier. */
  predicate IsCountedPress(scancode: bv8)
  {
    !IsRelease(scancode) && !IsModifierKey(KeyOf(scancode))
  }

  /**
   * `input_manager_process_key`: a modifier key sets its flag on a press
   * and clears it on a release, touching nothing else; a press of any other
   * key becomes the last key and is counted (the count wraps at 2^32); a
   * release of any other key changes nothing.
   */
  function ProcessKey(k: KeyboardState, scancode: bv8): (k': KeyboardState)
    ensures forall m: Modifier :: Flag(k', m) == if Drives(KeyOf(scancode), m) then !IsRelease(scancode) else Flag(k, m)
    ensures IsCountedPress(scancode) ==> k'.lastKey == KeyOf(scancode) && k'.keyCount == (k.keyCount + 1) % Word32
    ensures !IsCountedPress(scancode) ==> k'.lastKey == k.lastKey && k'.keyCount == k.keyCount
  {
    var key := KeyOf(scancode);
    var down := !IsRelease(scancode);
    if key == KeyLCtrl then k.(ctrlPressed := down)
    else if key == KeyLAlt then k.(altPressed := down)
    else if key == KeyLShift || key == KeyRShift then k.(shiftPressed := down)
    else if down then k.(lastKey := key, keyCount := (k.keyCount + 1) % Word32)
    else k
  }

  /** The key state after a run of scancodes, processed first to last. */
  function ProcessAll(k: KeyboardState, scancodes: seq<bv8>): KeyboardState
    decreases |scancodes|
  {
    if scancodes == [] then k
    else ProcessKey(ProcessAll(k, scancodes[..|scancodes| - 1]), scancodes[|scancodes| - 1])
  }

  /** Processing one more scancode after a run. */
  lemma ProcessAllAppend(k: KeyboardState, scancodes: seq<bv8>, scancode: bv8)
    ensures ProcessAll(k, scancodes + [scancode]) == ProcessKey(ProcessAll(k, scancodes), scancode)
  {
    assert (scancodes + [scancode])[..|scancodes|] == scancodes;
  }

  /** A flag is untouched by a run with no scancode for its keys. */
  lemma {:induction false} FlagUntouched(k: KeyboardState, scancodes: seq<bv8>, m: Modifier)
    requires forall j :: 0 <= j < |scancodes| ==> !Drives(KeyOf(scancodes[j]), m)
    ensures Flag(ProcessAll(k, scancodes), m) == Flag(k, m)
    decreases |scancodes|
  {
    if scancodes != [] {
      FlagUntouched(k, scancodes[..|scancodes| - 1], m);
    }
  }

  /**
   * A flag is set exactly when the last scancode for its keys in the run was
   * a press: what happened before that scancode, and every other key, does
   * not matter.
   */
  lemma {:induction false} FlagFollowsLastEvent(k: KeyboardState, scancodes: seq<bv8>, m: Modifier, i: nat)
    requires i < |scancodes| && Drives(KeyOf(scancodes[i]), m)
    requires forall j :: i < j < |scancodes| ==> !Drives(KeyOf(scancodes[j]), m)
    ensures Flag(ProcessAll(k, scancodes), m) == !IsRelease(scancodes[i])
    decreases |scancodes|
  {
    if i < |scancodes| - 1 {
      FlagFollowsLastEvent(k, scancodes[..|scancodes| - 1], m, i);
    }
  }

  /** The number of counted presses in a run. */
  function PressCount(scancodes: seq<bv8>): nat
    decreases |scancodes|
  {
    if scancodes == [] then 0
    else PressCount(scancodes[..|scancodes| - 1]) + (if IsCountedPress(scancodes[|scancodes| - 1]) then 1 else 0)
  }

  /** Adding one after reducing modulo `m` is adding one before. */
  lemma ModAddOne(a: nat)
    ensures (a % Word32 + 1) % Word32 == (a + 1) % Word32
  {
    var q, r := a / Word32, a % Word32;
    assert a == q * Word32 + r;
    if r + 1 == Word32 {
      assert a + 1 == (q + 1) * Word32;
    } else {
      assert a + 1 == q * Word32 + (r + 1);
    }
  }

  /** `key_count` grows by the number of counted presses, modulo 2^32. */
  lemma {:induction false} KeyCountCountsPresses(k: KeyboardState, scancodes: seq<bv8>)
    ensures ProcessAll(k, scancodes).keyCount == (k.keyCount + PressCount(scancodes)) % Word32
    decreases |scancodes|
  {
    if scancodes != [] {
      var init := scancodes[..|scancodes| - 1];
      KeyCountCountsPresses(k, init);
      if IsCountedPress(scancodes[|scancodes| - 1]) {
        ModAddOne(k.keyCount + PressCount(init));
      }
    }
  }

  /** Position `i` holds the last counted press of the run. */
  predicate LastPressAt(scancodes: seq<bv8>, i: int)
  {
    && 0 <= i < |scancodes| && IsCountedPress(scancodes[i])
    && forall j :: i < j < |scancodes| ==> !IsCountedPress(scancodes[j])
  }

  /** `last_key` is the key of the last counted press, or unchanged when there is none. */
  lemma {:induction false} LastKeyIsLastPress(k: KeyboardState, scancodes: seq<bv8>)
    ensures PressCount(scancodes) == 0 ==> ProcessAll(k, scancodes).lastKey == k.lastKey
    ensures PressCount(scancodes) > 0 ==>
              exists i :: LastPressAt(scancodes, i) && ProcessAll(k, scancodes).lastKey == KeyOf(scancodes[i])
    decreases |scancodes|
  {
    if scancodes != [] {
      var init := scancodes[..|scancodes| - 1];
      var last := |scancodes| - 1;
      LastKeyIsLastPress(k, init);
      if IsCountedPress(scancodes[last]) {
        assert LastPressAt(scancodes, last);
      } else if PressCount(init) > 0 {
        var i :| LastPressAt(init, i) && ProcessAll(k, init).lastKey == KeyOf(init[i]);
        assert scancodes[i] == init[i];
        forall j | i < j < |scancodes|
          ensures !IsCountedPress(scancodes[j])
        {
          if j < last {
            assert scancodes[j] == init[j];
          }
        }
        assert LastPressAt(scancodes, i);
      }
    }
  }

  // ---------------------------------------------------------------- hotkey

  /** Whether Ctrl+Alt+O is pending: both modifiers held and O the last key. */
  predicate HotkeyPending(k: KeyboardState)
  {
    k.ctrlPressed && k.altPressed && k.lastKey == KeyO
  }

  /**
   * `input_manager_check_hotkey`: when Ctrl+Alt+O is pending, switch cells
   * and clear the last key; otherwise nothing happens.
   */
  function CheckHotkey(sys: SystemManager.SystemState, k: KeyboardState): (r: (SystemManager.SystemState, KeyboardState))
    requires SystemManager.WellFormed(sys)
    ensures SystemManager.WellFormed(r.0)
    ensures HotkeyPending(k) ==> r.0 == SystemManager.SwitchCells(sys) && r.1 == k.(lastKey := 0)
    ensures !HotkeyPending(k) ==> r == (sys, k)
    ensures !HotkeyPending(r.1)
  {
    if HotkeyPending(k) then (SystemManager.SwitchCells(sys), k.(lastKey := 0)) else (sys, k)
  }

  /** One hotkey press gives one switch: a second check right after does nothing. */
  lemma HotkeyFiresOnce(sys: SystemManager.SystemState, k: KeyboardState)
    requires SystemManager.WellFormed(sys)
    ensures var (sys1, k1) := CheckHotkey(sys, k);
            CheckHotkey(sys1, k1) == (sys1, k1)
  {
  }

  /** The shift flag plays no part in the hotkey. */
  lemma ShiftIrrelevant(sys: SystemManager.SystemState, k: KeyboardState, shift: bool)
    requires SystemManager.WellFormed(sys)
    ensures CheckHotkey(sys, k.(shiftPressed := shift)).0 == CheckHotkey(sys, k).0
  {
  }

  /** Pressing Ctrl, then Alt, then O from a clear key state makes the hotkey pending. */
  lemma CtrlAltOIsHotkey()
    ensures HotkeyPending(ProcessAll(NoKeys, [KeyLCtrl, KeyLAlt, KeyO]))
  {
    PressAndReleaseOfKey(KeyLCtrl);
    PressAndReleaseOfKey(KeyLAlt);
    PressAndReleaseOfKey(KeyO);
    ProcessAllAppend(NoKeys, [], KeyLCtrl);
    assert [] + [KeyLCtrl] == [KeyLCtrl];
    ProcessAllAppend(NoKeys, [KeyLCtrl], KeyLAlt);
    assert [KeyLCtrl] + [KeyLAlt] == [KeyLCtrl, KeyLAlt];
    ProcessAllAppend(NoKeys, [KeyLCtrl, KeyLAlt], KeyO);
    assert [KeyLCtrl, KeyLAlt] + [KeyO] == [KeyLCtrl, KeyLAlt, KeyO];
  }

  /** Releasing Ctrl before pressing O leaves the hotkey not pending. */
  lemma ReleasedCtrlIsNoHotkey()
    ensures !HotkeyPending(ProcessAll(NoKeys, [KeyLCtrl, KeyLAlt, KeyLCtrl | KeyReleased, KeyO]))
  {
    var scs := [KeyLCtrl, KeyLAlt, KeyLCtrl | KeyReleased, KeyO];
    PressAndReleaseOfKey(KeyLCtrl);
    FlagFollowsLastEvent(NoKeys, scs, Ctrl, 2);
  }

  // ---------------------------------------------------------------- device

  /** `usb_device_t`. */
  datatype UsbDevice = UsbDevice(vendorId: bv16, productId: bv16, bus: U8, device: U8, endpoint: U8)

  /**
   * `input_device_t`; the device table holds exactly the `device_count`
   * filled entries.
   */
  datatype InputDevice = InputDevice(
    deviceType: U8,
    state: U8,
    interruptCount: U32,
    keys: KeyboardState,
    devices: seq<UsbDevice>)

  /** The table never holds more than its capacity. */
  predicate Valid(d: InputDevice)
  {
    |d.devices| <= MaxUsbDevices
  }

  /** `input_manager_init`: a ready USB keyboard with clear keys, no interrupts and no devices. */
  function Init(d: InputDevice): (d': InputDevice)
    ensures Valid(d')
    ensures d'.state == StateReady && d'.deviceType == DeviceUsb && d'.interruptCount == 0
    ensures d'.keys == NoKeys && !HotkeyPending(d'.keys)
    ensures d'.devices == []
  {
    InputDevice(DeviceUsb, StateReady, 0, NoKeys, [])
  }

  /**
   * `input_manager_read_key`: counts the interrupt (wrapping at 2^32) and
   * returns the static key, which nothing ever assigns, so it is always 0.
   */
  function ReadKey(d: InputDevice): (r: (bv8, InputDevice))
    ensures r.0 == 0
    ensures r.1 == d.(interruptCount := (d.interruptCount + 1) % Word32)
  {
    (0, d.(interruptCount := (d.interruptCount + 1) % Word32))
  }

  /**
   * `input_manager_handle_interrupt`: unless the keyboard is ready, nothing
   * happens; otherwise read a scancode, process it and check the hotkey.
   * Routing to the active cell has no effect.
   */
  function HandleInterrupt(sys: SystemManager.SystemState, d: InputDevice): (r: (SystemManager.SystemState, InputDevice))
    requires SystemManager.WellFormed(sys)
    ensures SystemManager.WellFormed(r.0)
    ensures d.state != StateReady ==> r == (sys, d)
    ensures d.state == StateReady ==> r.1.interruptCount == (d.interruptCount + 1) % Word32
    ensures r.1.state == d.state && r.1.devices == d.devices
    ensures d.state == StateReady ==> r.1.keys == ProcessKey(d.keys, 0)
    ensures d.state == StateReady ==>
              r.1 == d.(interruptCount := (d.interruptCount + 1) % Word32, keys := ProcessKey(d.keys, 0))
  {
    if d.state != StateReady then (sys, d)
    else
      var (scancode, d1) := ReadKey(d);
      var keys := ProcessKey(d1.keys, scancode);
      var (sys', keys') := CheckHotkey(sys, keys);
      (sys', d1.(keys := keys'))
  }

  /**
   * Because the key read is always 0, which is a counted press of a
   * non-O key, an interrupt clears the last key before the hotkey check:
   * interrupts never switch cells, whatever the key state was.
   */
  lemma InterruptNeverSwitches(sys: SystemManager.SystemState, d: InputDevice)
    requires SystemManager.WellFormed(sys)
    ensures HandleInterrupt(sys, d).0 == sys
    ensures d.state == StateReady ==> HandleInterrupt(sys, d).1.keys.lastKey == 0
  {
    assert IsCountedPress(0);
  }

  // ---------------------------------------------------------------- USB scan

  /** Whether the scan takes a vendor for a keyboard. */
  predicate IsKeyboardVendor(vendor: bv16)
  {
    vendor == VendorLogitech || vendor == VendorMicrosoft || vendor == VendorTest
  }

  /** An absent slot never counts as a keyboard. */
  lemma NoDeviceIsNoKeyboard()
    ensures !IsKeyboardVendor(Pci.NoDevice)
  {
  }

  /** A 16-bit loop counter stored into a `uint8_t` field: its low byte. */
  function Byte(x: U16): (b: U8)
    ensures x < 0x100 ==> b == x
  {
    x % 0x100
  }

  /** The table entry for the keyboard in `slot`; bus and device are stored as bytes. */
  function UsbAt(cfg: Pci.ConfigSpace, slot: Pci.Slot): UsbDevice
  {
    UsbDevice(Pci.VendorAt(cfg, slot), Pci.DeviceIdAt(cfg, slot), Byte(slot.bus), Byte(slot.dev), InterruptEndpoint)
  }

  /** The entry maker of the keyboard table, as one function value. */
  function UsbMaker(cfg: Pci.ConfigSpace): (nat, Pci.Slot) -> UsbDevice
  {
    (i: nat, slot: Pci.Slot) => UsbAt(cfg, slot)
  }

  /**
   * The keyboard table when the scan reaches device `dev` of bus `bus`: each
   * keyboard slot appends its entry while the table has room.
   */
  function UsbScannedUpTo(cfg: Pci.ConfigSpace, bus: nat, dev: nat): (ds: seq<UsbDevice>)
    requires Pci.ScanPosition(bus, dev)
    ensures |ds| <= MaxUsbDevices
    decreases bus, dev
  {
    if dev == 0 then
      if bus == 0 then [] else UsbScannedUpTo(cfg, bus - 1, 32)
    else
      var ds := UsbScannedUpTo(cfg, bus, dev - 1);
      var slot := Pci.Slot(bus, dev - 1);
      if IsKeyboardVendor(Pci.VendorAt(cfg, slot)) && |ds| < MaxUsbDevices then ds + [UsbAt(cfg, slot)] else ds
  }

  /** The step-by-step table is the first 16 keyboard slots, each made into its entry. */
  lemma {:induction false} UsbScannedUpToIsCapped(cfg: Pci.ConfigSpace, bus: nat, dev: nat)
    requires Pci.ScanPosition(bus, dev)
    ensures UsbScannedUpTo(cfg, bus, dev)
         == Pci.Capped(Pci.AcceptedBefore(cfg, IsKeyboardVendor, bus, dev), MaxUsbDevices, UsbMaker(cfg))
    decreases bus, dev
  {
    if dev == 0 {
      if bus > 0 {
        UsbScannedUpToIsCapped(cfg, bus - 1, 32);
      }
    } else {
      UsbScannedUpToIsCapped(cfg, bus, dev - 1);
      Pci.CappedAppend(Pci.AcceptedBefore(cfg, IsKeyboardVendor, bus, dev - 1), Pci.Slot(bus, dev - 1),
                       MaxUsbDevices, UsbMaker(cfg));
    }
  }

  /** The keyboard slots of the whole scan, in scan order. */
  function KeyboardSlots(cfg: Pci.ConfigSpace): seq<Pci.Slot>
  {
    Pci.AllAccepted(cfg, IsKeyboardVendor)
  }

  /** The keyboard table after the scan: the first 16 keyboards in scan order. */
  function ScannedKeyboards(cfg: Pci.ConfigSpace): (ds: seq<UsbDevice>)
    ensures |ds| == if |KeyboardSlots(cfg)| < MaxUsbDevices then |KeyboardSlots(cfg)| else MaxUsbDevices
    ensures forall i :: 0 <= i < |ds| ==> ds[i] == UsbAt(cfg, KeyboardSlots(cfg)[i])
  {
    UsbScannedUpToIsCapped(cfg, 256, 0);
    UsbScannedUpTo(cfg, 256, 0)
  }

  /**
   * Every entry is a keyboard vendor's device found at its own in-range bus
   * and device, with the interrupt endpoint.
   */
  lemma ScannedKeyboardsSound(cfg: Pci.ConfigSpace, i: nat)
    requires i < |ScannedKeyboards(cfg)|
    ensures var d := ScannedKeyboards(cfg)[i];
            var slot := Pci.Slot(d.bus, d.device);
            && Pci.InRange(slot)
            && IsKeyboardVendor(d.vendorId) && d.vendorId == Pci.VendorAt(cfg, slot)
            && d.productId == Pci.DeviceIdAt(cfg, slot)
            && d.endpoint == InterruptEndpoint
  {
    var slot := KeyboardSlots(cfg)[i];
    assert Pci.InRange(slot) && IsKeyboardVendor(Pci.VendorAt(cfg, slot)) by {
      Pci.AcceptedBeforeSound(cfg, IsKeyboardVendor, 256, 0);
    }
    assert ScannedKeyboards(cfg)[i] == UsbAt(cfg, slot);
  }

  /** Entries appear in bus-major, device-minor scan order. */
  lemma ScannedKeyboardsOrdered(cfg: Pci.ConfigSpace, i: nat, j: nat)
    requires i < j < |ScannedKeyboards(cfg)|
    ensures Pci.Index(KeyboardSlots(cfg)[i]) < Pci.Index(KeyboardSlots(cfg)[j])
    ensures var a, b := ScannedKeyboards(cfg)[i], ScannedKeyboards(cfg)[j];
            a.bus < b.bus || (a.bus == b.bus && a.device < b.device)
  {
    Pci.AcceptedBeforeIncreasing(cfg, IsKeyboardVendor, 256, 0);
    var sa, sb := KeyboardSlots(cfg)[i], KeyboardSlots(cfg)[j];
    assert Pci.InRange(sa) && Pci.InRange(sb) by {
      Pci.AcceptedBeforeSound(cfg, IsKeyboardVendor, 256, 0);
    }
    Pci.IndexOrderIsBusThenDevice(sa, sb);
    assert ScannedKeyboards(cfg)[i] == UsbAt(cfg, sa);
    assert ScannedKeyboards(cfg)[j] == UsbAt(cfg, sb);
  }

  /** When fewer than 16 entries exist, every keyboard on the buses has one. */
  lemma ScannedKeyboardsComplete(cfg: Pci.ConfigSpace, slot: Pci.Slot)
    requires Pci.InRange(slot) && IsKeyboardVendor(Pci.VendorAt(cfg, slot))
    requires |ScannedKeyboards(cfg)| < MaxUsbDevices
    ensures exists i :: 0 <= i < |ScannedKeyboards(cfg)| && ScannedKeyboards(cfg)[i] == UsbAt(cfg, slot)
  {
    var slots := KeyboardSlots(cfg);
    Pci.AcceptedBeforeComplete(cfg, IsKeyboardVendor, 256, 0, slot);
    var i :| 0 <= i < |slots| && slots[i] == slot;
    assert ScannedKeyboards(cfg)[i] == UsbAt(cfg, slot);
  }

  /**
   * `input_manager_detect_usb_devices`: scans every bus and device, skips
   * empty slots and records keyboards while the table has room. With no
   * keyboard the state is set to ready.
   */
  method DetectUsbDevices(d: InputDevice, cfg: Pci.ConfigSpace) returns (d': InputDevice)
    ensures d'.devices == ScannedKeyboards(cfg)
    ensures |d'.devices| == 0 ==> d'.state == StateReady
    ensures |d'.devices| > 0 ==> d'.state == d.state
    ensures Valid(d')
    ensures d' == d.(devices := d'.devices, state := d'.state)
  {
    var devices: seq<UsbDevice> := [];
    var bus := 0;
    while bus < 256
      invariant 0 <= bus <= 256
      invariant devices == UsbScannedUpTo(cfg, bus, 0)
    {
      var dev := 0;
      while dev < 32
        invariant 0 <= dev <= 32
        invariant devices == UsbScannedUpTo(cfg, bus, dev)
      {
        var slot := Pci.Slot(bus, dev);
        var vendorDevice := Pci.ReadConfig(cfg, bus, dev, 0, 0);
        var vendor := (vendorDevice & 0xFFFF) as bv16;
        if vendor != Pci.NoDevice {
          if IsKeyboardVendor(vendor) && |devices| < MaxUsbDevices {
            var deviceId := ((vendorDevice >> 16) & 0xFFFF) as bv16;
            assert deviceId == Pci.DeviceIdAt(cfg, slot);
            devices := devices + [UsbDevice(vendor, deviceId, bus, dev, InterruptEndpoint)];
            assert devices == UsbScannedUpTo(cfg, bus, dev + 1);
          }
        }
        dev := dev + 1;
      }
      bus := bus + 1;
    }
    d' := d.(devices := devices);
    if |devices| == 0 {
      d' := d'.(state := StateReady);
    }
  }
}

=== FILE: iommu.dfy ===
/**
 * The IOMMU device directory: AMD-Vi detection on bus 0, the capability-list
 * walk that finds the MMIO base, GPU group construction from a full bus scan,
 * per-device ownership between the Linux cell (0) and the Windows cell (1),
 * and enabling translation through the IOMMU Control Register (MMIO offset
 * 0x18 in the AMD I/O Virtualization Technology specification).
 */
module Iommu {
  import opened Common
  import Pci

  /** Values of the `type` byte; the zero-initialised state holds 0 (no IOMMU). */
  const TypeNone: bv8 := 0
  const TypeAmdVi: bv8 := 1
  const TypeIntelVtd: bv8 := 2

  /** Offset of the IOMMU Control Register inside the MMIO window. */
  const ControlOffset: bv64 := 0x18

  /** IommuEn, bit 0 of the Control Register. */
  const ControlIommuEn: bv32 := 0x1
  /** Coherent, bit 17 of the Control Register. */
  const ControlCoherent: bv32 := 0x2_0000

  const MaxGroups: nat := 64
  const MaxDevicesPerGroup: nat := 16

  /** The AMD-Vi controller: vendor 0x1022, device ids 0x1447 through 0x1457. */
  const VendorAmdChipset: bv32 := 0x1022
  const AmdViDeviceFirst: bv32 := 0x1447
  const AmdViDeviceLast: bv32 := 0x1457

  /** GPU vendors: AMD graphics goes to Linux, NVIDIA to Windows. */
  const VendorAmdGpu: bv16 := 0x1002
  const VendorNvidia: bv16 := 0x10DE

  /** Capability id of the IOMMU capability block that holds the MMIO base. */
  const IommuCapabilityId: bv32 := 0x0F
  /** Configuration-space offset of the capabilities pointer. */
  const CapabilitiesPointer: U16 := 0x34

  datatype PcieDevice = PcieDevice(bus: U16, device: U16, func: U16, assignedToLinux: bool)

  datatype Group = Group(groupId: nat, assignedToLinux: bool, devices: seq<PcieDevice>)

  /** `iommu_t`; `groups` holds the first `group_count` entries of the C array. */
  datatype IommuState = IommuState(baseAddr: bv64, kind: bv8, enabled: bool, groups: seq<Group>)

  /** The zero-initialised static state. */
  const Zeroed := IommuState(0, TypeNone, false, [])

  /** The capacities of the fixed-size C arrays. */
  predicate Valid(s: IommuState)
  {
    && |s.groups| <= MaxGroups
    && forall i :: 0 <= i < |s.groups| ==> |s.groups[i].devices| <= MaxDevicesPerGroup
  }

  lemma TypeCodesDistinct()
    ensures TypeAmdVi != TypeNone && TypeIntelVtd != TypeNone && TypeAmdVi != TypeIntelVtd
    ensures ControlIommuEn & ControlCoherent == 0
    ensures ControlIommuEn == 1 << 0 && ControlCoherent == 1 << 17
  {
  }

  // ---------------------------------------------------------------- detect

  /** The vendor/device dword of an AMD-Vi controller. */
  predicate IsAmdViId(vendorDevice: bv32)
  {
    var vendor := vendorDevice & 0xFFFF;
    var device := (vendorDevice >> 16) & 0xFFFF;
    vendor == VendorAmdChipset && AmdViDeviceFirst <= device <= AmdViDeviceLast
  }

  /** Whether device `dev`, function 0 on bus 0 is an AMD-Vi controller. */
  predicate AmdViAt(cfg: Pci.ConfigSpace, dev: nat)
    requires dev < 32
  {
    IsAmdViId(Pci.ReadConfig(cfg, 0, dev, 0, 0))
  }

  /** The lowest device number at or above `from` holding an AMD-Vi controller. */
  function FirstAmdVi(cfg: Pci.ConfigSpace, from: nat): (r: Option<nat>)
    requires from <= 32
    decreases 32 - from
    ensures r.Some? ==> from <= r.value < 32 && AmdViAt(cfg, r.value)
    ensures r.Some? ==> forall d :: from <= d < r.value ==> !AmdViAt(cfg, d)
    ensures r.None? ==> forall d :: from <= d < 32 ==> !AmdViAt(cfg, d)
  {
    if from == 32 then None
    else if AmdViAt(cfg, from) then Some(from)
    else FirstAmdVi(cfg, from + 1)
  }

  /** Outcome of following the capability list. */
  datatype Walk = MmioBase(base: bv64) | EndOfList | Unfinished

  /**
   * The MMIO base assembled from the two dwords after the IOMMU capability
   * header: the high dword on top, the low dword with its 12 low bits masked.
   */
  function MmioBaseOf(low: bv32, high: bv32): (base: bv64)
    ensures base & 0xFFF == 0
  {
    ((high as bv64) << 32) | ((low & 0xFFFF_F000) as bv64)
  }

  /** The upper half of the MMIO base is the high dword. */
  lemma MmioBaseHigh(low: bv32, high: bv32)
    ensures MmioBaseOf(low, high) >> 32 == high as bv64
  {
  }

  /** The lower half of the MMIO base is the low dword with its 12 low bits masked. */
  lemma MmioBaseLow(low: bv32, high: bv32)
    ensures MmioBaseOf(low, high) & 0xFFFF_FFFF == (low & 0xFFFF_F000) as bv64
  {
  }

  /**
   * The capability walk of `iommu_detect`. The C loop follows
   * `next = (cap >> 8) & 0xFF` with no bound, so it never ends on a cyclic
   * list; `fuel` bounds the steps and `Unfinished` reports running out.
   */
  function WalkCapabilities(cfg: Pci.ConfigSpace, dev: U16, capPtr: bv8, fuel: nat): (r: Walk)
    decreases fuel
    ensures r.MmioBase? ==> r.base & 0xFFF == 0
    ensures capPtr == 0 ==> r == EndOfList
  {
    if capPtr == 0 then EndOfList
    else if fuel == 0 then Unfinished
    else
      var offset := capPtr as U16;
      var cap := Pci.ReadConfig(cfg, 0, dev, 0, offset);
      if cap & 0xFF == IommuCapabilityId then
        MmioBase(MmioBaseOf(Pci.ReadConfig(cfg, 0, dev, 0, offset + 4), Pci.ReadConfig(cfg, 0, dev, 0, offset + 8)))
      else
        WalkCapabilities(cfg, dev, ((cap >> 8) & 0xFF) as bv8, fuel - 1)
  }

  /** A walk that ends within some fuel ends the same way with any more fuel. */
  lemma {:induction false} WalkFuelMonotone(cfg: Pci.ConfigSpace, dev: U16, capPtr: bv8, fuel: nat, more: nat)
    requires WalkCapabilities(cfg, dev, capPtr, fuel) != Unfinished
    requires fuel <= more
    ensures WalkCapabilities(cfg, dev, capPtr, more) == WalkCapabilities(cfg, dev, capPtr, fuel)
    decreases fuel
  {
    if capPtr != 0 {
      var offset := capPtr as U16;
      var cap := Pci.ReadConfig(cfg, 0, dev, 0, offset);
      if cap & 0xFF != IommuCapabilityId {
        WalkFuelMonotone(cfg, dev, ((cap >> 8) & 0xFF) as bv8, fuel - 1, more - 1);
      }
    }
  }

  /** The first capability pointer of device `dev` on bus 0. */
  function CapabilityListHead(cfg: Pci.ConfigSpace, dev: U16): bv8
  {
    (Pci.ReadConfig(cfg, 0, dev, 0, CapabilitiesPointer) & 0xFF) as bv8
  }

  /**
   * `iommu_detect`. `None` stands for the C loop never returning: the
   * capability walk did not reach its end within `fuel` steps.
   */
  function Detect(s: IommuState, cfg: Pci.ConfigSpace, fuel: nat): (r: Option<IommuState>)
    ensures r.Some? ==> r.value.groups == s.groups
    ensures r.Some? ==> (r.value.enabled <==> exists d :: 0 <= d < 32 && AmdViAt(cfg, d))
    ensures r.Some? && r.value.enabled ==> r.value.kind == TypeAmdVi
    ensures r.Some? && !r.value.enabled ==> r.value == s.(enabled := false)
    ensures r.Some? && r.value.baseAddr != s.baseAddr ==> r.value.baseAddr & 0xFFF == 0
    ensures r.None? ==> exists d :: 0 <= d < 32 && AmdViAt(cfg, d)
  {
    match FirstAmdVi(cfg, 0)
    case None => Some(s.(enabled := false))
    case Some(dev) =>
      var found := s.(kind := TypeAmdVi, enabled := true);
      match WalkCapabilities(cfg, dev, CapabilityListHead(cfg, dev), fuel)
      case MmioBase(base) => Some(found.(baseAddr := base))
      case EndOfList => Some(found)
      case Unfinished => None
  }

  /** Detection reads the MMIO base from the lowest-numbered AMD-Vi device. */
  lemma DetectUsesLowestController(s: IommuState, cfg: Pci.ConfigSpace, fuel: nat, dev: nat, base: bv64)
    requires dev < 32 && AmdViAt(cfg, dev)
    requires forall d :: 0 <= d < dev ==> !AmdViAt(cfg, d)
    requires WalkCapabilities(cfg, dev, CapabilityListHead(cfg, dev), fuel) == MmioBase(base)
    ensures Detect(s, cfg, fuel) == Some(s.(kind := TypeAmdVi, enabled := true, baseAddr := base))
  {
    FirstAmdViIsLowest(cfg, 0, dev);
  }

  /**
   * When the lowest controller's capability list ends without the IOMMU
   * capability, detection records the controller but keeps the old base.
   */
  lemma DetectKeepsBaseAtEndOfList(s: IommuState, cfg: Pci.ConfigSpace, fuel: nat, dev: nat)
    requires dev < 32 && AmdViAt(cfg, dev)
    requires forall d :: 0 <= d < dev ==> !AmdViAt(cfg, d)
    requires WalkCapabilities(cfg, dev, CapabilityListHead(cfg, dev), fuel) == EndOfList
    ensures Detect(s, cfg, fuel) == Some(s.(kind := TypeAmdVi, enabled := true))
    ensures Detect(s, cfg, fuel).value.baseAddr == s.baseAddr
  {
    FirstAmdViIsLowest(cfg, 0, dev);
  }

  /** The search from `from` stops at the lowest controller at or above it. */
  lemma {:induction false} FirstAmdViIsLowest(cfg: Pci.ConfigSpace, from: nat, dev: nat)
    requires from <= dev < 32 && AmdViAt(cfg, dev)
    requires forall d :: from <= d < dev ==> !AmdViAt(cfg, d)
    ensures FirstAmdVi(cfg, from) == Some(dev)
    decreases dev - from
  {
    if from < dev {
      FirstAmdViIsLowest(cfg, from + 1, dev);
    }
  }

  // ---------------------------------------------------------------- groups

  predicate IsGpuVendor(vendor: bv16)
  {
    vendor == VendorAmdGpu || vendor == VendorNvidia
  }

  /** The group `setup_device_groups` creates for the GPU in slot `slot`. */
  function GroupAt(cfg: Pci.ConfigSpace, index: nat, slot: Pci.Slot): Group
  {
    var linux := Pci.VendorAt(cfg, slot) == VendorAmdGpu;
    Group(index, linux, [PcieDevice(slot.bus, slot.dev, 0, linux)])
  }

  /** The entry maker of the group table, as one function value. */
  function GroupMaker(cfg: Pci.ConfigSpace): (nat, Pci.Slot) -> Group
  {
    (i: nat, slot: Pci.Slot) => GroupAt(cfg, i, slot)
  }

  /**
   * The group table when the scan reaches device `dev` of bus `bus`: each
   * GPU slot appends its group while the table has room.
   */
  function ScannedUpTo(cfg: Pci.ConfigSpace, bus: nat, dev: nat): (gs: seq<Group>)
    requires Pci.ScanPosition(bus, dev)
    ensures |gs| <= MaxGroups
    decreases bus, dev
  {
    if dev == 0 then
      if bus == 0 then [] else ScannedUpTo(cfg, bus - 1, 32)
    else
      var gs := ScannedUpTo(cfg, bus, dev - 1);
      var slot := Pci.Slot(bus, dev - 1);
      if IsGpuVendor(Pci.VendorAt(cfg, slot)) && |gs| < MaxGroups then gs + [GroupAt(cfg, |gs|, slot)] else gs
  }

  /** The step-by-step table is the first 64 GPU slots, each made into its group. */
  lemma {:induction false} ScannedUpToIsCapped(cfg: Pci.ConfigSpace, bus: nat, dev: nat)
    requires Pci.ScanPosition(bus, dev)
    ensures ScannedUpTo(cfg, bus, dev)
         == Pci.Capped(Pci.AcceptedBefore(cfg, IsGpuVendor, bus, dev), MaxGroups, GroupMaker(cfg))
    decreases bus, dev
  {
    if dev == 0 {
      if bus > 0 {
        ScannedUpToIsCapped(cfg, bus - 1, 32);
      }
    } else {
      ScannedUpToIsCapped(cfg, bus, dev - 1);
      Pci.CappedAppend(Pci.AcceptedBefore(cfg, IsGpuVendor, bus, dev - 1), Pci.Slot(bus, dev - 1), MaxGroups, GroupMaker(cfg));
    }
  }

  /** The GPU slots of the whole bus 0..255, device 0..31 scan, in scan order. */
  function GpuSlots(cfg: Pci.ConfigSpace): seq<Pci.Slot>
  {
    Pci.AllAccepted(cfg, IsGpuVendor)
  }

  /** The group table after `setup_device_groups`: the first 64 GPUs in scan order. */
  function ScannedGroups(cfg: Pci.ConfigSpace): (gs: seq<Group>)
    ensures |gs| == if |GpuSlots(cfg)| < MaxGroups then |GpuSlots(cfg)| else MaxGroups
    ensures forall i :: 0 <= i < |gs| ==> gs[i] == GroupAt(cfg, i, GpuSlots(cfg)[i])
  {
    ScannedUpToIsCapped(cfg, 256, 0);
    ScannedUpTo(cfg, 256, 0)
  }

  /**
   * Each group has its index as id, one device at function 0, and the
   * group's flag equal to that device's flag.
   */
  lemma ScannedGroupsShape(cfg: Pci.ConfigSpace, i: nat)
    requires i < |ScannedGroups(cfg)|
    ensures ScannedGroups(cfg)[i].groupId == i
    ensures |ScannedGroups(cfg)[i].devices| == 1
    ensures ScannedGroups(cfg)[i].devices[0].func == 0
    ensures ScannedGroups(cfg)[i].assignedToLinux == ScannedGroups(cfg)[i].devices[0].assignedToLinux
  {
  }

  /** The slot of a group's first device. */
  function GroupSlot(g: Group): Pci.Slot
    requires |g.devices| > 0
  {
    Pci.Slot(g.devices[0].bus, g.devices[0].device)
  }

  /**
   * Each group's device is an in-range GPU slot; AMD graphics starts out
   * owned by Linux and NVIDIA by Windows.
   */
  lemma ScannedGroupsOwnership(cfg: Pci.ConfigSpace, i: nat)
    requires i < |ScannedGroups(cfg)|
    ensures Pci.InRange(GroupSlot(ScannedGroups(cfg)[i]))
    ensures IsGpuVendor(Pci.VendorAt(cfg, GroupSlot(ScannedGroups(cfg)[i])))
    ensures ScannedGroups(cfg)[i].assignedToLinux <==> Pci.VendorAt(cfg, GroupSlot(ScannedGroups(cfg)[i])) == VendorAmdGpu
  {
    Pci.AcceptedBeforeSound(cfg, IsGpuVendor, 256, 0);
  }

  /** Groups appear in bus-major, device-minor scan order. */
  lemma ScannedGroupsOrdered(cfg: Pci.ConfigSpace, i: nat, j: nat)
    requires i < j < |ScannedGroups(cfg)|
    ensures Pci.Index(GroupSlot(ScannedGroups(cfg)[i])) < Pci.Index(GroupSlot(ScannedGroups(cfg)[j]))
  {
    Pci.AcceptedBeforeIncreasing(cfg, IsGpuVendor, 256, 0);
  }

  /** When fewer than 64 groups exist, every GPU on the buses has one. */
  lemma ScannedGroupsComplete(cfg: Pci.ConfigSpace, slot: Pci.Slot)
    requires Pci.InRange(slot) && IsGpuVendor(Pci.VendorAt(cfg, slot))
    requires |ScannedGroups(cfg)| < MaxGroups
    ensures exists i :: 0 <= i < |ScannedGroups(cfg)| && GroupSlot(ScannedGroups(cfg)[i]) == slot
  {
    var slots := GpuSlots(cfg);
    var gs := ScannedGroups(cfg);
    Pci.AcceptedBeforeComplete(cfg, IsGpuVendor, 256, 0, slot);
    var i :| 0 <= i < |slots| && slots[i] == slot;
    assert GroupSlot(gs[i]) == slot;
  }

  /** Two GPUs from the two vendors give two groups owned by different cells. */
  lemma TwoVendorsTwoOwners(cfg: Pci.ConfigSpace)
    requires |GpuSlots(cfg)| == 2
    requires Pci.VendorAt(cfg, GpuSlots(cfg)[0]) != Pci.VendorAt(cfg, GpuSlots(cfg)[1])
    ensures |ScannedGroups(cfg)| == 2
    ensures ScannedGroups(cfg)[0].assignedToLinux != ScannedGroups(cfg)[1].assignedToLinux
  {
    var slots := GpuSlots(cfg);
    var gs := ScannedGroups(cfg);
    Pci.AcceptedBeforeSound(cfg, IsGpuVendor, 256, 0);
    assert IsGpuVendor(Pci.VendorAt(cfg, slots[0])) && IsGpuVendor(Pci.VendorAt(cfg, slots[1]));
    assert gs[0] == GroupAt(cfg, 0, slots[0]);
    assert gs[1] == GroupAt(cfg, 1, slots[1]);
  }

  /**
   * `iommu_setup_device_groups`: scans every bus and device, skips empty
   * slots and keeps GPUs while the table has room.
   */
  method SetupDeviceGroups(s: IommuState, cfg: Pci.ConfigSpace) returns (s': IommuState)
    ensures s' == s.(groups := ScannedGroups(cfg))
    ensures Valid(s')
  {
    var groups: seq<Group> := [];
    var bus := 0;
    while bus < 256
      invariant 0 <= bus <= 256
      invariant groups == ScannedUpTo(cfg, bus, 0)
    {
      var dev := 0;
      while dev < 32
        invariant 0 <= dev <= 32
        invariant groups == ScannedUpTo(cfg, bus, dev)
      {
        var vendorDevice := Pci.ReadConfig(cfg, bus, dev, 0, 0);
        var vendor := (vendorDevice & 0xFFFF) as bv16;
        if vendor != Pci.NoDevice && IsGpuVendor(vendor) {
          if |groups| < MaxGroups {
            var linux := vendor == VendorAmdGpu;
            groups := groups + [Group(|groups|, linux, [PcieDevice(bus, dev, 0, linux)])];
          }
        }
        dev := dev + 1;
      }
      bus := bus + 1;
    }
    s' := s.(groups := groups);
  }

  // ---------------------------------------------------------------- ownership

  predicate Matches(d: PcieDevice, bus: U16, dev: U16, func: U16)
  {
    d.bus == bus && d.device == dev && d.func == func
  }

  /** Whether some device in the table has address (bus, dev, func). */
  predicate Listed(gs: seq<Group>, bus: U16, dev: U16, func: U16)
  {
    exists i, j :: 0 <= i < |gs| && 0 <= j < |gs[i].devices| && Matches(gs[i].devices[j], bus, dev, func)
  }

  /** Whether every device with address (bus, dev, func) has ownership flag `linux`. */
  predicate AllOwnedBy(gs: seq<Group>, bus: U16, dev: U16, func: U16, linux: bool)
  {
    forall i, j :: 0 <= i < |gs| && 0 <= j < |gs[i].devices| && Matches(gs[i].devices[j], bus, dev, func)
      ==> gs[i].devices[j].assignedToLinux == linux
  }

  /** No device of `ds` has address (bus, dev, func). */
  predicate NoMatchIn(ds: seq<PcieDevice>, bus: U16, dev: U16, func: U16)
  {
    forall j :: 0 <= j < |ds| ==> !Matches(ds[j], bus, dev, func)
  }

  /** Device `j` is the first of `ds` with address (bus, dev, func). */
  predicate FirstInDevices(ds: seq<PcieDevice>, j: int, bus: U16, dev: U16, func: U16)
  {
    && 0 <= j < |ds| && Matches(ds[j], bus, dev, func)
    && forall k :: 0 <= k < j ==> !Matches(ds[k], bus, dev, func)
  }

  /**
   * Device `j` of group `i` is the first device with address (bus, dev, func)
   * in group order: no earlier group has one, and none before it in group `i`.
   */
  predicate FirstInGroups(gs: seq<Group>, i: int, j: int, bus: U16, dev: U16, func: U16)
  {
    && 0 <= i < |gs|
    && (forall k :: 0 <= k < i ==> NoMatchIn(gs[k].devices, bus, dev, func))
    && FirstInDevices(gs[i].devices, j, bus, dev, func)
  }

  /** There is at most one first match in group order. */
  lemma FirstInGroupsUnique(gs: seq<Group>, i: int, j: int, i': int, j': int, bus: U16, dev: U16, func: U16)
    requires FirstInGroups(gs, i, j, bus, dev, func) && FirstInGroups(gs, i', j', bus, dev, func)
    ensures i == i' && j == j'
  {
  }

  /** The flag of the first matching device of one group. */
  function LookupInDevices(ds: seq<PcieDevice>, bus: U16, dev: U16, func: U16): (r: Option<bool>)
    ensures r.None? <==> NoMatchIn(ds, bus, dev, func)
    ensures r.Some? ==> exists j :: FirstInDevices(ds, j, bus, dev, func) && ds[j].assignedToLinux == r.value
  {
    if |ds| == 0 then None
    else if Matches(ds[0], bus, dev, func) then
      assert FirstInDevices(ds, 0, bus, dev, func);
      Some(ds[0].assignedToLinux)
    else
      var rest := LookupInDevices(ds[1..], bus, dev, func);
      assert forall j :: 1 <= j < |ds| ==> ds[j] == ds[1..][j - 1];
      if rest.Some? then
        var j :| FirstInDevices(ds[1..], j, bus, dev, func) && ds[1..][j].assignedToLinux == rest.value;
        assert FirstInDevices(ds, j + 1, bus, dev, func);
        rest
      else
        rest
  }

  /** The flag of the first matching device in group order. */
  function LookupInGroups(gs: seq<Group>, bus: U16, dev: U16, func: U16): (r: Option<bool>)
    ensures r.None? <==> !Listed(gs, bus, dev, func)
    ensures r.Some? ==> exists i, j :: FirstInGroups(gs, i, j, bus, dev, func)
                                      && gs[i].devices[j].assignedToLinux == r.value
  {
    if |gs| == 0 then None
    else
      match LookupInDevices(gs[0].devices, bus, dev, func)
      case Some(flag) =>
        var j :| FirstInDevices(gs[0].devices, j, bus, dev, func) && gs[0].devices[j].assignedToLinux == flag;
        assert FirstInGroups(gs, 0, j, bus, dev, func);
        Some(flag)
      case None =>
        var rest := LookupInGroups(gs[1..], bus, dev, func);
        assert forall i :: 1 <= i < |gs| ==> gs[i] == gs[1..][i - 1];
        assert Listed(gs, bus, dev, func) ==> Listed(gs[1..], bus, dev, func) by {
          if Listed(gs, bus, dev, func) {
            var i, j :| 0 <= i < |gs| && 0 <= j < |gs[i].devices| && Matches(gs[i].devices[j], bus, dev, func);
            assert i != 0;
            assert gs[1..][i - 1].devices[j] == gs[i].devices[j];
          }
        }
        if rest.Some? then
          var i, j :| FirstInGroups(gs[1..], i, j, bus, dev, func) && gs[1..][i].devices[j].assignedToLinux == rest.value;
          assert FirstInGroups(gs, i + 1, j, bus, dev, func);
          rest
        else
          rest
  }

  /**
   * `iommu_is_linux_device`: the flag of the first match in group order, or
   * false (Windows) for an address the table does not list.
   */
  function IsLinuxDevice(s: IommuState, bus: U16, dev: U16, func: U16): (r: bool)
    ensures !Listed(s.groups, bus, dev, func) ==> !r
    ensures Listed(s.groups, bus, dev, func) ==>
              exists i, j :: FirstInGroups(s.groups, i, j, bus, dev, func)
                             && r == s.groups[i].devices[j].assignedToLinux
    ensures Listed(s.groups, bus, dev, func) && AllOwnedBy(s.groups, bus, dev, func, true) ==> r
    ensures Listed(s.groups, bus, dev, func) && AllOwnedBy(s.groups, bus, dev, func, false) ==> !r
    ensures r ==> exists i, j :: 0 <= i < |s.groups| && 0 <= j < |s.groups[i].devices|
                                && Matches(s.groups[i].devices[j], bus, dev, func)
                                && s.groups[i].devices[j].assignedToLinux
  {
    match LookupInGroups(s.groups, bus, dev, func)
    case Some(flag) => flag
    case None => false
  }

  /** One group with every device at (bus, dev, func) given flag `linux`. */
  function AssignInGroup(g: Group, bus: U16, dev: U16, func: U16, linux: bool): Group
  {
    var ds := seq(|g.devices|, j requires 0 <= j < |g.devices| =>
                if Matches(g.devices[j], bus, dev, func) then g.devices[j].(assignedToLinux := linux)
                else g.devices[j]);
    var hit := exists j :: 0 <= j < |g.devices| && Matches(g.devices[j], bus, dev, func);
    g.(devices := ds, assignedToLinux := if hit then linux else g.assignedToLinux)
  }

  /**
   * `iommu_assign_device_to_linux` (`linux` true) and
   * `iommu_assign_device_to_windows` (`linux` false).
   */
  function Assign(s: IommuState, bus: U16, dev: U16, func: U16, linux: bool): (s': IommuState)
    ensures s'.baseAddr == s.baseAddr && s'.kind == s.kind && s'.enabled == s.enabled
    ensures |s'.groups| == |s.groups|
    ensures forall i :: 0 <= i < |s.groups| ==>
              && s'.groups[i].groupId == s.groups[i].groupId
              && |s'.groups[i].devices| == |s.groups[i].devices|
    ensures forall i, j :: 0 <= i < |s.groups| && 0 <= j < |s.groups[i].devices| ==>
              var d := s.groups[i].devices[j];
              s'.groups[i].devices[j] == if Matches(d, bus, dev, func) then d.(assignedToLinux := linux) else d
    ensures forall i :: 0 <= i < |s.groups| ==>
              s'.groups[i].assignedToLinux ==
                if exists j :: 0 <= j < |s.groups[i].devices| && Matches(s.groups[i].devices[j], bus, dev, func)
                then linux else s.groups[i].assignedToLinux
    ensures AllOwnedBy(s'.groups, bus, dev, func, linux)
    ensures Valid(s) ==> Valid(s')
  {
    s.(groups := seq(|s.groups|, i requires 0 <= i < |s.groups| => AssignInGroup(s.groups[i], bus, dev, func, linux)))
  }

  function AssignToLinux(s: IommuState, bus: U16, dev: U16, func: U16): (s': IommuState)
    ensures IsLinuxDevice(s', bus, dev, func) <==> Listed(s.groups, bus, dev, func)
  {
    var s' := Assign(s, bus, dev, func, true);
    if Listed(s.groups, bus, dev, func) then
      var i, j :| 0 <= i < |s.groups| && 0 <= j < |s.groups[i].devices| && Matches(s.groups[i].devices[j], bus, dev, func);
      assert Matches(s'.groups[i].devices[j], bus, dev, func);
      s'
    else
      s'
  }

  function AssignToWindows(s: IommuState, bus: U16, dev: U16, func: U16): (s': IommuState)
    ensures !IsLinuxDevice(s', bus, dev, func)
  {
    Assign(s, bus, dev, func, false)
  }

  /** The last assignment of a listed device decides the ownership query. */
  lemma LastAssignmentWins(s: IommuState, bus: U16, dev: U16, func: U16, first: bool, second: bool)
    requires Listed(s.groups, bus, dev, func)
    ensures IsLinuxDevice(Assign(Assign(s, bus, dev, func, first), bus, dev, func, second), bus, dev, func) == second
  {
    var s1 := Assign(s, bus, dev, func, first);
    var s2 := Assign(s1, bus, dev, func, second);
    var i, j :| 0 <= i < |s.groups| && 0 <= j < |s.groups[i].devices| && Matches(s.groups[i].devices[j], bus, dev, func);
    assert Matches(s2.groups[i].devices[j], bus, dev, func);
  }

  /** Linux then Windows queries as Windows; Windows then Linux as Linux. */
  lemma AssignmentOrder(s: IommuState, bus: U16, dev: U16, func: U16)
    requires Listed(s.groups, bus, dev, func)
    ensures !IsLinuxDevice(AssignToWindows(AssignToLinux(s, bus, dev, func), bus, dev, func), bus, dev, func)
    ensures IsLinuxDevice(AssignToLinux(AssignToWindows(s, bus, dev, func), bus, dev, func), bus, dev, func)
  {
    LastAssignmentWins(s, bus, dev, func, true, false);
    LastAssignmentWins(s, bus, dev, func, false, true);
  }

  /** Assignment touches no device at another address. */
  lemma AssignLeavesOthers(s: IommuState, bus: U16, dev: U16, func: U16, linux: bool, bus': U16, dev': U16, func': U16)
    requires (bus', dev', func') != (bus, dev, func)
    ensures IsLinuxDevice(Assign(s, bus, dev, func, linux), bus', dev', func') == IsLinuxDevice(s, bus', dev', func')
  {
    var s' := Assign(s, bus, dev, func, linux);
    LookupUnchanged(s.groups, s'.groups, bus', dev', func');
  }

  /** Two tables that agree on every device at an address answer alike. */
  lemma {:induction false} LookupUnchanged(gs: seq<Group>, gs': seq<Group>, bus: U16, dev: U16, func: U16)
    requires |gs| == |gs'|
    requires forall i :: 0 <= i < |gs| ==> |gs[i].devices| == |gs'[i].devices|
    requires forall i, j :: 0 <= i < |gs| && 0 <= j < |gs[i].devices| ==>
               (Matches(gs[i].devices[j], bus, dev, func) <==> Matches(gs'[i].devices[j], bus, dev, func))
    requires forall i, j :: 0 <= i < |gs| && 0 <= j < |gs[i].devices| && Matches(gs[i].devices[j], bus, dev, func) ==>
               gs[i].devices[j] == gs'[i].devices[j]
    ensures LookupInGroups(gs, bus, dev, func) == LookupInGroups(gs', bus, dev, func)
  {
    if |gs| > 0 {
      DevicesUnchanged(gs[0].devices, gs'[0].devices, bus, dev, func);
      LookupUnchanged(gs[1..], gs'[1..], bus, dev, func);
    }
  }

  lemma {:induction false} DevicesUnchanged(ds: seq<PcieDevice>, ds': seq<PcieDevice>, bus: U16, dev: U16, func: U16)
    requires |ds| == |ds'|
    requires forall j :: 0 <= j < |ds| ==> (Matches(ds[j], bus, dev, func) <==> Matches(ds'[j], bus, dev, func))
    requires forall j :: 0 <= j < |ds| && Matches(ds[j], bus, dev, func) ==> ds[j] == ds'[j]
    ensures LookupInDevices(ds, bus, dev, func) == LookupInDevices(ds', bus, dev, func)
  {
    if |ds| > 0 && !Matches(ds[0], bus, dev, func) {
      DevicesUnchanged(ds[1..], ds'[1..], bus, dev, func);
    }
  }

  /** Every group's flag equals the flag of each of its devices. */
  predicate GroupsAgree(gs: seq<Group>)
  {
    forall i, j :: 0 <= i < |gs| && 0 <= j < |gs[i].devices| ==> gs[i].devices[j].assignedToLinux == gs[i].assignedToLinux
  }

  /** Every group holds exactly one device, as `setup_device_groups` builds them. */
  predicate SingleDeviceGroups(gs: seq<Group>)
  {
    forall i :: 0 <= i < |gs| ==> |gs[i].devices| == 1
  }

  /**
   * Group ownership moves with its device: on single-device groups,
   * assignment keeps each group's flag equal to its device's flag.
   */
  lemma AssignKeepsGroupsAgreeing(s: IommuState, bus: U16, dev: U16, func: U16, linux: bool)
    requires SingleDeviceGroups(s.groups) && GroupsAgree(s.groups)
    ensures SingleDeviceGroups(Assign(s, bus, dev, func, linux).groups)
    ensures GroupsAgree(Assign(s, bus, dev, func, linux).groups)
  {
    var s' := Assign(s, bus, dev, func, linux);
    forall i, j | 0 <= i < |s'.groups| && 0 <= j < |s'.groups[i].devices|
      ensures s'.groups[i].devices[j].assignedToLinux == s'.groups[i].assignedToLinux
    {
      assert j == 0;
      if Matches(s.groups[i].devices[0], bus, dev, func) {
        assert s'.groups[i].assignedToLinux == linux;
      } else {
        assert !exists k :: 0 <= k < |s.groups[i].devices| && Matches(s.groups[i].devices[k], bus, dev, func);
      }
    }
  }

  /** The scanned table satisfies the group/device agreement. */
  lemma ScannedGroupsAgree(cfg: Pci.ConfigSpace)
    ensures SingleDeviceGroups(ScannedGroups(cfg))
    ensures GroupsAgree(ScannedGroups(cfg))
  {
    var gs := ScannedGroups(cfg);
    forall i | 0 <= i < |gs|
      ensures |gs[i].devices| == 1 && gs[i].devices[0].assignedToLinux == gs[i].assignedToLinux
    {
      ScannedGroupsShape(cfg, i);
    }
  }

  // ---------------------------------------------------------------- enable

  datatype EnableOutcome = NotAvailable | Enabled(written: bv32) | VerifyFailed(written: bv32)

  /**
   * The address of the Control Register (64-bit addition). The MMIO base
   * detection stores is 4 KiB aligned, so the register sits at offset 0x18
   * of its page.
   */
  function ControlRegisterAddress(s: IommuState): (a: bv64)
    ensures s.baseAddr & 0xFFF == 0 ==> a & 0xFFF == ControlOffset
  {
    s.baseAddr + ControlOffset
  }

  /**
   * `iommu_enable_amdvi`. `before` is the value the register at
   * `ControlRegisterAddress(s)` reads before the write, `after` what it
   * reads back after it.
   */
  function EnableAmdVi(s: IommuState, before: bv32, after: bv32): (r: EnableOutcome)
    ensures r.NotAvailable? <==> !(s.enabled && s.kind == TypeAmdVi)
    ensures !r.NotAvailable? ==>
              && r.written & ControlIommuEn == ControlIommuEn
              && r.written & ControlCoherent == ControlCoherent
              && r.written & !(ControlIommuEn | ControlCoherent) == before & !(ControlIommuEn | ControlCoherent)
    ensures r.Enabled? <==> !r.NotAvailable? && after & ControlIommuEn != 0
  {
    if !s.enabled || s.kind != TypeAmdVi then NotAvailable
    else
      var ctrl := (before | ControlIommuEn) | ControlCoherent;
      if after & ControlIommuEn != 0 then Enabled(ctrl) else VerifyFailed(ctrl)
  }

  /**
   * `iommu_init`. `finished` is false when detection's capability walk ran
   * out of fuel (the C loop would not return); then nothing is changed.
   */
  method Init(s: IommuState, cfg: Pci.ConfigSpace, fuel: nat, before: bv32, after: bv32)
    returns (finished: bool, s': IommuState, enable: Option<EnableOutcome>)
    ensures finished ==> (s'.enabled <==> exists d :: 0 <= d < 32 && AmdViAt(cfg, d))
    ensures !s'.enabled ==> s'.groups == s.groups && enable.None?
    ensures finished && s'.enabled ==>
              && s'.kind == TypeAmdVi
              && s'.groups == ScannedGroups(cfg)
              && enable.Some? && !enable.value.NotAvailable?
    ensures !finished ==> s' == s && enable.None?
    ensures finished <==> Detect(s, cfg, fuel).Some?
    ensures finished ==> s'.(groups := s.groups) == Detect(s, cfg, fuel).value
    ensures finished && !s'.enabled ==> s' == s.(enabled := false)
    ensures finished && s'.enabled ==> enable == Some(EnableAmdVi(s', before, after))
  {
    var detected := Detect(s, cfg, fuel);
    if detected.None? {
      return false, s, None;
    }
    finished := true;
    s' := detected.value;
    if !s'.enabled {
      return finished, s', None;
    }
    s' := SetupDeviceGroups(s', cfg);
    enable := None;
    if s'.kind == TypeAmdVi {
      enable := Some(EnableAmdVi(s', before, after));
    }
  }
}

=== FILE: layout.dfy ===
/**
 * Facts about the memory layout that the header constants of the memory
 * partition, the cell state machine and the CPU partition define together:
 * which of the partition claims hold, and where the ranges overlap.
 */
module Layout {
  import Memory
  import SystemManager
  import Cpu

  /** The two cells are adjacent, together make up all 32 GiB, and end at its top. */
  lemma CellsTileMemory()
    ensures Memory.WindowsMemoryStart == Memory.LinuxMemoryEnd
    ensures Memory.LinuxMemorySize + Memory.WindowsMemorySize == Memory.TotalMemory
    ensures Memory.WindowsMemoryEnd == Memory.TotalMemory
  {
  }

  /** Each hibernation store is at least as large as the cell memory it holds. */
  lemma StoresHoldCells()
    ensures SystemManager.LinuxHibernationSize >= Memory.LinuxMemorySize
    ensures SystemManager.WindowsHibernationSize >= Memory.WindowsMemorySize
  {
  }

  /** The hibernation block is the 2 MiB page, and it divides both cell sizes exactly. */
  lemma BlocksDivideCells()
    ensures SystemManager.BlockSize == Memory.PageSize2M
    ensures Memory.LinuxMemorySize % Memory.PageSize2M == 0
    ensures Memory.WindowsMemorySize % Memory.PageSize2M == 0
    ensures SystemManager.BlocksFor(Memory.LinuxMemorySize) * Memory.PageSize2M == Memory.LinuxMemorySize
  {
    SystemManager.SixteenGiBIsBlocks();
  }

  /** The page-directory flags lie below bit 21, the bits a 2 MiB page address leaves clear. */
  lemma FlagsBelowPageBits()
    ensures Memory.PdFlags & !0x1F_FFFF == 0
  {
  }

  /** OR-ing the flags into a 2 MiB-aligned address leaves the address bits as they were. */
  lemma FlagsKeepAlignedAddress(addr: bv64)
    requires addr & 0x1F_FFFF == 0
    ensures (addr | Memory.PdFlags) & !0x1F_FFFF == addr
  {
  }

  /** The two core ranges cover six cores each, as many as a cell's `active_core_count`. */
  lemma CoreRangesMatchCells()
    ensures Cpu.LinuxCoresEnd - Cpu.LinuxCoresStart + 1 == SystemManager.CoresPerCell
    ensures Cpu.WindowsCoresEnd - Cpu.WindowsCoresStart + 1 == SystemManager.CoresPerCell
    ensures Cpu.WindowsCoresStart == Cpu.LinuxCoresEnd + 1
    ensures Cpu.WindowsCoresEnd < Cpu.MaxCpus
  {
  }

  // ---------------------------------------------------------------- overlaps

  /** The hypervisor's memory lies inside the Linux cell, so the two are not disjoint. */
  lemma HypervisorInsideLinux()
    ensures Memory.LinuxMemoryStart <= Memory.HypervisorMemoryStart
    ensures Memory.HypervisorMemoryEnd <= Memory.LinuxMemoryEnd
    ensures Memory.IsLinuxAddress(Memory.HypervisorMemoryStart)
    ensures !Memory.IsWindowsAddress(Memory.HypervisorMemoryStart)
  {
  }

  /** The Linux hibernation store starts in the Linux cell and ends in the Windows cell. */
  lemma LinuxStoreOverlapsBothCells()
    ensures Memory.IsLinuxAddress(SystemManager.LinuxHibernationAddr)
    ensures Memory.IsWindowsAddress(SystemManager.LinuxHibernationAddr + SystemManager.LinuxHibernationSize - 1)
  {
  }

  /** The Windows hibernation store runs past the end of the 32 GiB of memory. */
  lemma WindowsStorePastMemory()
    ensures SystemManager.WindowsHibernationAddr + SystemManager.WindowsHibernationSize > Memory.TotalMemory
    ensures !Memory.IsLinuxAddress(Memory.TotalMemory) && !Memory.IsWindowsAddress(Memory.TotalMemory)
    ensures SystemManager.WindowsHibernationAddr <= Memory.TotalMemory < SystemManager.WindowsHibernationAddr + SystemManager.WindowsHibernationSize
  {
  }

  /** Whether `addr` is hypervisor memory. */
  predicate InHypervisor(addr: int)
  {
    Memory.HypervisorMemoryStart <= addr < Memory.HypervisorMemoryEnd
  }

  /** Whether `addr` lies in either hibernation store when the stores are laid out from `base`. */
  predicate InStores(base: nat, addr: int)
  {
    base <= addr < base + SystemManager.LinuxHibernationSize + SystemManager.WindowsHibernationSize
  }

  /**
   * The hibernation base is meant to lie after the hypervisor's memory, but
   * it lies 1 MiB before its end: the last MiB of hypervisor memory is also
   * the first MiB of the Linux store.
   */
  lemma HibernationBaseInsideHypervisor()
    ensures SystemManager.HibernationBase < Memory.HypervisorMemoryEnd
    ensures Memory.HypervisorMemoryEnd - SystemManager.HibernationBase == Memory.MiB
    ensures InHypervisor(SystemManager.LinuxHibernationAddr) && InStores(SystemManager.HibernationBase, SystemManager.LinuxHibernationAddr)
  {
  }

  /** A base that does lie after the hypervisor's memory: its end. */
  const IntendedHibernationBase: nat := Memory.HypervisorMemoryEnd

  /** With the base at the end of hypervisor memory, no store address is hypervisor memory. */
  lemma IntendedBaseAfterHypervisor()
    ensures IntendedHibernationBase >= Memory.HypervisorMemoryEnd
    ensures forall addr :: InStores(IntendedHibernationBase, addr) ==> !InHypervisor(addr)
  {
  }
}

=== FILE: memory.dfy ===
/**
 * The memory partition: the fixed layout of the two cells and of the
 * hypervisor heap, address classification, the bump allocator, page-table
 * allocation and the identity-mapped page directory of
 * `memory_setup_paging`. Addresses and sizes are `uint64_t` in the C and
 * `U64` here; where a C sum can wrap, the model reduces it modulo 2^64
 * explicitly. Page-table entries are `bv64`.
 */
module Memory {
  import opened Common

  const MiB: nat := 1024 * 1024
  const GiB: nat := 1024 * 1024 * 1024

  const TotalMemory: nat := 32 * GiB
  const LinuxMemorySize: nat := 16 * GiB
  const WindowsMemorySize: nat := 16 * GiB
  const HypervisorMemory: nat := 256 * MiB

  const LinuxMemoryStart: nat := 0
  const LinuxMemoryEnd: nat := LinuxMemoryStart + LinuxMemorySize
  const WindowsMemoryStart: nat := LinuxMemoryEnd
  const WindowsMemoryEnd: nat := WindowsMemoryStart + WindowsMemorySize
  const HypervisorMemoryStart: nat := 0x10_0000
  const HypervisorMemoryEnd: nat := HypervisorMemoryStart + HypervisorMemory

  const PageSize4K: nat := 4096
  const PageSize2M: nat := 2 * MiB
  const PageSize1G: nat := GiB

  /** Page-table entry flags (Intel SDM Vol. 3A, 4-level paging). */
  const PagePresent: bv64 := 1 << 0
  const PageWrite: bv64 := 1 << 1
  const PageUser: bv64 := 1 << 2
  const PagePwt: bv64 := 1 << 3
  const PagePcd: bv64 := 1 << 4
  const PageAccessed: bv64 := 1 << 5
  const PageDirty: bv64 := 1 << 6
  const PagePse: bv64 := 1 << 7
  const PageGlobal: bv64 := 1 << 8
  const PageNx: bv64 := 1 << 63

  /** Entries of one 4 KiB table of 64-bit entries. */
  const EntriesPerTable: nat := 512

  // ---------------------------------------------------------------- classification

  /** `memory_is_linux_address`. */
  predicate IsLinuxAddress(addr: U64): (r: bool)
    ensures r <==> addr < 16 * GiB
  {
    addr >= LinuxMemoryStart && addr < LinuxMemoryEnd
  }

  /** `memory_is_windows_address`. */
  predicate IsWindowsAddress(addr: U64): (r: bool)
    ensures r <==> 16 * GiB <= addr < TotalMemory
  {
    addr >= WindowsMemoryStart && addr < WindowsMemoryEnd
  }

  /**
   * No address belongs to both cells; below 32 GiB every address belongs to
   * exactly one, the first 16 GiB to Linux; from 32 GiB on, to neither.
   */
  lemma AddressClassification(addr: U64)
    ensures !(IsLinuxAddress(addr) && IsWindowsAddress(addr))
    ensures addr < TotalMemory ==> (IsLinuxAddress(addr) || IsWindowsAddress(addr))
    ensures IsLinuxAddress(addr) <==> addr < 16 * GiB
    ensures addr >= TotalMemory ==> !IsLinuxAddress(addr) && !IsWindowsAddress(addr)
  {
  }

  // ---------------------------------------------------------------- bump allocator

  /** The three static cursors of the hypervisor heap. */
  datatype Heap = Heap(start: U64, current: U64, end: U64)

  /** The heap as the static initialisers set it up. */
  const InitialHeap := Heap(HypervisorMemoryStart, HypervisorMemoryStart, HypervisorMemoryEnd)

  /** The cursor lies inside the heap. */
  predicate Valid(h: Heap)
  {
    h.start <= h.current <= h.end
  }

  /** A returned pointer (`None` is the null pointer) and the heap afterwards. */
  datatype Allocation = Allocation(ptr: Option<U64>, heap: Heap)

  /**
   * `memory_alloc` as written: the bound test `heap_current + size >
   * heap_end` is a 64-bit addition that can wrap around.
   */
  function AllocAsWritten(h: Heap, size: U64): (r: Allocation)
    ensures r.ptr.Some? ==> r.ptr.value == h.current && r.heap.current == (h.current + size) % Word64
    ensures r.ptr.None? ==> r.heap == h
  {
    var sum := (h.current + size) % Word64;
    if sum > h.end then Allocation(None, h)
    else Allocation(Some(h.current), h.(current := sum))
  }

  /** A size so large that `heap_current + size` wraps past zero. */
  const WrappingSize: U64 := 0xFFFF_FFFF_FFFF_F000

  /**
   * From the initial heap, a request of nearly 2^64 bytes passes the bound
   * test because the sum wraps, is granted, and leaves the cursor below the
   * start of the heap.
   */
  lemma AllocAsWrittenEscapesHeap()
    ensures AllocAsWritten(InitialHeap, WrappingSize).ptr == Some(HypervisorMemoryStart)
    ensures AllocAsWritten(InitialHeap, WrappingSize).heap.current < InitialHeap.start
    ensures !Valid(AllocAsWritten(InitialHeap, WrappingSize).heap)
  {
  }

  /**
   * `memory_alloc` with the bound test the code evidently intends: the
   * request fails exactly when it does not fit between the cursor and the
   * end of the heap.
   */
  function Alloc(h: Heap, size: U64): (r: Allocation)
    ensures r.ptr.None? <==> h.current + size > h.end
    ensures r.ptr.None? ==> r.heap == h
    ensures r.ptr.Some? ==>
              && r.ptr.value == h.current
              && r.heap == h.(current := h.current + size)
              && r.heap.current <= h.end
    ensures Valid(h) ==> Valid(r.heap)
  {
    if h.current + size > h.end then Allocation(None, h)
    else Allocation(Some(h.current), h.(current := h.current + size))
  }

  /** Without wrap-around the code as written and the corrected allocator agree. */
  lemma AllocAgreesWithoutWrap(h: Heap, size: U64)
    requires h.current + size < Word64
    ensures AllocAsWritten(h, size) == Alloc(h, size)
  {
  }

  /**
   * Allocation of a series of sizes in order: the pointers returned and the
   * heap at the end.
   */
  function AllocSeries(h: Heap, sizes: seq<U64>): (r: (seq<Option<U64>>, Heap))
    ensures |r.0| == |sizes|
    ensures Valid(h) ==> Valid(r.1)
    ensures h.current <= h.end ==> h.current <= r.1.current
    decreases |sizes|
  {
    if |sizes| == 0 then ([], h)
    else
      var a := Alloc(h, sizes[0]);
      var rest := AllocSeries(a.heap, sizes[1..]);
      ([a.ptr] + rest.0, rest.1)
  }

  /** Block `k` of a series was granted and occupies `[p, p + size)` between `lo` and `hi`. */
  predicate GrantedWithin(ptrs: seq<Option<U64>>, sizes: seq<U64>, k: nat, lo: U64, hi: U64)
    requires |ptrs| == |sizes| && k < |ptrs|
  {
    ptrs[k].Some? && lo <= ptrs[k].value && ptrs[k].value as int + sizes[k] <= hi
  }

  /**
   * Every granted block of a series lies inside the heap space handed out
   * by the series, and a block granted earlier ends before a block granted
   * later begins: the blocks are disjoint and increasing.
   */
  lemma {:induction false} AllocSeriesDisjoint(h: Heap, sizes: seq<U64>)
    requires Valid(h)
    ensures forall k :: 0 <= k < |sizes| && AllocSeries(h, sizes).0[k].Some? ==>
              GrantedWithin(AllocSeries(h, sizes).0, sizes, k, h.current, AllocSeries(h, sizes).1.current)
    ensures forall i, j :: 0 <= i < j < |sizes| && AllocSeries(h, sizes).0[i].Some? && AllocSeries(h, sizes).0[j].Some? ==>
              AllocSeries(h, sizes).0[i].value as int + sizes[i] <= AllocSeries(h, sizes).0[j].value
    decreases |sizes|
  {
    if |sizes| > 0 {
      var a := Alloc(h, sizes[0]);
      var rest := AllocSeries(a.heap, sizes[1..]);
      var ptrs := AllocSeries(h, sizes).0;
      var last := AllocSeries(h, sizes).1;
      assert ptrs == [a.ptr] + rest.0;
      assert last == rest.1;
      AllocSeriesDisjoint(a.heap, sizes[1..]);
      assert forall k :: 1 <= k < |sizes| ==> ptrs[k] == rest.0[k - 1] && sizes[k] == sizes[1..][k - 1];
      forall k | 0 <= k < |sizes| && ptrs[k].Some?
        ensures GrantedWithin(ptrs, sizes, k, h.current, last.current)
      {
        if k > 0 {
          assert GrantedWithin(rest.0, sizes[1..], k - 1, a.heap.current, last.current);
        }
      }
      forall i, j | 0 <= i < j < |sizes| && ptrs[i].Some? && ptrs[j].Some?
        ensures ptrs[i].value as int + sizes[i] <= ptrs[j].value
      {
        if i > 0 {
          assert rest.0[i - 1].value as int + sizes[1..][i - 1] <= rest.0[j - 1].value;
        } else {
          assert GrantedWithin(rest.0, sizes[1..], j - 1, a.heap.current, last.current);
        }
      }
    }
  }

  /** `memory_free`: the allocator never reclaims, so nothing changes. */
  function Free(h: Heap, ptr: U64): (r: Heap)
    ensures r == h
  {
    h
  }

  // ---------------------------------------------------------------- page tables

  /**
   * The allocation step of `alloc_page_table`, with the same wrapping bound
   * test as `memory_alloc` for a 4 KiB request.
   */
  function AllocTable(h: Heap): (r: Allocation)
    ensures r == AllocAsWritten(h, PageSize4K)
    ensures h.current + PageSize4K < Word64 ==> r == Alloc(h, PageSize4K)
  {
    var sum := (h.current + PageSize4K) % Word64;
    if sum > h.end then Allocation(None, h)
    else Allocation(Some(h.current), h.(current := sum))
  }

  /** Whether `t` is a table of 512 zero entries. */
  predicate IsClearTable(t: seq<bv64>)
  {
    |t| == EntriesPerTable && forall i :: 0 <= i < |t| ==> t[i] == 0
  }

  /**
   * `alloc_page_table`: a 4 KiB block from the heap, cleared entry by entry.
   * On failure the heap is unchanged and no table is returned.
   */
  method AllocPageTable(h: Heap) returns (ptr: Option<U64>, table: seq<bv64>, h': Heap)
    ensures Allocation(ptr, h') == AllocTable(h)
    ensures ptr.Some? ==> IsClearTable(table)
    ensures ptr.None? ==> table == []
  {
    var a := AllocTable(h);
    ptr, h' := a.ptr, a.heap;
    table := [];
    if ptr.None? {
      return;
    }
    var i := 0;
    while i < 512
      invariant 0 <= i <= 512 && |table| == i
      invariant forall k :: 0 <= k < i ==> table[k] == 0
    {
      table := table + [0];
      i := i + 1;
    }
  }

  /** The flags of every page-directory entry: a present, writable, global 2 MiB page. */
  const PdFlags: bv64 := PagePresent | PageWrite | PagePse | PageGlobal

  /** The flags of the PML4 and PDP entries that point to the next level. */
  const TableLinkFlags: bv64 := PagePresent | PageWrite

  /** A PML4 or PDP entry pointing at the table at `addr`: `addr | PAGE_PRESENT | PAGE_WRITE`. */
  function LinkEntry(addr: U64): bv64
  {
    (addr as bv64) | TableLinkFlags
  }

  /** Page-directory entry `k`: `(uint64_t)k * PAGE_SIZE_2M` with the flags OR-ed in. */
  function PdEntry(k: nat): (e: bv64)
    requires k < EntriesPerTable
    ensures e & 0x1F_FFFF == PdFlags
  {
    ((k as bv10 as bv64) * 0x20_0000) | PdFlags
  }

  /**
   * Entry `k` maps the 2 MiB page at `k` * 2 MiB: clearing the low 21 bits
   * gives back the page address, the low bits hold exactly the four flags,
   * and the entry is executable (NX clear).
   */
  lemma PdEntryIdentity(k: nat)
    requires k < EntriesPerTable
    ensures PdEntry(k) & !0x1F_FFFF == (k as bv10 as bv64) << 21
    ensures PdEntry(k) & 0x1F_FFFF == PdFlags
    ensures PdEntry(k) & PageNx == 0
  {
  }

  /** Bits 21 and up of entry `k` hold the page number `k`: the map is the identity. */
  lemma PdEntryPageNumber(k: nat)
    requires k < EntriesPerTable
    ensures PdEntry(k) >> 21 == k as bv10 as bv64
  {
  }

  /** The outcome of `memory_setup_paging`'s table building. */
  datatype Paging =
    | PagingFailed(heap: Heap)
    | Paged(pml4Addr: U64, pdpAddr: U64, pdAddr: U64, pml4: seq<bv64>, pdp: seq<bv64>, pd: seq<bv64>, heap: Heap)

  /** A table of 512 entries that is zero except entry 0, which is `first`. */
  predicate OnlyFirstEntry(t: seq<bv64>, first: bv64)
  {
    |t| == EntriesPerTable && t[0] == first && forall i :: 1 <= i < |t| ==> t[i] == 0
  }

  /**
   * The table building of `memory_setup_paging`: PML4, PDP and PD from the
   * heap, PML4[0] and PDP[0] linking down, and 512 identity 2 MiB entries in
   * the PD. The PDP and PD are both allocated before either is checked.
   * CR3 and CR4 are not written here.
   */
  method SetupPaging(h: Heap) returns (r: Paging)
    requires Valid(h) && h.end <= HypervisorMemoryEnd
    ensures Valid(r.heap)
    ensures r.Paged? <==> h.end - h.current >= 3 * PageSize4K
    ensures r.PagingFailed? ==> r.heap.current == h.current || r.heap.current == h.current + PageSize4K
                                || r.heap.current == h.current + 2 * PageSize4K
    ensures r.heap == h.(current := r.heap.current)
    ensures h.end - h.current < PageSize4K ==> r == PagingFailed(h)
    ensures PageSize4K <= h.end - h.current < 2 * PageSize4K ==>
              r == PagingFailed(h.(current := h.current + PageSize4K))
    ensures 2 * PageSize4K <= h.end - h.current < 3 * PageSize4K ==>
              r == PagingFailed(h.(current := h.current + 2 * PageSize4K))
    ensures r.Paged? ==>
              && r.pml4Addr == h.current
              && r.pdpAddr == h.current + PageSize4K
              && r.pdAddr == h.current + 2 * PageSize4K
              && r.heap.current == h.current + 3 * PageSize4K
              && OnlyFirstEntry(r.pml4, LinkEntry(r.pdpAddr))
              && OnlyFirstEntry(r.pdp, LinkEntry(r.pdAddr))
              && |r.pd| == EntriesPerTable
              && forall k :: 0 <= k < EntriesPerTable ==> r.pd[k] == PdEntry(k)
  {
    var pml4Ptr, pml4, h1 := AllocPageTable(h);
    if pml4Ptr.None? {
      return PagingFailed(h1);
    }
    var pdpPtr, pdp, h2 := AllocPageTable(h1);
    var pdPtr, pd, h3 := AllocPageTable(h2);
    if pdpPtr.None? || pdPtr.None? {
      return PagingFailed(h3);
    }
    LinkFirst(pml4, pdpPtr.value);
    LinkFirst(pdp, pdPtr.value);
    pml4 := pml4[0 := LinkEntry(pdpPtr.value)];
    pdp := pdp[0 := LinkEntry(pdPtr.value)];
    pd := FillDirectory(pd);
    r := Paged(pml4Ptr.value, pdpPtr.value, pdPtr.value, pml4, pdp, pd, h3);
  }

  /** Writing the link into entry 0 of a cleared table. */
  lemma LinkFirst(t: seq<bv64>, addr: U64)
    requires IsClearTable(t)
    ensures OnlyFirstEntry(t[0 := LinkEntry(addr)], LinkEntry(addr))
  {
  }

  /** The PD loop of `memory_setup_paging`: entry `i` maps the `i`-th 2 MiB page. */
  method FillDirectory(table: seq<bv64>) returns (pd: seq<bv64>)
    requires |table| == EntriesPerTable
    ensures |pd| == EntriesPerTable
    ensures forall k :: 0 <= k < EntriesPerTable ==> pd[k] == PdEntry(k)
  {
    pd := table;
    var i := 0;
    while i < 512
      invariant 0 <= i <= 512 && |pd| == EntriesPerTable
      invariant forall k :: 0 <= k < i ==> pd[k] == PdEntry(k)
    {
      var pageAddr := (i as bv10 as bv64) * 0x20_0000;
      pd := pd[i := pageAddr | PagePresent | PageWrite | PagePse | PageGlobal];
      i := i + 1;
    }
  }

  /** From the initial heap the table building succeeds: the heap holds 256 MiB. */
  lemma InitialHeapFitsPaging()
    ensures Valid(InitialHeap) && InitialHeap.end - InitialHeap.current >= 3 * PageSize4K
  {
  }

  // ---------------------------------------------------------------- regions

  /** `memory_region_t`; `limit` is the size of the region, `allocatedBytes` the C `allocated`. */
  datatype Region = Region(base: U64, limit: U64, allocatedBytes: U64, name: string)

  /** Whether `addr` lies in `[base, base + limit)`. */
  predicate InRegion(r: Region, addr: int)
  {
    r.base <= addr < r.base + r.limit
  }

  /** The region table `memory_setup_cell_boundaries` fills in (`region_count` is 3). */
  function CellBoundaries(): (rs: seq<Region>)
    ensures |rs| == 3
    ensures forall addr: U64 :: InRegion(rs[0], addr) <==> IsLinuxAddress(addr)
    ensures forall addr: U64 :: InRegion(rs[1], addr) <==> IsWindowsAddress(addr)
    ensures forall addr: U64 :: InRegion(rs[2], addr) <==> HypervisorMemoryStart <= addr < HypervisorMemoryEnd
    ensures forall i :: 0 <= i < 3 ==> rs[i].allocatedBytes == 0 && |rs[i].name| < 32
  {
    [ Region(LinuxMemoryStart, LinuxMemorySize, 0, "Linux Cell"),
      Region(WindowsMemoryStart, WindowsMemorySize, 0, "Windows Cell"),
      Region(HypervisorMemoryStart, HypervisorMemory, 0, "Hypervisor") ]
  }
}

=== FILE: pci.dfy ===
/**
 * PCI configuration mechanism #1 (section 3.2.2.3.2 of the PCI Local Bus
 * Specification 3.0): the 32-bit CONFIG_ADDRESS encoding, and the bus-major,
 * device-minor scan of function 0 that both the IOMMU group builder and the
 * USB keyboard detector perform.
 */
module Pci {
  import opened Common

  /** Bit 31 of CONFIG_ADDRESS: the configuration-space enable bit. */
  const EnableBit: bv32 := 0x8000_0000

  /** Vendor id read back from an empty slot. */
  const NoDevice: bv16 := 0xFFFF

  /** Buses scanned (0..255) times devices per bus (0..31). */
  const SlotCount: nat := 256 * 32

  /**
   * Configuration space as seen through CONFIG_DATA: the dword returned after
   * an address with the given bus, device, function and register fields was
   * written to CONFIG_ADDRESS. `MakeAddressDecodes` shows the fields are
   * recovered from the address for in-range coordinates, so indexing by the
   * fields is indexing by the address. The port I/O itself is not modelled.
   */
  type ConfigSpace = (U16, U16, U16, U16) -> bv32

  /**
   * PCI_MAKE_ADDRESS. The C operands are `uint16_t` values shifted as 32-bit
   * integers, so the shifts are modelled in 32-bit arithmetic.
   */
  function MakeAddress(bus: bv16, dev: bv16, func: bv16, offset: bv16): (a: bv32)
    ensures a & EnableBit == EnableBit
  {
    EnableBit | AddressFields(bus, dev, func, offset)
  }

  /**
   * Every address has the enable bit set and is dword aligned, and for
   * in-range coordinates the fields decode back to the coordinates.
   */
  lemma MakeAddressDecodes(bus: bv16, dev: bv16, func: bv16, offset: bv16)
    ensures MakeAddress(bus, dev, func, offset) & EnableBit == EnableBit
    ensures MakeAddress(bus, dev, func, offset) & 3 == 0
    ensures bus < 256 && dev < 32 && func < 8 ==>
              var a := MakeAddress(bus, dev, func, offset);
              && AddressBus(a) == bus
              && AddressDevice(a) == dev
              && AddressFunction(a) == func
              && AddressRegister(a) == offset & 0xFC
  {
  }

  /** The bus, device, function and register fields of an address, without the enable bit. */
  function AddressFields(bus: bv16, dev: bv16, func: bv16, offset: bv16): bv32
  {
    ((bus as bv32) << 16) | ((dev as bv32) << 11) | ((func as bv32) << 8) | ((offset & 0xFC) as bv32)
  }

  /** Bits 23:16 of a configuration address. */
  function AddressBus(a: bv32): bv16 { ((a >> 16) & 0xFF) as bv16 }

  /** Bits 15:11 of a configuration address. */
  function AddressDevice(a: bv32): bv16 { ((a >> 11) & 0x1F) as bv16 }

  /** Bits 10:8 of a configuration address. */
  function AddressFunction(a: bv32): bv16 { ((a >> 8) & 0x7) as bv16 }

  /** Bits 7:2 of a configuration address (the dword-aligned register offset). */
  function AddressRegister(a: bv32): bv16 { (a & 0xFC) as bv16 }

  /**
   * The address that `pci_read_config`, `pci_write_config` (iommu.c) and
   * `usb_get_device_info` (input_manager.c) compute inline and then OR with
   * 0x80000000 before writing it to CONFIG_ADDRESS.
   */
  function InlineAddress(bus: bv16, dev: bv16, func: bv16, offset: bv16): bv32
  {
    var addr := AddressFields(bus, dev, func, offset);
    addr | 0x8000_0000
  }

  /** The inline computation is PCI_MAKE_ADDRESS. */
  lemma InlineAddressIsMakeAddress(bus: bv16, dev: bv16, func: bv16, offset: bv16)
    ensures InlineAddress(bus, dev, func, offset) == MakeAddress(bus, dev, func, offset)
  {
  }

  /**
   * The register field of an address, `offset & 0xFC` of a 16-bit offset,
   * in integer terms: bits 8 and up and bits 1:0 are dropped.
   */
  function RegisterOf(offset: U16): (r: U16)
    ensures r % 4 == 0 && r < 256
    ensures offset % 256 - 3 <= r <= offset % 256
  {
    offset % 256 - offset % 4
  }

  /**
   * One configuration-space dword read (the asm out/in pair becomes `cfg`):
   * the fields of `InlineAddress(bus, dev, func, offset)`.
   */
  function ReadConfig(cfg: ConfigSpace, bus: U16, dev: U16, func: U16, offset: U16): bv32
  {
    cfg(bus, dev, func, RegisterOf(offset))
  }

  /** Function 0 of device `dev` on bus `bus`: what the bus scans visit. */
  datatype Slot = Slot(bus: U16, dev: U16)

  /** Whether a slot lies in the scanned range: bus 0..255, device 0..31. */
  predicate InRange(s: Slot)
  {
    s.bus < 256 && s.dev < 32
  }

  /** Position of a slot in the bus-major, device-minor scan order. */
  function Index(s: Slot): nat
  {
    s.bus * 32 + s.dev
  }

  /** For in-range slots, scan order is bus-major, device-minor order. */
  lemma IndexOrderIsBusThenDevice(s: Slot, t: Slot)
    requires InRange(s) && InRange(t) && Index(s) < Index(t)
    ensures s.bus < t.bus || (s.bus == t.bus && s.dev < t.dev)
  {
  }

  /** In-range slots and scan positions below 256 * 32 are in one-to-one correspondence. */
  lemma IndexInjective(s: Slot, t: Slot)
    requires InRange(s) && InRange(t)
    ensures Index(s) < SlotCount
    ensures Index(s) == Index(t) ==> s == t
  {
  }

  /** The vendor/device dword at offset 0 of a slot. */
  function VendorDeviceAt(cfg: ConfigSpace, s: Slot): bv32
  {
    ReadConfig(cfg, s.bus, s.dev, 0, 0)
  }

  /** The vendor id (low half of the vendor/device dword) of a slot. */
  function VendorAt(cfg: ConfigSpace, s: Slot): bv16
  {
    (VendorDeviceAt(cfg, s) & 0xFFFF) as bv16
  }

  /** The device id (high half of the vendor/device dword) of a slot. */
  function DeviceIdAt(cfg: ConfigSpace, s: Slot): bv16
  {
    ((VendorDeviceAt(cfg, s) >> 16) & 0xFFFF) as bv16
  }

  /** A point the scan can reach: a device of bus 0..255, or the end (256, 0). */
  predicate ScanPosition(bus: nat, dev: nat)
  {
    (bus < 256 && dev <= 32) || (bus == 256 && dev == 0)
  }

  /**
   * The accepted slots the scan visits before it reaches device `dev` of bus
   * `bus`, in scan order; position (bus, 32) is the same as (bus + 1, 0) and
   * (256, 0) is the end of the scan. This is the reference against which the
   * scanning loops are proved; its properties are the three lemmas below.
   */
  function AcceptedBefore(cfg: ConfigSpace, accept: bv16 -> bool, bus: nat, dev: nat): seq<Slot>
    requires ScanPosition(bus, dev)
    decreases bus, dev
  {
    if dev == 0 then
      if bus == 0 then [] else AcceptedBefore(cfg, accept, bus - 1, 32)
    else
      var s := Slot(bus, dev - 1);
      AcceptedBefore(cfg, accept, bus, dev - 1) + (if accept(VendorAt(cfg, s)) then [s] else [])
  }

  /** Every accepted slot of the whole scan. */
  function AllAccepted(cfg: ConfigSpace, accept: bv16 -> bool): seq<Slot>
  {
    AcceptedBefore(cfg, accept, 256, 0)
  }

  /** Every listed slot is in range, visited before the position, and accepted. */
  lemma {:induction false} AcceptedBeforeSound(cfg: ConfigSpace, accept: bv16 -> bool, bus: nat, dev: nat)
    requires ScanPosition(bus, dev)
    ensures forall i :: 0 <= i < |AcceptedBefore(cfg, accept, bus, dev)| ==>
              var s := AcceptedBefore(cfg, accept, bus, dev)[i];
              InRange(s) && Index(s) < bus * 32 + dev && accept(VendorAt(cfg, s))
    decreases bus, dev
  {
    if dev == 0 {
      if bus > 0 {
        AcceptedBeforeSound(cfg, accept, bus - 1, 32);
      }
    } else {
      AcceptedBeforeSound(cfg, accept, bus, dev - 1);
    }
  }

  /** The listed slots strictly increase in scan order. */
  lemma {:induction false} AcceptedBeforeIncreasing(cfg: ConfigSpace, accept: bv16 -> bool, bus: nat, dev: nat)
    requires ScanPosition(bus, dev)
    ensures forall i, j :: 0 <= i < j < |AcceptedBefore(cfg, accept, bus, dev)| ==>
              Index(AcceptedBefore(cfg, accept, bus, dev)[i]) < Index(AcceptedBefore(cfg, accept, bus, dev)[j])
    decreases bus, dev
  {
    if dev == 0 {
      if bus > 0 {
        AcceptedBeforeIncreasing(cfg, accept, bus - 1, 32);
      }
    } else {
      AcceptedBeforeIncreasing(cfg, accept, bus, dev - 1);
      AcceptedBeforeSound(cfg, accept, bus, dev - 1);
    }
  }

  /** Every accepted in-range slot visited before the position is listed. */
  lemma {:induction false} AcceptedBeforeComplete(cfg: ConfigSpace, accept: bv16 -> bool, bus: nat, dev: nat, s: Slot)
    requires ScanPosition(bus, dev)
    requires InRange(s) && Index(s) < bus * 32 + dev && accept(VendorAt(cfg, s))
    ensures s in AcceptedBefore(cfg, accept, bus, dev)
    decreases bus, dev
  {
    if dev == 0 {
      AcceptedBeforeComplete(cfg, accept, bus - 1, 32, s);
    } else if s != Slot(bus, dev - 1) {
      AcceptedBeforeComplete(cfg, accept, bus, dev - 1, s);
    }
  }

  /**
   * The first `cap` elements of `xs` (all of them when there are fewer), each
   * turned into a table entry by `f(index, slot)`: a fixed-capacity table
   * filled in scan order that silently ignores entries past its capacity.
   */
  function Capped<T>(xs: seq<Slot>, cap: nat, f: (nat, Slot) -> T): (r: seq<T>)
    ensures |r| == if |xs| < cap then |xs| else cap
    ensures forall i :: 0 <= i < |r| ==> r[i] == f(i, xs[i])
  {
    var n := if |xs| < cap then |xs| else cap;
    seq(n, i requires 0 <= i < n => f(i, xs[i]))
  }

  /** Appending one slot adds one entry while there is room, and nothing after. */
  lemma CappedAppend<T>(xs: seq<Slot>, x: Slot, cap: nat, f: (nat, Slot) -> T)
    ensures Capped(xs + [x], cap, f)
         == if |xs| < cap then Capped(xs, cap, f) + [f(|xs|, x)] else Capped(xs, cap, f)
  {
    var ys := xs + [x];
    assert forall i :: 0 <= i < |xs| ==> ys[i] == xs[i];
    if |xs| < cap {
      assert Capped(ys, cap, f) == Capped(xs, cap, f) + [f(|xs|, x)];
    } else {
      assert Capped(ys, cap, f) == Capped(xs, cap, f);
    }
  }
}

=== FILE: system_manager.dfy ===
/**
 * The cell state machine: two cells (Linux and Windows), each with a state
 * code and hibernation accounting, the index of the active cell, and the
 * switch that hibernates the active cell and resumes the other. Freezing,
 * saving, restoring and unfreezing are placeholders in the system (console
 * output only, no IPIs or copies); here each appends an event to a log, so
 * their order can be stated. The static tick counter behind
 * `get_timestamp` is a field of the state.
 */
module SystemManager {
  import opened Common
  import Memory
  import Cpu

  /** Cell state codes. */
  const StateRunning: U8 := 0
  const StateHibernated: U8 := 1
  const StateInitializing: U8 := 2
  const StateError: U8 := 3

  /** Hibernation stores: the Linux store at the base, the Windows store right after it. */
  const HibernationBase: nat := 0x1000_0000
  const LinuxHibernationSize: nat := 16 * Memory.GiB
  const WindowsHibernationSize: nat := 16 * Memory.GiB
  const LinuxHibernationAddr: nat := HibernationBase
  const WindowsHibernationAddr: nat := HibernationBase + LinuxHibernationSize

  /** The unit of hibernation accounting: a 2 MiB block. */
  const BlockSize: nat := 2 * 1024 * 1024

  /** Cores per cell, as the freeze and unfreeze ranges and `active_core_count` use it. */
  const CoresPerCell: nat := 6

  /** The four codes are pairwise distinct. */
  lemma StateCodesDistinct()
    ensures StateRunning != StateHibernated && StateRunning != StateInitializing && StateRunning != StateError
    ensures StateHibernated != StateInitializing && StateHibernated != StateError
    ensures StateInitializing != StateError
  {
  }

  /** The two stores are adjacent, so they do not overlap. */
  lemma HibernationStoresAdjacent()
    ensures WindowsHibernationAddr == LinuxHibernationAddr + LinuxHibernationSize
  {
  }

  /** `cell_t` without the saved CPU context, which nothing reads or writes. */
  datatype Cell = Cell(
    cellId: U32,
    state: U8,
    entryPoint: U64,
    hibernationAddr: U64,
    hibernationSize: U64,
    activeCoreCount: U32,
    hibernationBlocksUsed: U32)

  /** A zero-initialised cell. */
  const ZeroCell := Cell(0, 0, 0, 0, 0, 0, 0)

  /** The placeholder steps of hibernation and resumption, in the order they run. */
  datatype Event = Freeze(cell: U8) | Save(cell: U8) | Restore(cell: U8) | Unfreeze(cell: U8)

  /** `system_state_t`, the tick counter of `get_timestamp`, and the event log. */
  datatype SystemState = SystemState(
    cells: seq<Cell>,
    activeCell: U8,
    switchCount: U64,
    lastSwitchTime: U64,
    ticks: U64,
    log: seq<Event>)

  /** The static state before `system_manager_init`: everything zero. */
  const Zeroed := SystemState([ZeroCell, ZeroCell], 0, 0, 0, 0, [])

  /** The cell array has its two elements. */
  predicate WellFormed(s: SystemState)
  {
    |s.cells| == 2
  }

  /** The cell that is not `id` (for `id` 0 or 1). */
  function Other(id: U8): U8
  {
    if id == 0 then 1 else 0
  }

  /** The indices of the cells whose state is Running. */
  function RunningCells(s: SystemState): set<nat>
  {
    set i | 0 <= i < |s.cells| && s.cells[i].state == StateRunning
  }

  /** The key invariant: the active cell is a valid index, it is Running, and the other cell is not. */
  predicate OneRunning(s: SystemState)
  {
    && WellFormed(s)
    && s.activeCell < 2
    && s.cells[s.activeCell].state == StateRunning
    && s.cells[Other(s.activeCell)].state != StateRunning
  }

  /** `OneRunning` says exactly that the set of Running cells is the active cell alone. */
  lemma OneRunningIsSingleRunning(s: SystemState)
    requires WellFormed(s)
    ensures OneRunning(s) <==> RunningCells(s) == {s.activeCell as nat}
  {
    if OneRunning(s) {
      var other := Other(s.activeCell) as nat;
      assert other in {0, 1} && other != s.activeCell as nat;
      forall i | i in RunningCells(s)
        ensures i == s.activeCell as nat
      {
        assert i == 0 || i == 1;
      }
      assert s.activeCell as nat in RunningCells(s);
    }
    if RunningCells(s) == {s.activeCell as nat} {
      assert s.activeCell as nat in RunningCells(s);
      assert Other(s.activeCell) as nat !in RunningCells(s);
    }
  }

  /** `get_timestamp`: the current tick, and the state with the counter advanced (wrapping at 2^64). */
  function Timestamp(s: SystemState): (r: (U64, SystemState))
    ensures r.0 == s.ticks && r.1 == s.(ticks := (s.ticks + 1) % Word64)
  {
    (s.ticks, s.(ticks := (s.ticks + 1) % Word64))
  }

  /**
   * `system_manager_init`: both cells get their id, entry point,
   * hibernation store and six cores; Linux becomes active and Running,
   * Windows Hibernated; the switch count is zero and the switch time is the
   * first timestamp.
   */
  function Init(s: SystemState): (s': SystemState)
    requires WellFormed(s)
    ensures WellFormed(s')
    ensures s'.activeCell == 0 && s'.switchCount == 0
    ensures s'.cells[0].state == StateRunning && s'.cells[1].state == StateHibernated
    ensures s'.cells[0].hibernationAddr == LinuxHibernationAddr
    ensures s'.cells[0].hibernationSize == LinuxHibernationSize
    ensures s'.cells[1].hibernationAddr == WindowsHibernationAddr
    ensures s'.cells[1].hibernationSize == WindowsHibernationSize
    ensures s'.cells[0].entryPoint == Memory.LinuxMemoryStart
    ensures s'.cells[1].entryPoint == Memory.WindowsMemoryStart
    ensures OneRunning(s')
    ensures s'.lastSwitchTime == s.ticks && s'.ticks == (s.ticks + 1) % Word64
    ensures s'.log == s.log
    ensures s'.cells[0].cellId == 0 && s'.cells[1].cellId == 1
    ensures s'.cells[0].activeCoreCount == CoresPerCell && s'.cells[1].activeCoreCount == CoresPerCell
    ensures s'.cells[0].hibernationBlocksUsed == s.cells[0].hibernationBlocksUsed
    ensures s'.cells[1].hibernationBlocksUsed == s.cells[1].hibernationBlocksUsed
  {
    var linux := s.cells[0].(
      cellId := 0, state := StateRunning, entryPoint := Memory.LinuxMemoryStart,
      hibernationAddr := LinuxHibernationAddr, hibernationSize := LinuxHibernationSize,
      activeCoreCount := CoresPerCell);
    var windows := s.cells[1].(
      cellId := 1, state := StateHibernated, entryPoint := Memory.WindowsMemoryStart,
      hibernationAddr := WindowsHibernationAddr, hibernationSize := WindowsHibernationSize,
      activeCoreCount := CoresPerCell);
    var (now, s1) := Timestamp(s);
    s1.(cells := [linux, windows], activeCell := 0, switchCount := 0, lastSwitchTime := now)
  }

  /**
   * `system_manager_set_active_cell`: an id of 2 or more, or the id that is
   * already active, changes nothing; otherwise only the active index
   * changes, and neither cell's state does.
   */
  function SetActiveCell(s: SystemState, id: U8): (s': SystemState)
    ensures id >= 2 || id == s.activeCell ==> s' == s
    ensures id < 2 && id != s.activeCell ==> s' == s.(activeCell := id)
    ensures s'.cells == s.cells
  {
    if id >= 2 then s
    else if s.activeCell == id then s
    else s.(activeCell := id)
  }

  /**
   * Nothing in `set_active_cell` touches the cell states, so it can name as
   * active a cell that is Hibernated: right after init, making Windows
   * active breaks the invariant.
   */
  lemma SetActiveCellBreaksInvariant()
    ensures OneRunning(Init(Zeroed))
    ensures !OneRunning(SetActiveCell(Init(Zeroed), 1))
  {
  }

  /** `system_manager_get_active_cell`: under the invariant, the reported cell is the Running one. */
  function GetActiveCell(s: SystemState): (id: U8)
    ensures OneRunning(s) ==> id < 2 && s.cells[id].state == StateRunning && id as nat in RunningCells(s)
  {
    s.activeCell
  }

  /** First core of the range `freeze_cores` and `unfreeze_cores` name for a cell. */
  function FirstCore(id: U8): nat
  {
    if id == 0 then 0 else CoresPerCell
  }

  /**
   * The exclusive range [start, start + 6) of the freeze and unfreeze
   * messages is the inclusive core range of the cell in the CPU partition.
   */
  lemma FrozenCoresAreCellCores(id: U8, core: nat)
    requires id < 2
    ensures FirstCore(id) <= core < FirstCore(id) + CoresPerCell <==>
              if id == 0 then Cpu.LinuxCoresStart <= core <= Cpu.LinuxCoresEnd
              else Cpu.WindowsCoresStart <= core <= Cpu.WindowsCoresEnd
  {
  }

  /** `system_manager_freeze_cores`: a no-op for an invalid id. */
  function FreezeCores(s: SystemState, id: U8): (s': SystemState)
    ensures s'.(log := s.log) == s
    ensures s'.log == s.log || s'.log == s.log + [Freeze(id)]
    ensures id >= 2 ==> s' == s
  {
    if id >= 2 then s else s.(log := s.log + [Freeze(id)])
  }

  /** `system_manager_unfreeze_cores`: a no-op for an invalid id. */
  function UnfreezeCores(s: SystemState, id: U8): (s': SystemState)
    ensures s'.(log := s.log) == s
    ensures s'.log == s.log || s'.log == s.log + [Unfreeze(id)]
    ensures id >= 2 ==> s' == s
  {
    if id >= 2 then s else s.(log := s.log + [Unfreeze(id)])
  }

  /** The blocks a store of `size` bytes occupies, stored into a `uint32_t`. */
  function BlocksFor(size: U64): (blocks: U32)
    ensures size < BlockSize * Word32 ==> blocks * BlockSize <= size < (blocks + 1) * BlockSize
  {
    (size / BlockSize) % Word32
  }

  /** A 16 GiB store is 8192 blocks, with nothing left over. */
  lemma SixteenGiBIsBlocks()
    ensures BlocksFor(LinuxHibernationSize) == 8192
    ensures BlocksFor(WindowsHibernationSize) == 8192
    ensures 8192 * BlockSize == LinuxHibernationSize
  {
  }

  /** `system_manager_save_cell_state`: records the blocks used by the cell's store. */
  function SaveCellState(s: SystemState, id: U8): (s': SystemState)
    requires WellFormed(s)
    ensures id >= 2 ==> s' == s
    ensures id < 2 ==> && |s'.cells| == |s.cells| && s'.log == s.log + [Save(id)]
                       && s'.cells[id].(hibernationBlocksUsed := s.cells[id].hibernationBlocksUsed) == s.cells[id]
                       && s'.cells[1 - id] == s.cells[1 - id]
    ensures id < 2 && s.cells[id].hibernationSize < BlockSize * Word32 ==>
              s'.cells[id].hibernationBlocksUsed * BlockSize <= s.cells[id].hibernationSize
                < (s'.cells[id].hibernationBlocksUsed + 1) * BlockSize
    ensures id < 2 ==> s' == s.(cells := s'.cells, log := s'.log)
    ensures id < 2 ==> s'.cells[id].hibernationBlocksUsed == BlocksFor(s.cells[id].hibernationSize)
  {
    if id >= 2 then s
    else
      var c := s.cells[id];
      s.(cells := s.cells[id := c.(hibernationBlocksUsed := BlocksFor(c.hibernationSize))],
         log := s.log + [Save(id)])
  }

  /** `system_manager_restore_cell_state`: the copy back is a placeholder. */
  function RestoreCellState(s: SystemState, id: U8): (s': SystemState)
    ensures s'.(log := s.log) == s
    ensures s'.log == s.log || s'.log == s.log + [Restore(id)]
    ensures id >= 2 ==> s' == s
  {
    if id >= 2 then s else s.(log := s.log + [Restore(id)])
  }

  /**
   * `system_manager_hibernate_cell`: freeze, then save, then mark the cell
   * Hibernated. The other cell, the active index, the counters and the
   * clock are untouched; an invalid id changes nothing.
   */
  function HibernateCell(s: SystemState, id: U8): (s': SystemState)
    requires WellFormed(s)
    ensures WellFormed(s')
    ensures id >= 2 ==> s' == s
    ensures id < 2 ==>
              && s'.log == s.log + [Freeze(id), Save(id)]
              && s'.cells[id] == s.cells[id].(state := StateHibernated,
                                              hibernationBlocksUsed := BlocksFor(s.cells[id].hibernationSize))
              && s'.cells[Other(id)] == s.cells[Other(id)]
              && s' == s.(cells := s'.cells, log := s'.log)
  {
    if id >= 2 then s
    else
      var s1 := FreezeCores(s, id);
      var s2 := SaveCellState(s1, id);
      s2.(cells := s2.cells[id := s2.cells[id].(state := StateHibernated)])
  }

  /**
   * `system_manager_resume_cell`: restore, then unfreeze, then mark the
   * cell Running. The block count is not touched, nor is anything else; an
   * invalid id changes nothing.
   */
  function ResumeCell(s: SystemState, id: U8): (s': SystemState)
    requires WellFormed(s)
    ensures WellFormed(s')
    ensures id >= 2 ==> s' == s
    ensures id < 2 ==>
              && s'.log == s.log + [Restore(id), Unfreeze(id)]
              && s'.cells[id] == s.cells[id].(state := StateRunning)
              && s'.cells[Other(id)] == s.cells[Other(id)]
              && s' == s.(cells := s'.cells, log := s'.log)
  {
    if id >= 2 then s
    else
      var s1 := RestoreCellState(s, id);
      var s2 := UnfreezeCores(s1, id);
      s2.(cells := s2.cells[id := s2.cells[id].(state := StateRunning)])
  }

  /**
   * `system_manager_switch_cells`: hibernate the active cell, then resume
   * the other one, then make it active, count the switch and stamp its time.
   */
  function SwitchCells(s: SystemState): (s': SystemState)
    requires WellFormed(s)
    ensures WellFormed(s')
    ensures s'.activeCell == Other(s.activeCell) && s'.activeCell < 2
    ensures s'.switchCount == (s.switchCount + 1) % Word64
    ensures s'.lastSwitchTime == s.ticks && s'.ticks == (s.ticks + 1) % Word64
    ensures s.activeCell < 2 ==>
              && s'.log == s.log + [Freeze(s.activeCell), Save(s.activeCell),
                                    Restore(Other(s.activeCell)), Unfreeze(Other(s.activeCell))]
              && s'.cells[s.activeCell].state == StateHibernated
              && s'.cells[Other(s.activeCell)].state == StateRunning
    ensures s.activeCell < 2 ==>
              && s'.cells[s.activeCell]
                   == s.cells[s.activeCell].(state := StateHibernated,
                                             hibernationBlocksUsed := BlocksFor(s.cells[s.activeCell].hibernationSize))
              && s'.cells[Other(s.activeCell)] == s.cells[Other(s.activeCell)].(state := StateRunning)
    ensures s.activeCell >= 2 ==>
              && s'.log == s.log + [Restore(0), Unfreeze(0)]
              && s'.cells == s.cells[0 := s.cells[0].(state := StateRunning)]
  {
    var current := s.activeCell;
    var next := Other(current);
    var s1 := HibernateCell(s, current);
    var s2 := ResumeCell(s1, next);
    var (now, s3) := Timestamp(s2);
    s3.(activeCell := next, switchCount := (s3.switchCount + 1) % Word64, lastSwitchTime := now)
  }

  /** In the log of a switch, the old cell is saved strictly before the new one is restored. */
  lemma HibernateBeforeResume(s: SystemState)
    requires WellFormed(s) && s.activeCell < 2
    ensures var log := SwitchCells(s).log;
            var n := |s.log|;
            && log[n] == Freeze(s.activeCell) && log[n + 1] == Save(s.activeCell)
            && log[n + 2] == Restore(SwitchCells(s).activeCell)
            && log[n + 3] == Unfreeze(SwitchCells(s).activeCell)
            && |log| == n + 4
  {
  }

  /** A switch keeps the invariant: the newly active cell is the only Running one. */
  lemma SwitchKeepsOneRunning(s: SystemState)
    requires OneRunning(s)
    ensures OneRunning(SwitchCells(s))
  {
  }

  /** `n` switches in a row. */
  function Switches(s: SystemState, n: nat): (s': SystemState)
    requires WellFormed(s)
    ensures WellFormed(s')
  {
    if n == 0 then s else SwitchCells(Switches(s, n - 1))
  }

  /** From any state satisfying the invariant, any number of switches keeps it. */
  lemma {:induction false} SwitchesKeepOneRunning(s: SystemState, n: nat)
    requires OneRunning(s)
    ensures OneRunning(Switches(s, n))
  {
    if n > 0 {
      SwitchesKeepOneRunning(s, n - 1);
      SwitchKeepsOneRunning(Switches(s, n - 1));
    }
  }

  /**
   * From init, after any sequence of switches exactly one cell is Running
   * and it is the active one, whose index is 0 or 1.
   */
  lemma OneRunningAfterAnySwitches(s: SystemState, n: nat)
    requires WellFormed(s)
    ensures OneRunning(Switches(Init(s), n))
    ensures RunningCells(Switches(Init(s), n)) == {Switches(Init(s), n).activeCell as nat}
  {
    SwitchesKeepOneRunning(Init(s), n);
    OneRunningIsSingleRunning(Switches(Init(s), n));
  }

  /**
   * Two switches in a row bring back the active cell, add exactly two to
   * the switch count (modulo 2^64), and leave the active cell Running and
   * the other Hibernated.
   */
  lemma TwoSwitchesReturn(s: SystemState)
    requires OneRunning(s)
    ensures var s2 := SwitchCells(SwitchCells(s));
            && s2.activeCell == s.activeCell
            && s2.switchCount == (s.switchCount + 2) % Word64
            && s2.cells[s.activeCell].state == StateRunning
            && s2.cells[Other(s.activeCell)].state == StateHibernated
  {
    var s1 := SwitchCells(s);
    assert s1.activeCell == Other(s.activeCell) && Other(s1.activeCell) == s.activeCell;
    CountTwice(s.switchCount);
  }

  /** Counting twice modulo 2^64 is adding two modulo 2^64. */
  lemma CountTwice(a: nat)
    ensures ((a + 1) % Word64 + 1) % Word64 == (a + 2) % Word64
  {
    var q, r := (a + 1) / Word64, (a + 1) % Word64;
    assert a + 1 == q * Word64 + r;
    if r + 1 == Word64 {
      assert a + 2 == (q + 1) * Word64;
    } else {
      assert a + 2 == q * Word64 + (r + 1);
    }
  }

  /** The last switch time lies in the past of the tick counter. */
  predicate ClockAhead(s: SystemState)
  {
    s.lastSwitchTime < s.ticks
  }

  /**
   * Until the tick counter wraps, every switch stamps a strictly later time
   * than the one before, and the clock stays ahead of it.
   */
  lemma SwitchTimeIncreases(s: SystemState)
    requires WellFormed(s) && ClockAhead(s) && s.ticks + 1 < Word64
    ensures SwitchCells(s).lastSwitchTime > s.lastSwitchTime
    ensures ClockAhead(SwitchCells(s))
  {
  }

  /** Init puts the clock ahead of the switch time unless the counter wraps. */
  lemma InitClockAhead(s: SystemState)
    requires WellFormed(s) && s.ticks + 1 < Word64
    ensures ClockAhead(Init(s))
  {
  }
}
